=== FILE: README.md ===
# AICE session layer in Dafny

A Dafny model of the backend session layer of AICE, a college-application assistant. The model covers:

- the JSON document store that holds users, essay-writing sessions, program-analysis sessions and their results (`Store`);
- the HTTP handlers that start a session, report its status and return its results (`Api`);
- the dispatcher that runs a crew of agents for a session, classifies each finished task by its description, persists every stage and marks the session completed or failed (`Dispatch`, `Classify`);
- the task builder with its agent-gating rules, descriptions and report paths (`Tasks`, `ReportPaths`);
- agent selection and configuration lookup (`Crew`, `Agents`, `Config`);
- the Reddit post-processing of the sentiment summary (`Sentiment`).

Everything the Python code gets from outside becomes a parameter:

- the language-model crew's kickoff, a function from the task list to raw outputs or an error;
- `json.loads`, a parser from text to an optional value;
- `ast.literal_eval`, the language model and the Reddit search, as plain functions;
- the configuration file's contents;
- the clock's timestamps;
- the fresh uuid, which is a parameter with a "not yet used" precondition.

Every `update_db` becomes one element of a sequence of written stores. That makes the status trajectory of a session (pending, in progress, then completed or failed) a statement about that sequence.

Modules:

- `results.dfy`: `Option`, `Result` and the Python exceptions the code raises.
- `json.dfy`: JSON values and their Python `str()`/`repr()` text, with a non-empty dict shown as `{...}` (see "## Left out").
- `text.dfy`: substring search, `lower`, `strip` and `join`.
- `config.dfy`, `agents.dfy`, `report_paths.dfy`, `tasks.dfy` and `crew.dfy`: configuration lookup, agents, report paths, the task builder and crew assembly.
- `store.dfy`: the document store.
- `classify.dfy`: routing of finished tasks to result slots.
- `generate_run.dfy`: the dispatcher.
- `app.dfy`: the six handlers.
- `sentiment.dfy`: the Reddit sentiment summary.

Points where the code behaves differently from what its names or comments suggest:

- Program tasks are classified by the words of their description. The agent's role is consulted only as a fallback (`generate_run.py:67-84`). The comparison task's description contains "structured", which contains "structure", and "structure" is tested before "compare". So its output lands in the structured-data slot, or in the raw-data slot when the criteria text contains "scrape admissions", which is tested first (`Classify.ProgramTasksRouted`). Either way the saved comparison report is always `None` (`Dispatch.ProgramReportIsNone`).
- The handlers call `generate_college_exploration_background` inline, before replying, although its name and the "Kick off background flow" comment suggest otherwise (`app.py:49-58`).
- The refinement task's description keeps the literal text `{{steps.essay_brainstorm.outline}}`. No interpolation replaces it (`Tasks.RefineKeepsPlaceholder`).
- A missing configuration section or key yields `None` for the model or temperature. Reading the configuration raises no error (`Agents.MissingSectionGivesNone`). The `None` values are then passed to the language-model client constructors (`agents/__init__.py:60-76`), and what those constructors do with them is not modelled.
- A handler whose store lookup raises `KeyError` answers with a plain 500 "Internal Server Error". It does not answer 404.

## Model

| member | source | states |
|---|---|---|
| Config.GetConfigValue | main/src/utils/__init__.py:11-13 | A missing section gives the default. In a dict section, a present key gives its value and a missing key gives the default. A section that is not a dict raises `AttributeError` naming its type, and that is the only failure. |
| Config.NonDefaultComesFromConfig | main/src/utils/__init__.py:11-13 | Any value other than the default was read from a dict section holding exactly that key. |
| Config.DefaultIrrelevantIffConfigured | main/src/utils/__init__.py:11-13 | When the lookup does not raise, the result is independent of the default exactly when the section and key are present. |
| Config.MissingSettingIsNone | main/src/utils/__init__.py:11-13 | A missing section, or a missing key in a dict section, reads as None. |
| Agents.Settings | main/src/agents/__init__.py:25-58 | Reading an agent's model and temperature succeeds exactly when its section is absent or a dict, and yields the two configured values (None when absent). |
| Agents.AgentsForSpec | main/src/agents/__init__.py:18-166 | Building agents for a list of keys succeeds exactly when every key's section is readable. The registry then holds exactly those keys, each with its role and configured settings. |
| Agents.CreateAgents | main/src/agents/__init__.py:18-166 | The registry holds exactly the five agent keys, each bound to its fixed role and configured model and temperature. It fails exactly when some section is unreadable. |
| Agents.MissingSectionGivesNone | main/src/agents/__init__.py:25-58 | An agent whose configuration section is missing is still created in the model, with its role kept and model and temperature None. Whether the language-model client accepts those `None` settings is not modelled. |
| ReportPaths.ReportDirValue | main/src/config/report_paths.py:5 | The report directory is `src/data/report/{session_id}`. |
| ReportPaths.TemplateShape | main/src/config/report_paths.py:7-11 | Each report path template is the report directory, a slash and that report's file name. |
| ReportPaths.OutputPathShape | main/src/tasks/__init__.py:56-57 | Formatting a template with a session id puts the id in place of the placeholder: `src/data/report/<id>/<file>`. |
| ReportPaths.FileNamesDistinct | main/src/config/report_paths.py:7-11 | The five reports have five different file names. |
| ReportPaths.OutputPathParts | main/src/tasks/__init__.py:56-57 | Equal output paths come from the same session id and the same file name. |
| ReportPaths.OutputPathInjective | main/src/tasks/__init__.py:56-57 | Two output paths are equal only for the same report and the same session id, so sessions never share report files. |
| ReportPaths.FormatSessionId | main/src/tasks/__init__.py:56-57 | `str.format` leaves a text without any brace unchanged. |
| ReportPaths.OutputPath | main/src/tasks/__init__.py:56-57 | A task's output file is `src/data/report/<session id>/<file name>`. |
| Tasks.MakeTask | main/src/tasks/__init__.py:65-170 | A built task carries its name and the agent registered under that task's agent key. |
| Tasks.DescriptionOf | main/src/tasks/__init__.py:65-170 | Each task's description interpolates exactly that task's request values: the essay text and target university for brainstorming, the essay text and style guidelines for refinement, the university list and criteria for scraping, nothing for processing, and the criteria for comparison. |
| Tasks.Render | main/src/tasks/__init__.py:67-75 | The rendered triple-quoted description contains every fixed phrase and the `str()` of every interpolated value of its template. |
| Tasks.EssayTasks | main/src/tasks/__init__.py:65-117 | The essay part of the builder emits at most two tasks. |
| Tasks.ProgramTasks | main/src/tasks/__init__.py:122-170 | The program part of the builder emits at most three tasks. |
| Tasks.CreateCollegeExplorationTasks | main/src/tasks/__init__.py:45-171 | The builder emits at most five tasks. |
| Tasks.EmittedIn | main/src/tasks/__init__.py:65-170 | Filtering the fixed task order keeps exactly the tasks whose gating condition holds. |
| Tasks.MakeAll | main/src/tasks/__init__.py:65-170 | Building a list of task names gives one task per name. |
| Tasks.BuildIsEmittedInOrder | main/src/tasks/__init__.py:45-171 | The builder's result equals building, in the fixed order brainstorm, refine, scrape, process, compare, every task whose gate is open. |
| Tasks.EmittedInKeepsOrder | main/src/tasks/__init__.py:65-170 | Filtering an ordered list of tasks keeps it ordered. |
| Tasks.BuildNames | main/src/tasks/__init__.py:45-171 | The names of the built tasks are the gated tasks, strictly in the fixed order. |
| Tasks.EmittedGating | main/src/tasks/__init__.py:65-170 | Brainstorm is emitted iff its agent exists. Refine iff its agent exists and brainstorm was emitted. Scrape iff its agent exists. Process iff its agent exists and scrape was emitted. Compare iff its agent exists and process was emitted. |
| Tasks.GatingRules | main/src/tasks/__init__.py:45-171 | The same five gating equivalences, stated for the builder's output. |
| Tasks.TaskFields | main/src/tasks/__init__.py:65-170 | Every built task has its registered agent, the description for its name and inputs, its fixed context list, and the output file for its report under the session's directory. |
| Tasks.UpstreamEarlier | main/src/tasks/__init__.py:89-170 | The upstream task of an emitted task is itself emitted, at an earlier index. |
| Tasks.ContextPrecedes | main/src/tasks/__init__.py:114 | Every task named in a built task's context appears earlier in the built list. |
| Tasks.BrainstormArguments | main/src/tasks/__init__.py:67-75 | The brainstorm description interpolates exactly the essay text and the target university. |
| Tasks.RefineArguments | main/src/tasks/__init__.py:89-117 | The refinement description interpolates exactly the essay text and the style guidelines. |
| Tasks.ScrapeArguments | main/src/tasks/__init__.py:122-137 | The scrape description interpolates exactly the university list and the comparison criteria. |
| Tasks.ProcessInterpolatesNothing | main/src/tasks/__init__.py:140-153 | The processing description interpolates no request value. |
| Tasks.CompareArguments | main/src/tasks/__init__.py:156-170 | The comparison description interpolates exactly the comparison criteria. |
| Tasks.BrainstormEmbedsArguments | main/src/tasks/__init__.py:67-75 | The rendered brainstorm description contains the text of the essay and of the target university. |
| Tasks.RefineEmbedsArguments | main/src/tasks/__init__.py:89-117 | The rendered refinement description contains the text of the essay and of the style guidelines. |
| Tasks.ScrapeEmbedsArguments | main/src/tasks/__init__.py:122-137 | The rendered scrape description contains the text of the university list and of the criteria. |
| Tasks.CompareEmbedsArguments | main/src/tasks/__init__.py:156-170 | The rendered comparison description contains the text of the criteria. |
| Tasks.RefineKeepsPlaceholder | main/src/tasks/__init__.py:100 | The rendered refinement description still contains the literal `{{steps.essay_brainstorm.outline}}`. |
| Crew.SelectAgents | main/src/crew.py:28-32 | The selected registry holds exactly the requested names that exist, with their agents unchanged. |
| Crew.Attach | main/src/crew.py:53 | Each task is paired with the output at its own position, or with no output when the crew produced fewer outputs. |
| Crew.RunTasks | main/src/crew.py:45-54 | A crew run fails exactly when kickoff fails, re-raising its message. Otherwise it returns the given tasks, in order. |
| Crew.EmittedEssayOnly | main/src/crew.py:35-43 | With only essay agents selected, the builder emits brainstorm, then refine only when brainstorm is present. |
| Crew.EmittedProgramOnly | main/src/crew.py:88-96 | With only program agents selected, the builder emits scrape, process and compare, each only when its predecessor is present. |
| Crew.EssayCrewNames | main/src/crew.py:27-43 | The essay crew's task names follow from which of its two agents exist. |
| Crew.ProgramCrewNames | main/src/crew.py:76-96 | The program crew's task names follow from which of its three agents exist. |
| Crew.CreatedRegistryIsFull | main/src/crew.py:27 | A successfully created registry contains all five agents. |
| Crew.FullEssayChain | main/src/crew.py:35-43 | With every agent present, the essay crew runs brainstorm then refine. |
| Crew.FullProgramChain | main/src/crew.py:88-96 | With every agent present, the program crew runs scrape, process, compare. |
| Crew.EssayWritingCrew | main/src/crew.py:8-54 | The essay crew fails exactly when agent creation or kickoff fails, with that error. On success it returns the brainstorm and refine tasks, in order. |
| Crew.ProgramAnalysisCrew | main/src/crew.py:57-107 | The program crew fails exactly when agent creation or kickoff fails, with that error. On success it returns the scrape, process and compare tasks, in order. |
| Classify.ParseOrRaw | main/src/generate_run.py:115-121 | Text that parses as JSON yields the parsed value. Any other text is kept as the raw string. |
| Text.LowerFolds | main/src/generate_run.py:40 | `lower()` keeps the length, leaves no upper-case letter, moves each upper-case letter to its lower-case partner, keeps every other character, and lowering twice is lowering once. |
| Text.StripWindow | main/src/generate_run.py:40 | `strip()` keeps a contiguous window of the text. It drops only whitespace before and after the window, and the window neither starts nor ends with whitespace. |
| Text.StripKeepsContains | main/src/generate_run.py:68 | For a phrase with no whitespace at either end, stripping the text never hides or reveals the phrase in the lower-cased text. |
| Classify.RouteKeyFolded | main/src/generate_run.py:40 | The routing key has no upper-case letter and no whitespace at either end. |
| Classify.EssayRoute | main/src/generate_run.py:42-45 | A key containing "structure and outline" routes to the outline, even if it also contains "refine". A key containing "refine" but not that phrase routes to the refined draft. Any other key is not routed. |
| Classify.CollectEssay | main/src/generate_run.py:36-45 | Collecting essay outputs fails exactly when some task has no output, and then raises the `AttributeError` of reading `.raw` on None. |
| Classify.EssayLastMatchWins | main/src/generate_run.py:39-45 | The outline (or refined draft) is the parsed output of the last task routed to it, or the initial value when none is. |
| Classify.ProgramRoute | main/src/generate_run.py:70-84 | A key routes to raw data exactly when it contains "scrape admissions". A key routes to structured data exactly when it lacks "scrape admissions" and contains "transform the raw" or "structure". The report branch is taken exactly when "compare" is the only phrase present. The role fallback is taken exactly when no phrase is present and the agent's role is "Program Comparison Agent". No slot is taken exactly when no phrase is present and the role is any other. |
| Classify.Unwrap | main/src/generate_run.py:80-83 | A dict holding "comparison_report" yields that entry. Every other value, including a list, a string or a dict without the key, is kept whole. |
| Classify.FirstFallback | main/src/generate_run.py:76-84 | The first task caught by the role fallback: no earlier task is caught by it, and the index is the length of the list when no task is. |
| Classify.CollectProgram | main/src/generate_run.py:64-84 | Collecting program outputs fails, with the `.raw` `AttributeError`, exactly when some task the loop reaches has no output. The loop reaches every task up to and including the first one the role fallback catches. It cannot fail when every task has an output. |
| Classify.ReportUntouched | main/src/generate_run.py:70-75 | When no task reaches the comparison branch or the role fallback, the report keeps its initial value. |
| Classify.RoleFallbackDecides | main/src/generate_run.py:76-84 | The first task that reaches the role fallback decides the report: its `comparison_report` field when it is a dict holding one, otherwise the whole parsed output. This overwrites whatever earlier "compare" tasks stored in the report, and the loop stops there. |
| Classify.ProgramLastMatchWins | main/src/generate_run.py:67-84 | Raw and structured data hold the parsed output of the last task routed to them before the first role-fallback task. They keep their starting value when there is none. Outputs after that task are never read. When no task reaches the role fallback, the report likewise holds the parsed output of the last "compare" task, or keeps its starting value. |
| Classify.BrainstormKeyword | main/src/generate_run.py:40-42 | The stripped, lower-cased brainstorm description contains "structure and outline". |
| Classify.RefineKeyword | main/src/generate_run.py:40-44 | The stripped, lower-cased refinement description contains "refine". |
| Classify.ScrapeKeyword | main/src/generate_run.py:68-70 | The stripped, lower-cased scrape description contains "scrape admissions". |
| Classify.ProcessKeyword | main/src/generate_run.py:68-72 | The stripped, lower-cased processing description contains "structure". |
| Classify.CompareKeyword | main/src/generate_run.py:68-72 | The stripped, lower-cased comparison description contains "structure", so it is caught before the "compare" test. |
| Classify.EssayTasksRouted | main/src/generate_run.py:39-45 | The brainstorm task routes to the outline, and the refinement task routes to one of the two essay slots. |
| Classify.ProgramTasksRouted | main/src/generate_run.py:67-75 | The scrape task routes to raw data. Processing and comparison route to raw or structured data, whatever the agent's role. |
| Classify.ProgramCrewNeverReports | main/src/generate_run.py:67-84 | No task the program crew builds ever reaches the report branch or the role fallback. |
| Classify.EssayCrewRouting | main/src/generate_run.py:29-45 | A successful essay crew yields two tasks: the first routed to the outline, the second to one of the essay slots. |
| Classify.EssayTwoTasks | main/src/generate_run.py:37-45 | For such a two-task run, the outline and draft are the two parsed outputs. When the second task also routes to the outline, it overwrites the outline and the draft stays None. |
| Dispatch.GenerateCollegeExplorationBackground | main/src/generate_run.py:18-112 | An unknown flow raises `ValueError` naming the flow, with nothing written. A missing session raises `KeyError` again from the failure handler, with nothing written. |
| Dispatch.EssaySteps | main/src/generate_run.py:20-48 | For a missing session the essay steps write nothing and raise the lookup's `KeyError`. Otherwise the first write marks the session in progress. The steps raise nothing exactly when they made a second write, the saved results. |
| Dispatch.MarkEssayFailed | main/src/generate_run.py:96-102 | Marking fails exactly when the session is missing. Otherwise the session gets status failed and the exception's text as its error, and no other session or store changes. |
| Dispatch.SettleEssay | main/src/generate_run.py:94-102 | A run that raised nothing is left as it is. A run that raised keeps its writes and appends at most one. It stops raising exactly when the session still exists in the last store, which then holds the session marked failed. |
| Dispatch.ProgramSteps | main/src/generate_run.py:50-89 | For a missing session the program steps write nothing and raise the lookup's `KeyError`. Otherwise the first write marks the session in progress. The steps raise nothing exactly when all four writes were made. |
| Dispatch.MarkProgramFailed | main/src/generate_run.py:103-109 | Marking fails exactly when the session is missing. Otherwise the session gets status failed and the exception's text as its error, and no other session or store changes. |
| Dispatch.SettleProgram | main/src/generate_run.py:103-109 | A run that raised nothing is left as it is. A run that raised keeps its writes and appends at most one. It stops raising exactly when the session still exists, which then holds the session marked failed. |
| Dispatch.SaveStages | main/src/generate_run.py:86-89 | Saving the program stages writes three times: raw data, then structured data, then the report. Only the last write marks the session completed. |
| Dispatch.EssayStepsFailed | main/src/generate_run.py:20-48 | A failed essay run has written only the in-progress mark. |
| Dispatch.EssayStepsCompleted | main/src/generate_run.py:20-48 | A successful essay run writes the in-progress mark, then the saved results. |
| Dispatch.EssayTrajectory | main/src/generate_run.py:20-109 | An essay run for an existing session writes in progress, then either completed with results or failed with the exception's text, and raises nothing. |
| Dispatch.EssayFailures | main/src/generate_run.py:29-48 | A missing essay field raises `KeyError` for the first missing one in request order. A crew failure raises that failure. A task without output raises the `.raw` `AttributeError`, and only then. |
| Dispatch.EssayResultsSaved | main/src/generate_run.py:36-48 | A successful essay run saves exactly the two crew outputs, parsed, as the outline and refined draft. |
| Dispatch.ProgramTrajectory | main/src/generate_run.py:50-109 | A program run for an existing session writes in progress, then either the three stages and completed, or failed with the exception's text, and raises nothing. |
| Dispatch.ProgramStepsFailed | main/src/generate_run.py:50-89 | A failed program run has written only the in-progress mark. |
| Dispatch.ProgramStepsCompleted | main/src/generate_run.py:50-89 | A successful program run needs both request fields, a successful crew and complete outputs, and then saves exactly the collected stages. |
| Dispatch.ProgramReportIsNone | main/src/generate_run.py:67-89 | After a successful program run the stored comparison report is None. |
| Store.InitialDb | main/src/db/__init__.py:14-22 | A fresh store has all seven collections empty. |
| Store.InitialDbHoldsNothing | main/src/db/__init__.py:11-27 | Every getter raises on a fresh store. |
| Store.CreateUser | main/src/db/__init__.py:39-45 | Creating a user adds exactly the new id with its record and changes nothing else. |
| Store.GetUser | main/src/db/__init__.py:48-53 | Reading a user succeeds exactly for a known id, and otherwise raises `KeyError` "User <id> not found". |
| Store.UpdateUser | main/src/db/__init__.py:56-62 | Updating a known user shallow-merges the updates: new keys win, old keys stay, other users are untouched. An unknown id raises. |
| Store.DeleteUser | main/src/db/__init__.py:65-85 | Deleting a user removes the user and every session and data record owned by them, and keeps all other entries unchanged. Essay results carry no owner and are kept. It fails exactly when a data collection holds a non-dict value. |
| Store.CreateEssaySession | main/src/db/__init__.py:88-100 | Creating an essay session adds exactly one pending session with the given owner and inputs and no error. The other sessions and collections are unchanged. |
| Store.GetEssaySession | main/src/db/__init__.py:103-108 | Reading an essay session succeeds exactly for a known id, and otherwise raises the "Essay session <id> not found" `KeyError`. |
| Store.SaveEssayResults | main/src/db/__init__.py:111-123 | Saving essay results stores the outline, draft and time, and marks the session completed in one write. Nothing else changes, and an unknown session raises. |
| Store.GetEssayResults | main/src/db/__init__.py:126-131 | Reading essay results succeeds exactly when they exist, and otherwise raises the "No results" `KeyError`. |
| Store.NonDictRecordBlocksDelete | main/src/db/__init__.py:70-81 | A comparison report that is not a dict (None, a string, a list) makes deleting any user raise. |
| Store.DeleteUserSkippingValues | main/src/db/__init__.py:65-85 | The corrected cascade never raises. It removes the user, the sessions they own and the dict records whose user_id names them, and keeps everything else unchanged. |
| Store.CorrectedDeleteAgrees | main/src/db/__init__.py:65-85 | Wherever the original delete succeeds, the corrected cascade leaves exactly the same store. |
| Store.DeleteEssaySession | main/src/db/__init__.py:134-139 | Deleting an essay session removes it and its results and keeps everything else. An unknown id changes nothing. |
| Store.CreateProgramAnalysisSession | main/src/db/__init__.py:145-159 | Creating a program session adds exactly one pending session with the given owner, list and criteria, and changes nothing else. |
| Store.GetProgramAnalysisSession | main/src/db/__init__.py:162-167 | Reading a program session succeeds exactly for a known id, and otherwise raises the "Analysis session <id> not found" `KeyError`. |
| Store.SaveRawAdmissionsData | main/src/db/__init__.py:170-176 | Saving raw data for a known session stores it and leaves the session's status alone. An unknown session raises. |
| Store.GetRawAdmissionsData | main/src/db/__init__.py:179-184 | Reading raw data succeeds exactly when it exists, and otherwise raises the "No raw data" `KeyError`. |
| Store.SaveStructuredAdmissionsData | main/src/db/__init__.py:187-193 | Saving structured data for a known session stores it and leaves the session's status alone. An unknown session raises. |
| Store.GetStructuredAdmissionsData | main/src/db/__init__.py:196-201 | Reading structured data succeeds exactly when it exists, and otherwise raises the "No structured data" `KeyError`. |
| Store.SaveProgramComparisonReport | main/src/db/__init__.py:204-211 | Saving the report stores it and marks the session completed, with nothing else changed. An unknown session raises. |
| Store.GetProgramComparisonReport | main/src/db/__init__.py:214-219 | Reading the report succeeds exactly when it exists, and otherwise raises the "No comparison report" `KeyError`. |
| Store.DeleteProgramAnalysisSession | main/src/db/__init__.py:222-229 | Deleting a program session removes it and its three result records and keeps everything else. |
| Store.SaveThenGet | main/src/db/__init__.py:111-219 | What each save writes, the matching getter returns. |
| Store.CreateThenGet | main/src/db/__init__.py:88-167 | A created session reads back pending with its inputs, and every other session reads as before. |
| Store.DeleteUserOrphansEssayResults | main/src/db/__init__.py:65-85 | After a user's session has saved results, deleting the user removes the session but leaves its results readable. |
| Dispatch.CompletedAnalysisBlocksDeleteUser | main/src/generate_run.py:67-89 | After any completed program analysis, deleting any user raises, because the stored report is None. |
| Dispatch.CompletedAnalysisCorrectedDelete | main/src/db/__init__.py:65-85 | After a completed analysis, the corrected cascade deletes the user and keeps the None report, which names no user. |
| Api.StartEssaySession | main/src/app.py:26-60 | The request is rejected with 400 "Missing required fields", writing nothing, exactly when a field is missing or falsy. Otherwise the session is created, the flow runs, and the reply carries the new session id. |
| Api.EssayPayloadValid | main/src/app.py:38-44 | A valid essay request has all four fields, and none of the three text fields is the empty string. |
| Api.GetEssayStatus | main/src/app.py:63-76 | A known session answers its id and status, plus its error (default "Unknown error") exactly when it failed. An unknown id answers 500. |
| Api.GetEssayResult | main/src/app.py:79-91 | Saved results answer the outline and refined draft. Otherwise the answer is 500. |
| Api.StartProgramAnalysis | main/src/app.py:94-123 | The request is rejected with 400 "Missing or invalid fields", writing nothing, exactly when the user id is falsy or the list or criteria is not a list. Otherwise the session is created, the flow runs, and the reply carries the id. |
| Api.ProgramPayloadValid | main/src/app.py:105-110 | A program request is valid exactly when its user id is truthy and both the university list and the criteria are present as lists, possibly empty. |
| Api.GetProgramAnalysisStatus | main/src/app.py:126-132 | A known session answers its id and status. An unknown id answers 500. |
| Api.GetProgramAnalysisResult | main/src/app.py:135-147 | The answer is 200 exactly when raw data, structured data and report all exist, and then holds all three. Otherwise it is 500. |
| Api.EssayRequestFields | main/src/app.py:50-58 | The dispatched request holds the essay flow and the three essay fields. |
| Api.ProgramRequestFields | main/src/app.py:114-121 | The dispatched request holds the program flow and the two program fields. |
| Api.StartEssayLifecycle | main/src/app.py:26-60 | A valid start writes three stores: the session pending, then in progress, then completed or failed. Other sessions and users are unchanged. |
| Api.StartProgramLifecycle | main/src/app.py:94-123 | A valid start writes pending, in progress, then completed or failed (three or five stores). Essay sessions and users are unchanged. |
| Api.EssayStepsOutcome | main/src/generate_run.py:29-48 | Started from the handler, the essay steps raise exactly the crew's error, or the `.raw` error when a task has no output, and otherwise nothing. |
| Api.EssayDispatchOutcome | main/src/generate_run.py:20-109 | After dispatch the session is completed exactly when the crew ran and every task produced output. Otherwise it is failed, with the text of the error that stopped it. |
| Api.EssayDispatchSettles | main/src/generate_run.py:20-109 | Dispatch from the handler marks the session in progress, then settles it, changing no other session. |
| Api.EssayStatusAfterStart | main/src/app.py:26-76 | Right after a valid start, the status endpoint answers completed when the crew produced every output. Otherwise it answers failed with the error's text. |
| Api.EssayDispatchResults | main/src/generate_run.py:36-48 | A completed dispatch saves exactly the two parsed crew outputs. A failed one saves no results. |
| Api.EssayResultAfterStart | main/src/app.py:26-91 | Right after a valid start, the result endpoint answers the two parsed crew outputs when the session completed, and 500 when it failed and had no earlier results. |
| Api.ProgramDispatchSettles | main/src/generate_run.py:50-109 | Dispatch from the handler marks the program session in progress, then settles it, changing no other session. |
| Api.ProgramStatusAfterStart | main/src/app.py:94-132 | Right after a valid start, the status endpoint answers completed or failed, never pending or in progress. |
| Api.ProgramDispatchResults | main/src/generate_run.py:67-89 | A completed program dispatch stores None as the comparison report. |
| Api.ProgramResultAfterStart | main/src/app.py:94-147 | Right after a valid start that completed, the result endpoint answers 200 with a None comparison report. |
| Sentiment.DictGet | main/src/utils/sentiment_utils.py:74-78 | `.get(key, default)` succeeds exactly on a dict, giving the value or the default. On anything else it raises `AttributeError` naming the type. |
| Sentiment.Prefix | main/src/utils/sentiment_utils.py:77 | `[:200]` on a string or list yields its prefix of length min(200, length). A dict raises "unhashable type: 'slice'". |
| Sentiment.Children | main/src/utils/sentiment_utils.py:74-80 | Iterating the children of a list gives its items. An empty string or dict gives none. A non-empty string or dict fails at the first item's `.get`. |
| Sentiment.PostOf | main/src/utils/sentiment_utils.py:76-79 | A post is built exactly when the item and its data are dicts and the title is a string or list. The title is cut to at most 200 characters and is a prefix of the original. The url is the reddit.com prefix plus the permalink. |
| Sentiment.PostsOf | main/src/utils/sentiment_utils.py:75-81 | The list comprehension succeeds exactly when every item does, with one post per item in order. Otherwise it raises the first failing item's error. |
| Sentiment.RawPosts | main/src/utils/sentiment_utils.py:74-81 | A response body that is not a dict raises `AttributeError`. Posts are read only from a dict body with dict data. |
| Sentiment.ListingPosts | main/src/utils/sentiment_utils.py:74-81 | For a listing with a children list, posts are built exactly when every child converts, one post per child with its permalink url. |
| Sentiment.RawTitlesCut | main/src/utils/sentiment_utils.py:77 | Every string title in the posts is at most 200 characters and a prefix of the original title. |
| Sentiment.TopTitles | main/src/utils/sentiment_utils.py:104-114 | The ranking is accepted exactly when it evaluates to a list of strings, and then gives those strings in order. |
| Sentiment.Matching | main/src/utils/sentiment_utils.py:117 | The filtered posts are exactly the raw posts whose string title the ranking names, in their original order. Each chosen post keeps its number of occurrences, and every other post has none. |
| Sentiment.SelectPosts | main/src/utils/sentiment_utils.py:117 | The selection is the first min(5, matches) matching posts, an ordered sub-list of the raw posts. When at most five match, it holds every chosen post. |
| Sentiment.TitleLinesListAll | main/src/utils/sentiment_utils.py:99 | The ranking prompt lists every raw post's title as a "- " line. |
| Sentiment.RedditListShowsAll | main/src/utils/sentiment_utils.py:120 | The sentiment prompt lists every selected post's title and url. |
| Sentiment.SummarizeReview | main/src/utils/sentiment_utils.py:45-135 | A raised search answers 502 "Reddit search error: ...". A non-200 status answers 502 "Reddit search failed". A malformed listing raises. An unreadable ranking answers 500, and only then. Otherwise the result holds the first min(5, matches) posts of the filtered list, in order, and the stripped summary of exactly those posts. |
| Sentiment.SentimentRedditSummary | main/src/utils/sentiment_utils.py:37-45 | No reviews answers 400 "Must supply at least one review". Otherwise only the first review is summarized. |

## Left out

- The frontend, the construction of the language-model clients, and the tools the agents use are outside the session layer. They are not modelled.
- Reading and writing the store file: `read_db` and `update_db` become passing a `Db` value, and each `update_db` is one element of the written sequence. Concurrent requests and file races are not modelled.
- `uuid4` and `datetime.utcnow` are parameters: a fresh id (with the precondition that it is unused) and opaque timestamp strings.
- Logging and the CORS middleware are not modelled.
- The crew's kickoff, `json.loads`, `ast.literal_eval`, the language model and the Reddit HTTP call are function parameters. Their internal behaviour, including the HTTP timeout, is not modelled.
- Floating-point numbers are not representable: `Json` has no float constructor, so no stored or configured value can be a float. Three behaviours that depend on floats are therefore not modelled. A float configuration section would raise `AttributeError: 'float' object has no attribute 'get'` in `get_config_value` (`utils/__init__.py:13`), and a float Reddit child would raise the same error in the listing loop. The `str()` of a float interpolated into a task description or a Reddit url is not modelled either. A configured temperature is an integer, a string or another non-float value in the model.
- A Reddit response whose body is not JSON (`resp.json()` raising) is not modelled. The search reply always carries a JSON body.
- `ast.literal_eval` results that are not JSON, such as tuples or sets, are represented by any non-list value. The outcome (a 500 reply) is the same.
- The fixed wording of the three Reddit prompts is not modelled. A prompt is represented by the values it interpolates: the review, the title lines, and the list of selected posts.
- Sentiment.Children: iterating a non-empty string or dict is modelled as the `AttributeError` raised by the first item's `.get`. That item is always a string, so its text never depends on the item's value.
- Tasks.PhraseText: a few fixed phrases are written as concatenations of shorter literals around their keywords. The text is the same as in the source.
- The number of Reddit posts the prompt text announces ("20", "5") is part of the prompt wording and is not modelled.
- An uncaught exception in a handler becomes a plain 500 reply. The framework's error page and exception details are not modelled.
- Store.DeleteUser: the raised `AttributeError` names the type of the first non-dict record in insertion order. A map keeps no insertion order, so the model states only that the delete fails.
- Json.Repr: a non-empty dict is shown as `{...}` rather than with its entries, because a map keeps no insertion order. Non-ASCII characters that Python's `repr()` escapes (non-printable ones such as U+0085 or U+200B) are kept as they are. ASCII control characters get Python's `\xNN` escape. The consequence reaches routing. A dict-valued request field rendered into a description is searched as `{...}`. With `style_guidelines = {"k": "structure and outline"}`, Python routes the refinement output to the outline, overwriting the brainstorm outline, and leaves `refined_draft` as `None`. The model routes it to the refined draft. `Classify.EssayTasksRouted`, `Classify.EssayCrewRouting`, `Classify.EssayTwoTasks` and the `Tasks.*EmbedsArguments` lemmas hold for the model's rendering. For dict-valued fields whose entries contain a routing phrase, they are not promises about Python.
- Sentiment.Prefix: slicing a dict follows Python before 3.12, where `d[:200]` raises `TypeError("unhashable type: 'slice'")`. From Python 3.12 on, slices are hashable and the lookup raises `KeyError(slice(None, 200, None))`. The code pins no interpreter version. Either way the exception is uncaught and the request ends in a 500 reply.
- Text.Lower: only ASCII letters are lower-cased, where Python's `str.lower()` folds all of Unicode. Routing searches the lowered key for six phrases: "structure and outline", "refine", "scrape admissions", "transform the raw", "structure" and "compare". Each phrase is made of lower-case ASCII letters and spaces. Only two non-ASCII characters lower-case to something containing an ASCII letter, and none to a space. U+212A (Kelvin sign) lower-cases to "k", and no phrase contains "k". U+0130 (İ) lower-cases to "i" followed by U+0307. No phrase ends in "i" or contains U+0307, so that "i" can never be part of a match. So the ASCII fold and the full fold find the same phrases, and routing is the same.

## Findings

| source | as written | input that shows it | evidently intended | confidence | as-written member | corrected member |
|---|---|---|---|---|---|---|
| main/src/db/__init__.py:78-81 | The cascade calls `record.get("user_id")` on every record of the raw-data, structured-data and comparison-report collections, and those records are stored as given. | One completed program analysis stores the report `None` (generate_run.py:66 and 89). Every later `delete_user` call then raises `AttributeError: 'NoneType' object has no attribute 'get'`. | Records that are not dicts belong to no user and are skipped, so deleting a user always succeeds. | medium; not executed | Dispatch.CompletedAnalysisBlocksDeleteUser | Store.DeleteUserSkippingValues |

=== FILE: agents.dfy ===
/** The five agents of the system, as the task builder and the dispatcher see
    them: a registry key, a role, and the model settings read from the
    configuration. The LLM clients and tools behind them are not modelled. */
module Agents {
  import opened Results
  import opened Json
  import opened Config

  datatype Agent = Agent(role: string, model: Json, temperature: Json)

  const EssayBrainstormKey := "essay_brainstorm_agent"
  const EssayRefinementKey := "essay_refinement_agent"
  const UniInfoScraperKey := "uni_info_scraper_agent"
  const UniInfoProcessorKey := "uni_info_processor_agent"
  const ProgramComparisonKey := "program_comparison_agent"

  const EssayBrainstormRole := "Essay Brainstorm Agent"
  const EssayRefinementRole := "Essay Refinement Agent"
  const UniInfoScraperRole := "University Info Scraper Agent"
  const UniInfoProcessorRole := "University Info Processor Agent"
  const ProgramComparisonRole := "Program Comparison Agent"

  /** The registry keys, in the order their settings are read. */
  const AgentKeys := [EssayBrainstormKey, EssayRefinementKey, UniInfoScraperKey, UniInfoProcessorKey, ProgramComparisonKey]

  const Roles := map[
    EssayBrainstormKey := EssayBrainstormRole,
    EssayRefinementKey := EssayRefinementRole,
    UniInfoScraperKey := UniInfoScraperRole,
    UniInfoProcessorKey := UniInfoProcessorRole,
    ProgramComparisonKey := ProgramComparisonRole
  ]

  /** The model and temperature of one agent, both looked up with a None default. */
  function Settings(config: Configuration, key: string): (r: Result<(Json, Json), Raised>)
    ensures r.Success? <==> key !in config || config[key].JObj?
    ensures r.Success? ==> GetConfigValue(config, key, "model", JNull) == Success(r.value.0)
    ensures r.Success? ==> GetConfigValue(config, key, "temperature", JNull) == Success(r.value.1)
  {
    match GetConfigValue(config, key, "model", JNull)
    case Failure(e) => Failure(e)
    case Success(m) =>
      match GetConfigValue(config, key, "temperature", JNull)
      case Failure(e) => Failure(e)
      case Success(t) => Success((m, t))
  }

  /** A section that can be read: absent, or a dictionary. */
  predicate Readable(config: Configuration, key: string) {
    key !in config || config[key].JObj?
  }

  /** The agents of the given keys, reading their settings in order; the
      first unreadable section raises. */
  function AgentsFor(config: Configuration, keys: seq<string>): Result<map<string, Agent>, Raised>
    requires forall k | k in keys :: k in Roles
  {
    if keys == [] then Success(map[])
    else
      match Settings(config, keys[0])
      case Failure(e) => Failure(e)
      case Success(st) =>
        match AgentsFor(config, keys[1..])
        case Failure(e) => Failure(e)
        case Success(m) => Success(m[keys[0] := Agent(Roles[keys[0]], st.0, st.1)])
  }

  /** The agent a key names under a configuration whose section can be
      read: its setting where configured, None where not. */
  function Configured(config: Configuration, key: string): Agent
    requires key in Roles && Readable(config, key)
  {
    var section := if key in config then config[key].fields else map[];
    Agent(Roles[key], Get(section, "model"), Get(section, "temperature"))
  }

  lemma {:induction false} AgentsForSpec(config: Configuration, keys: seq<string>)
    requires forall k | k in keys :: k in Roles
    ensures AgentsFor(config, keys).Success? <==> forall k | k in keys :: Readable(config, k)
    ensures AgentsFor(config, keys).Success? ==>
              var m := AgentsFor(config, keys).value;
              m.Keys == (set k | k in keys) && forall k | k in m :: m[k] == Configured(config, k)
  {
    if keys != [] {
      AgentsForSpec(config, keys[1..]);
      assert keys == [keys[0]] + keys[1..];
      assert forall k | k in keys :: k == keys[0] || k in keys[1..];
      assert (set k | k in keys) == {keys[0]} + (set k | k in keys[1..]);
    }
  }

  /** `create_college_exploration_agents`: all five agents, or the error of
      the first section that is not a dictionary. */
  function CreateAgents(config: Configuration): (r: Result<map<string, Agent>, Raised>)
    ensures r.Success? <==> forall k | k in AgentKeys :: Readable(config, k)
    ensures r.Success? ==> r.value.Keys == set k | k in AgentKeys
    ensures r.Success? ==> forall k | k in r.value :: r.value[k] == Configured(config, k)
  {
    AgentsForSpec(config, AgentKeys);
    AgentsFor(config, AgentKeys)
  }

  /** An agent whose section is missing from the configuration gets None for
      its model and temperature instead of an error. */
  lemma MissingSectionGivesNone(config: Configuration, key: string)
    requires key in AgentKeys && key !in config
    requires forall k | k in AgentKeys :: Readable(config, k)
    ensures CreateAgents(config).Success?
    ensures CreateAgents(config).value[key] == Agent(Roles[key], JNull, JNull)
  {
  }
}

=== FILE: app.dfy ===
/** The six HTTP handlers. A start handler validates the payload, creates
    the session, runs the dispatcher on it before replying, and replies with
    the new id; a status or result handler reads the store. An exception a
    handler does not catch becomes FastAPI's plain 500 reply. */
module Api {
  import opened Results
  import opened Json
  import opened Store
  import opened Crew
  import opened Classify
  import opened Dispatch

  /** An HTTP status code and the JSON body. */
  datatype Reply = Reply(code: int, body: Json)

  /** What a request did: the stores it wrote, in order, and its reply. */
  datatype Exchange = Exchange(writes: seq<Db>, reply: Reply)

  /** `raise HTTPException(status_code=code, detail=detail)`. */
  function Detail(code: int, detail: string): Reply {
    Reply(code, JObj(map["detail" := JStr(detail)]))
  }

  /** The reply to an exception nothing caught. */
  const InternalServerError := Reply(500, JStr("Internal Server Error"))

  function SessionIdReply(sessionId: string): Reply {
    Reply(200, JObj(map["session_id" := JStr(sessionId)]))
  }

  /** The dispatcher has finished with a session. */
  predicate Settled(s: Session) {
    s.status == Completed || s.status == Failed
  }

  /** `after` holds the sessions of `before`, unchanged, and one more. */
  predicate AddsSession(before: map<string, Session>, after: map<string, Session>, sessionId: string) {
    && after.Keys == before.Keys + {sessionId}
    && forall k | k in before :: after[k] == before[k]
  }

  /** `after` holds the same ids as `before`, and the same sessions except
      possibly the one at `sessionId`. */
  predicate ChangesOnly(before: map<string, Session>, after: map<string, Session>, sessionId: string) {
    && after.Keys == before.Keys
    && forall k | k in before && k != sessionId :: after[k] == before[k]
  }

  lemma AddThenChange(a: map<string, Session>, b: map<string, Session>, c: map<string, Session>, sessionId: string)
    requires sessionId !in a && AddsSession(a, b, sessionId) && ChangesOnly(b, c, sessionId)
    ensures AddsSession(a, c, sessionId)
  {
  }

  // ---------------------------------------------------------------------------
  // Essay sessions
  // ---------------------------------------------------------------------------

  /** The request data the essay handler dispatches. */
  function EssayRequest(essayText: Json, targetUniversity: Json, styleGuidelines: Json): map<string, Json> {
    map["flow_type" := EssayFlow, "essay_text" := essayText,
        "target_university" := targetUniversity, "style_guidelines" := styleGuidelines]
  }

  /** All four essay fields are present and truthy. */
  predicate EssayPayloadValid(payload: map<string, Json>)
    ensures EssayPayloadValid(payload) ==>
              && "user_id" in payload && "essay_text" in payload
              && "target_university" in payload && "style_guidelines" in payload
              && payload["essay_text"] != JStr("") && payload["target_university"] != JStr("")
              && payload["style_guidelines"] != JStr("")
  {
    && Truthy(Get(payload, "user_id")) && Truthy(Get(payload, "essay_text"))
    && Truthy(Get(payload, "target_university")) && Truthy(Get(payload, "style_guidelines"))
  }

  /** The store right after a valid essay request created its session. */
  function CreatedEssay(db: Db, payload: map<string, Json>, sessionId: string, createdAt: string): Db
    requires sessionId !in db.essaySessions
  {
    CreateEssaySession(db, sessionId, Get(payload, "user_id"), Get(payload, "essay_text"), Get(payload, "target_university"), createdAt)
  }

  lemma EssayRequestFields(essayText: Json, targetUniversity: Json, styleGuidelines: Json)
    ensures var data := EssayRequest(essayText, targetUniversity, styleGuidelines);
            && Get(data, "flow_type") == EssayFlow
            && "essay_text" in data && data["essay_text"] == essayText
            && "target_university" in data && data["target_university"] == targetUniversity
            && "style_guidelines" in data && data["style_guidelines"] == styleGuidelines
  {
  }

  /** The dispatch of a stored essay session raised nothing and wrote twice:
      the session in_progress, then the session settled, with every other
      essay session, every program session and every user as they were. */
  predicate EssayRunSettles(db: Db, sessionId: string, run: Run) {
    && run.raised.None? && |run.writes| == 2
    && sessionId in run.writes[0].essaySessions && run.writes[0].essaySessions[sessionId].status == InProgress
    && sessionId in run.writes[1].essaySessions && Settled(run.writes[1].essaySessions[sessionId])
    && ChangesOnly(db.essaySessions, run.writes[1].essaySessions, sessionId)
    && run.writes[1].programSessions == db.programSessions
    && run.writes[1].users == db.users
  }

  lemma EssayDispatchSettles(db: Db, sessionId: string, essayText: Json, targetUniversity: Json, styleGuidelines: Json, env: Env)
    requires sessionId in db.essaySessions
    ensures EssayRunSettles(db, sessionId,
              GenerateCollegeExplorationBackground(db, sessionId, EssayRequest(essayText, targetUniversity, styleGuidelines), env))
  {
    var data := EssayRequest(essayText, targetUniversity, styleGuidelines);
    EssayRequestFields(essayText, targetUniversity, styleGuidelines);
    EssayTrajectory(db, sessionId, data, env);
    EssaySettlesFrom(db, sessionId, GenerateCollegeExplorationBackground(db, sessionId, data, env), EssaySteps(db, sessionId, data, env).raised);
  }

  lemma EssaySettlesFrom(db: Db, sessionId: string, run: Run, raised: Option<Raised>)
    requires sessionId in db.essaySessions && EssayRunFrom(db, sessionId, run, raised)
    ensures EssayRunSettles(db, sessionId, run)
  {
  }

  /** `POST /sessions/essay`. `sessionId` is the fresh id uuid4 draws and
      `createdAt` the creation time; `env` is what the dispatcher runs with. */
  function StartEssaySession(db: Db, payload: map<string, Json>, sessionId: string, createdAt: string, env: Env): (r: Exchange)
    requires sessionId !in db.essaySessions
    ensures !EssayPayloadValid(payload) <==> r.reply.code == 400
    ensures !EssayPayloadValid(payload) ==> r == Exchange([], Detail(400, "Missing required fields"))
    ensures EssayPayloadValid(payload) ==>
              && r.reply == SessionIdReply(sessionId)
              && |r.writes| == 3
              && r.writes[0] == CreatedEssay(db, payload, sessionId, createdAt)
  {
    var userId, essayText := Get(payload, "user_id"), Get(payload, "essay_text");
    var targetUniversity, styleGuidelines := Get(payload, "target_university"), Get(payload, "style_guidelines");
    if !(Truthy(userId) && Truthy(essayText) && Truthy(targetUniversity) && Truthy(styleGuidelines)) then
      Exchange([], Detail(400, "Missing required fields"))
    else
      var created := CreateEssaySession(db, sessionId, userId, essayText, targetUniversity, createdAt);
      var data := EssayRequest(essayText, targetUniversity, styleGuidelines);
      var run := GenerateCollegeExplorationBackground(created, sessionId, data, env);
      EssayDispatchSettles(created, sessionId, essayText, targetUniversity, styleGuidelines, env);
      var writes := [created] + run.writes;
      if run.raised.Some? then Exchange(writes, InternalServerError)
      else Exchange(writes, SessionIdReply(sessionId))
  }

  /** `GET /sessions/essay/{session_id}/status`. */
  function GetEssayStatus(db: Db, sessionId: string): (r: Reply)
    ensures sessionId !in db.essaySessions ==> r == InternalServerError
    ensures sessionId in db.essaySessions ==>
              var s := db.essaySessions[sessionId];
              && r.code == 200 && r.body.JObj?
              && r.body.fields.Keys == {"session_id", "status"} + (if s.status == Failed then {"error"} else {})
              && r.body.fields["session_id"] == JStr(sessionId)
              && r.body.fields["status"] == JStr(StatusText(s.status))
              && (s.status == Failed ==> r.body.fields["error"] == JStr(s.error.GetOr("Unknown error")))
  {
    match GetEssaySession(db, sessionId)
    case Failure(_) => InternalServerError
    case Success(s) =>
      var resp := map["session_id" := JStr(sessionId), "status" := JStr(StatusText(s.status))];
      if s.status == Failed then Reply(200, JObj(resp["error" := JStr(s.error.GetOr("Unknown error"))]))
      else Reply(200, JObj(resp))
  }

  /** `GET /sessions/essay/{session_id}/result`. */
  function GetEssayResult(db: Db, sessionId: string): (r: Reply)
    ensures sessionId !in db.essayResults ==> r == InternalServerError
    ensures sessionId in db.essayResults ==>
              && r.code == 200 && r.body.JObj?
              && r.body.fields.Keys == {"outline", "refined_draft"}
              && r.body.fields["outline"] == db.essayResults[sessionId].outline
              && r.body.fields["refined_draft"] == db.essayResults[sessionId].refinedDraft
  {
    match GetEssayResults(db, sessionId)
    case Failure(_) => InternalServerError
    case Success(res) => Reply(200, JObj(map["outline" := res.outline, "refined_draft" := res.refinedDraft]))
  }

  // ---------------------------------------------------------------------------
  // Program-analysis sessions
  // ---------------------------------------------------------------------------

  function ProgramRequest(universityList: Json, comparisonCriteria: Json): map<string, Json> {
    map["flow_type" := ProgramFlow, "university_list" := universityList, "comparison_criteria" := comparisonCriteria]
  }

  /** A truthy user id and two lists; the lists may be empty. */
  predicate ProgramPayloadValid(payload: map<string, Json>)
    ensures ProgramPayloadValid(payload) <==>
              && Truthy(Get(payload, "user_id"))
              && "university_list" in payload && payload["university_list"].JArr?
              && "comparison_criteria" in payload && payload["comparison_criteria"].JArr?
  {
    Truthy(Get(payload, "user_id")) && Get(payload, "university_list").JArr? && Get(payload, "comparison_criteria").JArr?
  }

  function CreatedProgram(db: Db, payload: map<string, Json>, sessionId: string, createdAt: string): Db
    requires sessionId !in db.programSessions
  {
    CreateProgramAnalysisSession(db, sessionId, Get(payload, "user_id"), Get(payload, "university_list"),
                                 Get(payload, "comparison_criteria"), createdAt)
  }

  lemma ProgramRequestFields(universityList: Json, comparisonCriteria: Json)
    ensures var data := ProgramRequest(universityList, comparisonCriteria);
            && Get(data, "flow_type") == ProgramFlow
            && "university_list" in data && data["university_list"] == universityList
            && "comparison_criteria" in data && data["comparison_criteria"] == comparisonCriteria
  {
  }

  /** The dispatch of a stored program session raised nothing and wrote the
      in_progress mark, then either the failure or the three saves; its last
      write settles the session and keeps every other program session, every
      essay session and every user as they were. */
  predicate ProgramRunSettles(db: Db, sessionId: string, run: Run) {
    && run.raised.None? && (|run.writes| == 2 || |run.writes| == 4)
    && sessionId in run.writes[0].programSessions && run.writes[0].programSessions[sessionId].status == InProgress
    && var last := run.writes[|run.writes| - 1];
       && sessionId in last.programSessions && Settled(last.programSessions[sessionId])
       && ChangesOnly(db.programSessions, last.programSessions, sessionId)
       && last.essaySessions == db.essaySessions
       && last.users == db.users
  }

  lemma ProgramDispatchSettles(db: Db, sessionId: string, universityList: Json, comparisonCriteria: Json, env: Env)
    requires sessionId in db.programSessions
    ensures ProgramRunSettles(db, sessionId,
              GenerateCollegeExplorationBackground(db, sessionId, ProgramRequest(universityList, comparisonCriteria), env))
  {
    var data := ProgramRequest(universityList, comparisonCriteria);
    ProgramRequestFields(universityList, comparisonCriteria);
    ProgramTrajectory(db, sessionId, data, env);
    ProgramSettlesFrom(db, sessionId, GenerateCollegeExplorationBackground(db, sessionId, data, env), ProgramSteps(db, sessionId, data, env).raised);
  }

  lemma ProgramSettlesFrom(db: Db, sessionId: string, run: Run, raised: Option<Raised>)
    requires sessionId in db.programSessions && ProgramRunFrom(db, sessionId, run, raised)
    ensures ProgramRunSettles(db, sessionId, run)
  {
  }

  /** `POST /sessions/program-analysis`. */
  function StartProgramAnalysis(db: Db, payload: map<string, Json>, sessionId: string, createdAt: string, env: Env): (r: Exchange)
    requires sessionId !in db.programSessions
    ensures !ProgramPayloadValid(payload) <==> r.reply.code == 400
    ensures !ProgramPayloadValid(payload) ==> r == Exchange([], Detail(400, "Missing or invalid fields"))
    ensures ProgramPayloadValid(payload) ==>
              && r.reply == SessionIdReply(sessionId)
              && (|r.writes| == 3 || |r.writes| == 5)
              && r.writes[0] == CreatedProgram(db, payload, sessionId, createdAt)
  {
    var userId, universityList := Get(payload, "user_id"), Get(payload, "university_list");
    var comparisonCriteria := Get(payload, "comparison_criteria");
    if !Truthy(userId) || !universityList.JArr? || !comparisonCriteria.JArr? then
      Exchange([], Detail(400, "Missing or invalid fields"))
    else
      var created := CreateProgramAnalysisSession(db, sessionId, userId, universityList, comparisonCriteria, createdAt);
      var data := ProgramRequest(universityList, comparisonCriteria);
      var run := GenerateCollegeExplorationBackground(created, sessionId, data, env);
      ProgramDispatchSettles(created, sessionId, universityList, comparisonCriteria, env);
      var writes := [created] + run.writes;
      if run.raised.Some? then Exchange(writes, InternalServerError)
      else Exchange(writes, SessionIdReply(sessionId))
  }

  /** `GET /sessions/program-analysis/{session_id}/status`: the status only,
      never the error. */
  function GetProgramAnalysisStatus(db: Db, sessionId: string): (r: Reply)
    ensures sessionId !in db.programSessions ==> r == InternalServerError
    ensures sessionId in db.programSessions ==>
              && r.code == 200 && r.body.JObj?
              && r.body.fields.Keys == {"session_id", "status"}
              && r.body.fields["session_id"] == JStr(sessionId)
              && r.body.fields["status"] == JStr(StatusText(db.programSessions[sessionId].status))
  {
    match GetProgramAnalysisSession(db, sessionId)
    case Failure(_) => InternalServerError
    case Success(s) => Reply(200, JObj(map["session_id" := JStr(sessionId), "status" := JStr(StatusText(s.status))]))
  }

  /** `GET /sessions/program-analysis/{session_id}/result`: the three stored
      stages, or the 500 of the first one missing. */
  function GetProgramAnalysisResult(db: Db, sessionId: string): (r: Reply)
    ensures r.code == 200 <==>
              sessionId in db.rawData && sessionId in db.structuredData && sessionId in db.comparisonReports
    ensures r.code != 200 ==> r == InternalServerError
    ensures r.code == 200 ==>
              && r.body.JObj?
              && r.body.fields.Keys == {"raw_admissions_data", "structured_admissions_data", "program_comparison_report"}
              && r.body.fields["raw_admissions_data"] == db.rawData[sessionId]
              && r.body.fields["structured_admissions_data"] == db.structuredData[sessionId]
              && r.body.fields["program_comparison_report"] == db.comparisonReports[sessionId]
  {
    match GetRawAdmissionsData(db, sessionId)
    case Failure(_) => InternalServerError
    case Success(raw) =>
      match GetStructuredAdmissionsData(db, sessionId)
      case Failure(_) => InternalServerError
      case Success(structured) =>
        match GetProgramComparisonReport(db, sessionId)
        case Failure(_) => InternalServerError
        case Success(report) =>
          Reply(200, JObj(map["raw_admissions_data" := raw, "structured_admissions_data" := structured,
                              "program_comparison_report" := report]))
  }


  // ---------------------------------------------------------------------------
  // What a client sees after a start request
  // ---------------------------------------------------------------------------

  /** A valid essay request writes the created store and then whatever the
      dispatch of that store writes. */
  lemma StartEssayWrites(db: Db, payload: map<string, Json>, sessionId: string, createdAt: string, env: Env)
    requires sessionId !in db.essaySessions && EssayPayloadValid(payload)
    ensures var created := CreatedEssay(db, payload, sessionId, createdAt);
            var data := EssayRequest(Get(payload, "essay_text"), Get(payload, "target_university"), Get(payload, "style_guidelines"));
            StartEssaySession(db, payload, sessionId, createdAt, env).writes ==
              [created] + GenerateCollegeExplorationBackground(created, sessionId, data, env).writes
  {
  }

  /** The same for a valid program request. */
  lemma StartProgramWrites(db: Db, payload: map<string, Json>, sessionId: string, createdAt: string, env: Env)
    requires sessionId !in db.programSessions && ProgramPayloadValid(payload)
    ensures var created := CreatedProgram(db, payload, sessionId, createdAt);
            var data := ProgramRequest(Get(payload, "university_list"), Get(payload, "comparison_criteria"));
            StartProgramAnalysis(db, payload, sessionId, createdAt, env).writes ==
              [created] + GenerateCollegeExplorationBackground(created, sessionId, data, env).writes
  {
  }

  /** The last store a start request wrote, when the dispatch wrote some. */
  lemma LatestOfStart(db: Db, created: Db, dispatched: seq<Db>)
    requires dispatched != []
    ensures Latest(db, [created] + dispatched) == dispatched[|dispatched| - 1]
    ensures ([created] + dispatched)[0] == created
    ensures forall i | 0 <= i < |dispatched| :: ([created] + dispatched)[i + 1] == dispatched[i]
  {
  }

  // Essay requests

  /** `created` is `db` with one more essay session, pending, under the id. */
  predicate EssayCreated(db: Db, created: Db, sessionId: string) {
    && sessionId !in db.essaySessions
    && created == db.(essaySessions := created.essaySessions)
    && AddsSession(db.essaySessions, created.essaySessions, sessionId)
    && sessionId in created.essaySessions && created.essaySessions[sessionId].status == Pending
  }

  lemma CreatedEssayAdds(db: Db, payload: map<string, Json>, sessionId: string, createdAt: string)
    requires sessionId !in db.essaySessions
    ensures EssayCreated(db, CreatedEssay(db, payload, sessionId, createdAt), sessionId)
  {
  }

  /** The three stores of an essay request: the new session pending, then
      in_progress, then completed or failed; the sessions that existed
      before, every program session and every user are untouched. */
  predicate EssayLifecycle(db: Db, w: seq<Db>, sessionId: string) {
    && |w| == 3
    && sessionId in w[0].essaySessions && w[0].essaySessions[sessionId].status == Pending
    && sessionId in w[1].essaySessions && w[1].essaySessions[sessionId].status == InProgress
    && sessionId in w[2].essaySessions && Settled(w[2].essaySessions[sessionId])
    && AddsSession(db.essaySessions, w[2].essaySessions, sessionId)
    && w[2].programSessions == db.programSessions
    && w[2].users == db.users
  }

  lemma EssayLifecycleOf(db: Db, created: Db, sessionId: string, run: Run)
    requires EssayCreated(db, created, sessionId) && EssayRunSettles(created, sessionId, run)
    ensures EssayLifecycle(db, [created] + run.writes, sessionId)
  {
    LatestOfStart(db, created, run.writes);
    AddThenChange(db.essaySessions, created.essaySessions, run.writes[1].essaySessions, sessionId);
  }

  lemma StartEssayLifecycle(db: Db, payload: map<string, Json>, sessionId: string, createdAt: string, env: Env)
    requires sessionId !in db.essaySessions && EssayPayloadValid(payload)
    ensures EssayLifecycle(db, StartEssaySession(db, payload, sessionId, createdAt, env).writes, sessionId)
  {
    var e, t, g := Get(payload, "essay_text"), Get(payload, "target_university"), Get(payload, "style_guidelines");
    var created := CreatedEssay(db, payload, sessionId, createdAt);
    var run := GenerateCollegeExplorationBackground(created, sessionId, EssayRequest(e, t, g), env);
    StartEssayWrites(db, payload, sessionId, createdAt, env);
    CreatedEssayAdds(db, payload, sessionId, createdAt);
    EssayDispatchSettles(created, sessionId, e, t, g, env);
    EssayLifecycleOf(db, created, sessionId, run);
  }

  /** The essay crew ran and every task produced output. */
  predicate Ran(crew: Result<seq<Finished>, Raised>) {
    crew.Success? && forall i | 0 <= i < |crew.value| :: crew.value[i].output.Some?
  }

  /** The essay branch raised nothing exactly when the crew ran; otherwise it
      raised the crew's exception, or the AttributeError of reading `.raw`
      on a missing output. */
  predicate RaisedAsCrew(raised: Option<Raised>, crew: Result<seq<Finished>, Raised>) {
    && (raised.None? <==> Ran(crew))
    && (crew.Failure? ==> raised == Some(crew.error))
    && (crew.Success? && !Ran(crew) ==> raised == Some(NoRawOutput))
  }

  lemma EssayStepsOutcome(db: Db, sessionId: string, essayText: Json, targetUniversity: Json, styleGuidelines: Json, env: Env)
    requires sessionId in db.essaySessions
    ensures RaisedAsCrew(EssaySteps(db, sessionId, EssayRequest(essayText, targetUniversity, styleGuidelines), env).raised,
                         EssayWritingCrew(env.config, env.kickoff, sessionId, essayText, targetUniversity, styleGuidelines))
  {
    var data := EssayRequest(essayText, targetUniversity, styleGuidelines);
    EssayRequestFields(essayText, targetUniversity, styleGuidelines);
    EssayFailures(db, sessionId, data, env);
    RaisedAsCrewOf(EssaySteps(db, sessionId, data, env).raised,
                   EssayWritingCrew(env.config, env.kickoff, sessionId, essayText, targetUniversity, styleGuidelines));
  }

  lemma RaisedAsCrewOf(raised: Option<Raised>, crew: Result<seq<Finished>, Raised>)
    requires crew.Failure? ==> raised == Some(crew.error)
    requires crew.Success? ==>
               && (raised.Some? <==> exists i | 0 <= i < |crew.value| :: crew.value[i].output.None?)
               && (raised.Some? ==> raised == Some(NoRawOutput))
    ensures RaisedAsCrew(raised, crew)
  {
  }

  /** A settled essay session tells how the crew went: completed exactly when
      it ran, otherwise failed with the text of what it raised. */
  predicate SessionShowsCrew(s: Session, crew: Result<seq<Finished>, Raised>) {
    && (s.status == Completed <==> Ran(crew))
    && (s.status == Failed <==> !Ran(crew))
    && (crew.Failure? ==> s.error == Some(ExceptionText(crew.error)))
    && (crew.Success? && !Ran(crew) ==> s.error == Some(ExceptionText(NoRawOutput)))
  }

  /** How an essay dispatch ends: its second write holds the session as
      `SessionShowsCrew` describes. */
  predicate EssayRunOutcome(sessionId: string, run: Run, crew: Result<seq<Finished>, Raised>) {
    && |run.writes| == 2 && sessionId in run.writes[1].essaySessions
    && SessionShowsCrew(run.writes[1].essaySessions[sessionId], crew)
  }

  lemma EssayDispatchOutcome(db: Db, sessionId: string, essayText: Json, targetUniversity: Json, styleGuidelines: Json, env: Env)
    requires sessionId in db.essaySessions
    ensures EssayRunOutcome(sessionId,
              GenerateCollegeExplorationBackground(db, sessionId, EssayRequest(essayText, targetUniversity, styleGuidelines), env),
              EssayWritingCrew(env.config, env.kickoff, sessionId, essayText, targetUniversity, styleGuidelines))
  {
    var data := EssayRequest(essayText, targetUniversity, styleGuidelines);
    EssayRequestFields(essayText, targetUniversity, styleGuidelines);
    EssayTrajectory(db, sessionId, data, env);
    EssayStepsOutcome(db, sessionId, essayText, targetUniversity, styleGuidelines, env);
    EssayOutcomeFrom(db, sessionId, GenerateCollegeExplorationBackground(db, sessionId, data, env), EssaySteps(db, sessionId, data, env).raised,
                     EssayWritingCrew(env.config, env.kickoff, sessionId, essayText, targetUniversity, styleGuidelines));
  }

  lemma EssayOutcomeFrom(db: Db, sessionId: string, run: Run, raised: Option<Raised>, crew: Result<seq<Finished>, Raised>)
    requires sessionId in db.essaySessions && EssayRunFrom(db, sessionId, run, raised) && RaisedAsCrew(raised, crew)
    ensures EssayRunOutcome(sessionId, run, crew)
  {
    var s := run.writes[1].essaySessions[sessionId];
    if raised.Some? {
      assert s == db.essaySessions[sessionId].(status := Failed, error := Some(ExceptionText(raised.value)));
    }
  }

  /** The status reply once an essay request has returned: completed exactly
      when the crew ran and every task produced output; otherwise failed,
      with the crew's exception text or the AttributeError of the task
      without output as the error. */
  predicate EssayStatusShows(reply: Reply, sessionId: string, crew: Result<seq<Finished>, Raised>) {
    && reply.code == 200 && reply.body.JObj?
    && (Ran(crew) ==> reply.body.fields == map["session_id" := JStr(sessionId), "status" := JStr("completed")])
    && (!Ran(crew) ==> "status" in reply.body.fields && reply.body.fields["status"] == JStr("failed"))
    && (crew.Failure? ==> "error" in reply.body.fields && reply.body.fields["error"] == JStr(ExceptionText(crew.error)))
    && (crew.Success? && !Ran(crew) ==>
          "error" in reply.body.fields && reply.body.fields["error"] == JStr(ExceptionText(NoRawOutput)))
  }

  /** The status reply of a settled essay session. */
  lemma EssayStatusOf(last: Db, sessionId: string)
    requires sessionId in last.essaySessions && Settled(last.essaySessions[sessionId])
    ensures var s := last.essaySessions[sessionId];
            var reply := GetEssayStatus(last, sessionId);
            && reply.code == 200 && reply.body.JObj?
            && (s.status == Completed ==> reply.body.fields == map["session_id" := JStr(sessionId), "status" := JStr("completed")])
            && (s.status == Failed ==>
                  && "status" in reply.body.fields && reply.body.fields["status"] == JStr("failed")
                  && "error" in reply.body.fields && reply.body.fields["error"] == JStr(s.error.GetOr("Unknown error")))
  {
  }

  lemma EssayStatusFromRun(db: Db, created: Db, sessionId: string, run: Run, crew: Result<seq<Finished>, Raised>)
    requires EssayRunOutcome(sessionId, run, crew)
    ensures EssayStatusShows(GetEssayStatus(Latest(db, [created] + run.writes), sessionId), sessionId, crew)
  {
    LatestOfStart(db, created, run.writes);
    EssayStatusOf(run.writes[1], sessionId);
  }

  lemma EssayStatusAfterStart(db: Db, payload: map<string, Json>, sessionId: string, createdAt: string, env: Env)
    requires sessionId !in db.essaySessions && EssayPayloadValid(payload)
    ensures EssayStatusShows(GetEssayStatus(Latest(db, StartEssaySession(db, payload, sessionId, createdAt, env).writes), sessionId),
                             sessionId,
                             EssayWritingCrew(env.config, env.kickoff, sessionId, Get(payload, "essay_text"),
                                              Get(payload, "target_university"), Get(payload, "style_guidelines")))
  {
    var e, t, g := Get(payload, "essay_text"), Get(payload, "target_university"), Get(payload, "style_guidelines");
    var created := CreatedEssay(db, payload, sessionId, createdAt);
    var run := GenerateCollegeExplorationBackground(created, sessionId, EssayRequest(e, t, g), env);
    StartEssayWrites(db, payload, sessionId, createdAt, env);
    CreatedEssayAdds(db, payload, sessionId, createdAt);
    EssayDispatchOutcome(created, sessionId, e, t, g, env);
    EssayStatusFromRun(db, created, sessionId, run, EssayWritingCrew(env.config, env.kickoff, sessionId, e, t, g));
  }

  /** What an essay dispatch leaves in the results collection: the filed
      outputs of the two tasks after a completed run, the collection as it
      was after a failed one. */
  predicate EssayRunResults(db: Db, sessionId: string, run: Run, crew: Result<seq<Finished>, Raised>, parse: Parser, now: string) {
    && |run.writes| == 2 && sessionId in run.writes[1].essaySessions
    && (run.writes[1].essaySessions[sessionId].status == Failed ==> run.writes[1].essayResults == db.essayResults)
    && (run.writes[1].essaySessions[sessionId].status == Completed ==>
          && Ran(crew) && |crew.value| == 2
          && sessionId in run.writes[1].essayResults
          && run.writes[1].essayResults[sessionId] == FiledEssay(crew.value, parse, now))
  }

  lemma EssayDispatchResults(db: Db, sessionId: string, essayText: Json, targetUniversity: Json, styleGuidelines: Json, env: Env)
    requires sessionId in db.essaySessions
    ensures EssayRunResults(db, sessionId,
              GenerateCollegeExplorationBackground(db, sessionId, EssayRequest(essayText, targetUniversity, styleGuidelines), env),
              EssayWritingCrew(env.config, env.kickoff, sessionId, essayText, targetUniversity, styleGuidelines), env.parse, env.now)
  {
    var data := EssayRequest(essayText, targetUniversity, styleGuidelines);
    var run := GenerateCollegeExplorationBackground(db, sessionId, data, env);
    var raised := EssaySteps(db, sessionId, data, env).raised;
    var crew := EssayWritingCrew(env.config, env.kickoff, sessionId, essayText, targetUniversity, styleGuidelines);
    EssayRequestFields(essayText, targetUniversity, styleGuidelines);
    EssayTrajectory(db, sessionId, data, env);
    EssayStepsOutcome(db, sessionId, essayText, targetUniversity, styleGuidelines, env);
    if raised.None? {
      EssayResultsSaved(db, sessionId, data, env);
    }
    EssayResultsFrom(db, sessionId, run, raised, crew, env.parse, env.now);
  }

  lemma EssayResultsFrom(db: Db, sessionId: string, run: Run, raised: Option<Raised>, crew: Result<seq<Finished>, Raised>, parse: Parser, now: string)
    requires sessionId in db.essaySessions && EssayRunFrom(db, sessionId, run, raised) && RaisedAsCrew(raised, crew)
    requires raised.None? ==>
               && |crew.value| == 2 && sessionId in run.writes[1].essayResults
               && run.writes[1].essayResults[sessionId] == FiledEssay(crew.value, parse, now)
    ensures EssayRunResults(db, sessionId, run, crew, parse, now)
  {
    if raised.Some? {
      assert run.writes[1].essaySessions[sessionId].status == Failed;
    }
  }

  /** `GET .../result` of stored essay results. */
  lemma EssayResultOf(last: Db, sessionId: string)
    requires sessionId in last.essayResults
    ensures GetEssayResult(last, sessionId) ==
              Reply(200, JObj(map["outline" := last.essayResults[sessionId].outline,
                                  "refined_draft" := last.essayResults[sessionId].refinedDraft]))
  {
  }

  /** The result reply once an essay request has returned: the filed outputs
      after a completed run; after a failed run, the 500 of the missing
      results, unless some were already stored under the id. */
  predicate EssayResultShows(db: Db, last: Db, sessionId: string, crew: Result<seq<Finished>, Raised>, parse: Parser, now: string) {
    && sessionId in last.essaySessions
    && (last.essaySessions[sessionId].status == Completed ==>
          && Ran(crew) && |crew.value| == 2
          && var filed := FiledEssay(crew.value, parse, now);
             GetEssayResult(last, sessionId) == Reply(200, JObj(map["outline" := filed.outline, "refined_draft" := filed.refinedDraft])))
    && (last.essaySessions[sessionId].status == Failed && sessionId !in db.essayResults ==>
          GetEssayResult(last, sessionId) == InternalServerError)
  }

  lemma EssayResultFromRun(db: Db, created: Db, sessionId: string, run: Run, crew: Result<seq<Finished>, Raised>, parse: Parser, now: string)
    requires EssayCreated(db, created, sessionId) && EssayRunResults(created, sessionId, run, crew, parse, now)
    ensures EssayResultShows(db, Latest(db, [created] + run.writes), sessionId, crew, parse, now)
  {
    LatestOfStart(db, created, run.writes);
    if sessionId in run.writes[1].essayResults {
      EssayResultOf(run.writes[1], sessionId);
    }
  }

  lemma EssayResultAfterStart(db: Db, payload: map<string, Json>, sessionId: string, createdAt: string, env: Env)
    requires sessionId !in db.essaySessions && EssayPayloadValid(payload)
    ensures EssayResultShows(db, Latest(db, StartEssaySession(db, payload, sessionId, createdAt, env).writes), sessionId,
                             EssayWritingCrew(env.config, env.kickoff, sessionId, Get(payload, "essay_text"),
                                              Get(payload, "target_university"), Get(payload, "style_guidelines")),
                             env.parse, env.now)
  {
    var e, t, g := Get(payload, "essay_text"), Get(payload, "target_university"), Get(payload, "style_guidelines");
    var created := CreatedEssay(db, payload, sessionId, createdAt);
    var run := GenerateCollegeExplorationBackground(created, sessionId, EssayRequest(e, t, g), env);
    StartEssayWrites(db, payload, sessionId, createdAt, env);
    CreatedEssayAdds(db, payload, sessionId, createdAt);
    EssayDispatchResults(created, sessionId, e, t, g, env);
    EssayResultFromRun(db, created, sessionId, run, EssayWritingCrew(env.config, env.kickoff, sessionId, e, t, g), env.parse, env.now);
  }

  // Program-analysis requests

  /** `created` is `db` with one more program session, pending, under the id. */
  predicate ProgramCreated(db: Db, created: Db, sessionId: string) {
    && sessionId !in db.programSessions
    && created == db.(programSessions := created.programSessions)
    && AddsSession(db.programSessions, created.programSessions, sessionId)
    && sessionId in created.programSessions && created.programSessions[sessionId].status == Pending
  }

  lemma CreatedProgramAdds(db: Db, payload: map<string, Json>, sessionId: string, createdAt: string)
    requires sessionId !in db.programSessions
    ensures ProgramCreated(db, CreatedProgram(db, payload, sessionId, createdAt), sessionId)
  {
  }

  /** The stores of a program request: the new session pending, then
      in_progress, and finally completed or failed; the sessions that existed
      before, every essay session and every user are untouched. */
  predicate ProgramLifecycle(db: Db, w: seq<Db>, sessionId: string) {
    && (|w| == 3 || |w| == 5)
    && sessionId in w[0].programSessions && w[0].programSessions[sessionId].status == Pending
    && sessionId in w[1].programSessions && w[1].programSessions[sessionId].status == InProgress
    && var last := w[|w| - 1];
       && sessionId in last.programSessions && Settled(last.programSessions[sessionId])
       && AddsSession(db.programSessions, last.programSessions, sessionId)
       && last.essaySessions == db.essaySessions
       && last.users == db.users
  }

  lemma ProgramLifecycleOf(db: Db, created: Db, sessionId: string, run: Run)
    requires ProgramCreated(db, created, sessionId) && ProgramRunSettles(created, sessionId, run)
    ensures ProgramLifecycle(db, [created] + run.writes, sessionId)
  {
    LatestOfStart(db, created, run.writes);
    AddThenChange(db.programSessions, created.programSessions, run.writes[|run.writes| - 1].programSessions, sessionId);
  }

  lemma StartProgramLifecycle(db: Db, payload: map<string, Json>, sessionId: string, createdAt: string, env: Env)
    requires sessionId !in db.programSessions && ProgramPayloadValid(payload)
    ensures ProgramLifecycle(db, StartProgramAnalysis(db, payload, sessionId, createdAt, env).writes, sessionId)
  {
    var ul, cc := Get(payload, "university_list"), Get(payload, "comparison_criteria");
    var created := CreatedProgram(db, payload, sessionId, createdAt);
    var run := GenerateCollegeExplorationBackground(created, sessionId, ProgramRequest(ul, cc), env);
    StartProgramWrites(db, payload, sessionId, createdAt, env);
    CreatedProgramAdds(db, payload, sessionId, createdAt);
    ProgramDispatchSettles(created, sessionId, ul, cc, env);
    ProgramLifecycleOf(db, created, sessionId, run);
  }

  /** The status reply once a program request has returned: completed or
      failed, and never an error text, even after a failure. */
  predicate ProgramStatusShows(reply: Reply) {
    && reply.code == 200 && reply.body.JObj? && "error" !in reply.body.fields && "status" in reply.body.fields
    && (reply.body.fields["status"] == JStr("completed") || reply.body.fields["status"] == JStr("failed"))
  }

  lemma ProgramStatusFromRun(db: Db, created: Db, sessionId: string, run: Run)
    requires ProgramRunSettles(created, sessionId, run)
    ensures ProgramStatusShows(GetProgramAnalysisStatus(Latest(db, [created] + run.writes), sessionId))
  {
    LatestOfStart(db, created, run.writes);
  }

  lemma ProgramStatusAfterStart(db: Db, payload: map<string, Json>, sessionId: string, createdAt: string, env: Env)
    requires sessionId !in db.programSessions && ProgramPayloadValid(payload)
    ensures ProgramStatusShows(GetProgramAnalysisStatus(Latest(db, StartProgramAnalysis(db, payload, sessionId, createdAt, env).writes), sessionId))
  {
    var ul, cc := Get(payload, "university_list"), Get(payload, "comparison_criteria");
    var created := CreatedProgram(db, payload, sessionId, createdAt);
    var run := GenerateCollegeExplorationBackground(created, sessionId, ProgramRequest(ul, cc), env);
    StartProgramWrites(db, payload, sessionId, createdAt, env);
    CreatedProgramAdds(db, payload, sessionId, createdAt);
    ProgramDispatchSettles(created, sessionId, ul, cc, env);
    ProgramStatusFromRun(db, created, sessionId, run);
  }

  /** What a completed program dispatch leaves in the three stage
      collections: an entry in each, and None as the comparison report. */
  predicate ProgramRunResults(sessionId: string, run: Run) {
    && run.writes != []
    && var last := run.writes[|run.writes| - 1];
       && sessionId in last.programSessions
       && (last.programSessions[sessionId].status == Completed ==>
             && sessionId in last.rawData && sessionId in last.structuredData
             && sessionId in last.comparisonReports && last.comparisonReports[sessionId] == JNull)
  }

  lemma ProgramDispatchResults(db: Db, sessionId: string, universityList: Json, comparisonCriteria: Json, env: Env)
    requires sessionId in db.programSessions
    ensures ProgramRunResults(sessionId,
              GenerateCollegeExplorationBackground(db, sessionId, ProgramRequest(universityList, comparisonCriteria), env))
  {
    var data := ProgramRequest(universityList, comparisonCriteria);
    var raised := ProgramSteps(db, sessionId, data, env).raised;
    ProgramRequestFields(universityList, comparisonCriteria);
    ProgramTrajectory(db, sessionId, data, env);
    if raised.None? {
      ProgramReportIsNone(db, sessionId, data, env);
    }
    ProgramResultsFrom(db, sessionId, GenerateCollegeExplorationBackground(db, sessionId, data, env), raised);
  }

  lemma ProgramResultsFrom(db: Db, sessionId: string, run: Run, raised: Option<Raised>)
    requires sessionId in db.programSessions && ProgramRunFrom(db, sessionId, run, raised)
    requires raised.None? ==> |run.writes| == 4 && sessionId in run.writes[3].comparisonReports && run.writes[3].comparisonReports[sessionId] == JNull
    ensures ProgramRunResults(sessionId, run)
  {
  }

  /** The result reply after a completed program analysis: all three stages
      are present, and the comparison report is None, since no task of the
      crew is routed to it. */
  predicate ProgramResultShows(last: Db, sessionId: string) {
    && sessionId in last.programSessions
    && (last.programSessions[sessionId].status == Completed ==>
          var reply := GetProgramAnalysisResult(last, sessionId);
          && reply.code == 200 && reply.body.JObj? && "program_comparison_report" in reply.body.fields
          && reply.body.fields["program_comparison_report"] == JNull)
  }

  lemma ProgramResultFromRun(db: Db, created: Db, sessionId: string, run: Run)
    requires ProgramRunResults(sessionId, run)
    ensures ProgramResultShows(Latest(db, [created] + run.writes), sessionId)
  {
    LatestOfStart(db, created, run.writes);
  }

  lemma ProgramResultAfterStart(db: Db, payload: map<string, Json>, sessionId: string, createdAt: string, env: Env)
    requires sessionId !in db.programSessions && ProgramPayloadValid(payload)
    ensures ProgramResultShows(Latest(db, StartProgramAnalysis(db, payload, sessionId, createdAt, env).writes), sessionId)
  {
    var ul, cc := Get(payload, "university_list"), Get(payload, "comparison_criteria");
    var created := CreatedProgram(db, payload, sessionId, createdAt);
    var run := GenerateCollegeExplorationBackground(created, sessionId, ProgramRequest(ul, cc), env);
    StartProgramWrites(db, payload, sessionId, createdAt, env);
    CreatedProgramAdds(db, payload, sessionId, createdAt);
    ProgramDispatchResults(created, sessionId, ul, cc, env);
    ProgramResultFromRun(db, created, sessionId, run);
  }
}

=== FILE: classify.dfy ===
/** How the dispatcher files the crew's outputs: each task's description,
    stripped and lower-cased, is searched for fixed phrases, and the output
    is stored parsed when it is JSON and as its raw text otherwise. */
module Classify {
  import opened Results
  import opened Json
  import opened Text
  import opened Config
  import opened Agents
  import opened Tasks
  import opened Crew

  /** `json.loads`, as far as the dispatcher uses it: the parsed value, or
      None when the text is not JSON. */
  type Parser = string -> Option<Json>

  /** `json.loads(raw) if _is_json(raw) else raw`. */
  function ParseOrRaw(parse: Parser, raw: string): (r: Json)
    ensures parse(raw).Some? ==> r == parse(raw).value
    ensures parse(raw).None? ==> r == JStr(raw)
  {
    match parse(raw)
    case Some(v) => v
    case None => JStr(raw)
  }

  /** `task.description.strip().lower()`. */
  function RouteKey(t: Task): string {
    Lower(Strip(Render(t.description)))
  }

  /** The routing key holds no upper-case letter and neither starts nor ends
      with whitespace. */
  lemma RouteKeyFolded(t: Task)
    ensures forall i | 0 <= i < |RouteKey(t)| :: !IsUpper(RouteKey(t)[i])
    ensures RouteKey(t) != [] ==> !IsSpace(RouteKey(t)[0]) && !IsSpace(RouteKey(t)[|RouteKey(t)| - 1])
  {
    var s := Render(t.description);
    var a, b := StripWindow(s);
    LowerFolds(Strip(s));
  }

  /** `task.output.raw` on a task that finished without output. */
  const NoRawOutput := AttributeError("'NoneType' object has no attribute 'raw'")

  // ---------------------------------------------------------------------------
  // Essay outputs
  // ---------------------------------------------------------------------------

  datatype EssaySlot = Outline | Refined | Unrouted

  /** The essay loop's `if`/`elif`: "structure and outline" is looked for
      before "refine", so a key holding both goes to the outline. */
  function EssayRoute(key: string): (slot: EssaySlot)
    ensures slot == Outline <==> Contains("structure and outline", key)
    ensures slot == Refined <==> !Contains("structure and outline", key) && Contains("refine", key)
  {
    if Contains("structure and outline", key) then Outline
    else if Contains("refine", key) then Refined
    else Unrouted
  }

  function EssaySlotOf(f: Finished): EssaySlot {
    EssayRoute(RouteKey(f.task))
  }

  datatype EssayOutputs = EssayOutputs(outline: Json, refined: Json)

  /** The essay loop from the first of `fs` on, starting from the slots in
      `acc`: every task's output is read, and a routed one overwrites its
      slot. */
  function CollectEssay(parse: Parser, fs: seq<Finished>, acc: EssayOutputs): (r: Result<EssayOutputs, Raised>)
    ensures r.Failure? <==> exists i | 0 <= i < |fs| :: fs[i].output.None?
    ensures r.Failure? ==> r.error == NoRawOutput
    decreases |fs|
  {
    if fs == [] then Success(acc)
    else
      match fs[0].output
      case None => Failure(NoRawOutput)
      case Some(raw) =>
        var v := ParseOrRaw(parse, raw);
        var next := match EssaySlotOf(fs[0])
          case Outline => acc.(outline := v)
          case Refined => acc.(refined := v)
          case Unrouted => acc;
        assert forall i | 0 < i < |fs| :: fs[i] == fs[1..][i - 1];
        CollectEssay(parse, fs[1..], next)
  }

  /** `i` is the last task routed to `slot`. */
  predicate LastEssayMatch(fs: seq<Finished>, slot: EssaySlot, i: int) {
    0 <= i < |fs| && EssaySlotOf(fs[i]) == slot && forall j | i < j < |fs| :: EssaySlotOf(fs[j]) != slot
  }

  /** The later match wins: a slot holds the parsed output of the last task
      routed to it, and keeps its starting value when no task is. */
  lemma {:induction false} EssayLastMatchWins(parse: Parser, fs: seq<Finished>, acc: EssayOutputs, slot: EssaySlot)
    requires forall i | 0 <= i < |fs| :: fs[i].output.Some?
    requires slot != Unrouted
    ensures CollectEssay(parse, fs, acc).Success?
    ensures var out := CollectEssay(parse, fs, acc).value;
            var pick := if slot == Outline then out.outline else out.refined;
            && ((forall i | 0 <= i < |fs| :: EssaySlotOf(fs[i]) != slot) ==>
                  pick == (if slot == Outline then acc.outline else acc.refined))
            && (forall i | LastEssayMatch(fs, slot, i) :: pick == ParseOrRaw(parse, fs[i].output.value))
    decreases |fs|
  {
    if fs != [] {
      var v := ParseOrRaw(parse, fs[0].output.value);
      var next := match EssaySlotOf(fs[0])
        case Outline => acc.(outline := v)
        case Refined => acc.(refined := v)
        case Unrouted => acc;
      var rest := fs[1..];
      assert forall i | 0 < i < |fs| :: fs[i] == rest[i - 1];
      EssayLastMatchWins(parse, rest, next, slot);
      assert CollectEssay(parse, fs, acc) == CollectEssay(parse, rest, next);
      forall i | LastEssayMatch(fs, slot, i)
        ensures LastEssayMatch(rest, slot, i - 1) || (i == 0 && forall j | 0 <= j < |rest| :: EssaySlotOf(rest[j]) != slot)
      {
        if i > 0 {
          forall j | i - 1 < j < |rest| ensures EssaySlotOf(rest[j]) != slot {
            assert rest[j] == fs[j + 1];
          }
        } else {
          forall j | 0 <= j < |rest| ensures EssaySlotOf(rest[j]) != slot {
            assert rest[j] == fs[j + 1];
          }
        }
      }
    }
  }

  // ---------------------------------------------------------------------------
  // Program-analysis outputs
  // ---------------------------------------------------------------------------

  datatype ProgramSlot = RawSlot | StructuredSlot | ReportSlot | RoleFallback | NoSlot

  /** First match wins; the role is consulted only when no phrase matches. */
  function ProgramRoute(key: string, role: string): (slot: ProgramSlot)
    ensures slot == RawSlot <==> Contains("scrape admissions", key)
    ensures slot == StructuredSlot <==>
              && !Contains("scrape admissions", key)
              && (Contains("transform the raw", key) || Contains("structure", key))
    ensures slot == ReportSlot <==>
              && !Contains("scrape admissions", key) && !Contains("transform the raw", key)
              && !Contains("structure", key) && Contains("compare", key)
    ensures slot == RoleFallback <==>
              && !Contains("scrape admissions", key) && !Contains("transform the raw", key)
              && !Contains("structure", key) && !Contains("compare", key) && role == ProgramComparisonRole
    ensures slot == NoSlot <==>
              && !Contains("scrape admissions", key) && !Contains("transform the raw", key)
              && !Contains("structure", key) && !Contains("compare", key) && role != ProgramComparisonRole
  {
    if Contains("scrape admissions", key) then RawSlot
    else if Contains("transform the raw", key) || Contains("structure", key) then StructuredSlot
    else if Contains("compare", key) then ReportSlot
    else if role == ProgramComparisonRole then RoleFallback
    else NoSlot
  }

  function ProgramSlotOf(f: Finished): ProgramSlot {
    ProgramRoute(RouteKey(f.task), f.task.agent.role)
  }

  datatype ProgramOutputs = ProgramOutputs(rawData: Json, structured: Json, report: Json)

  /** A dict holding "comparison_report" is unwrapped to that entry; any
      other value, a list or a string included, is kept whole. */
  function Unwrap(data: Json): (r: Json)
    ensures data.JObj? && "comparison_report" in data.fields ==> r == data.fields["comparison_report"]
    ensures !data.JObj? || "comparison_report" !in data.fields ==> r == data
  {
    if data.JObj? && "comparison_report" in data.fields then data.fields["comparison_report"] else data
  }

  /** The index of the first task the role fallback catches, or `|fs|` when
      there is none: the program loop reads no output past it. */
  function FirstFallback(fs: seq<Finished>): (n: nat)
    ensures n <= |fs|
    ensures forall i | 0 <= i < n :: ProgramSlotOf(fs[i]) != RoleFallback
    ensures n < |fs| ==> ProgramSlotOf(fs[n]) == RoleFallback
    decreases |fs|
  {
    if fs == [] || ProgramSlotOf(fs[0]) == RoleFallback then 0
    else
      assert forall i | 0 < i < |fs| :: fs[i] == fs[1..][i - 1];
      1 + FirstFallback(fs[1..])
  }

  /** The program loop from the first of `fs` on; a task caught only by its
      role sets the report and ends the loop. It fails exactly when a task it
      reaches, up to and including the first one the role catches, has no
      output. */
  function CollectProgram(parse: Parser, fs: seq<Finished>, acc: ProgramOutputs): (r: Result<ProgramOutputs, Raised>)
    ensures r.Failure? <==> exists i | 0 <= i < |fs| && i <= FirstFallback(fs) :: fs[i].output.None?
    ensures r.Failure? ==> r.error == NoRawOutput
    ensures (forall i | 0 <= i < |fs| :: fs[i].output.Some?) ==> r.Success?
    decreases |fs|
  {
    if fs == [] then Success(acc)
    else
      match fs[0].output
      case None => Failure(NoRawOutput)
      case Some(raw) =>
        var v := ParseOrRaw(parse, raw);
        assert forall i | 0 < i < |fs| :: fs[i] == fs[1..][i - 1];
        match ProgramSlotOf(fs[0])
        case RawSlot => CollectProgram(parse, fs[1..], acc.(rawData := v))
        case StructuredSlot => CollectProgram(parse, fs[1..], acc.(structured := v))
        case ReportSlot => CollectProgram(parse, fs[1..], acc.(report := v))
        case RoleFallback => Success(acc.(report := Unwrap(v)))
        case NoSlot => CollectProgram(parse, fs[1..], acc)
  }

  /** Only a task routed to the report, by phrase or by role, touches it. */
  lemma {:induction false} ReportUntouched(parse: Parser, fs: seq<Finished>, acc: ProgramOutputs)
    requires forall i | 0 <= i < |fs| :: ProgramSlotOf(fs[i]) != ReportSlot && ProgramSlotOf(fs[i]) != RoleFallback
    ensures CollectProgram(parse, fs, acc).Success? ==> CollectProgram(parse, fs, acc).value.report == acc.report
    decreases |fs|
  {
    if fs != [] && fs[0].output.Some? {
      var v := ParseOrRaw(parse, fs[0].output.value);
      var rest := fs[1..];
      assert forall i | 0 <= i < |rest| :: rest[i] == fs[i + 1];
      match ProgramSlotOf(fs[0])
      case RawSlot => ReportUntouched(parse, rest, acc.(rawData := v));
      case StructuredSlot => ReportUntouched(parse, rest, acc.(structured := v));
      case NoSlot => ReportUntouched(parse, rest, acc);
    }
  }

  /** A task caught by the comparison agent's role decides the report: the
      parsed output, unwrapped, whatever earlier tasks routed to the report
      by phrase left there. */
  lemma {:induction false} RoleFallbackDecides(parse: Parser, fs: seq<Finished>, acc: ProgramOutputs, i: nat)
    requires i < |fs| && ProgramSlotOf(fs[i]) == RoleFallback
    requires forall j | 0 <= j <= i :: fs[j].output.Some?
    requires forall j | 0 <= j < i :: ProgramSlotOf(fs[j]) != RoleFallback
    ensures CollectProgram(parse, fs, acc).Success?
    ensures CollectProgram(parse, fs, acc).value.report == Unwrap(ParseOrRaw(parse, fs[i].output.value))
    decreases i
  {
    if i == 0 {
      assert CollectProgram(parse, fs, acc) == Success(acc.(report := Unwrap(ParseOrRaw(parse, fs[0].output.value))));
    } else {
      var rest := fs[1..];
      assert forall j | 0 <= j < |rest| :: rest[j] == fs[j + 1];
      var next := ProgramLoopStep(parse, fs, acc);
      RoleFallbackDecides(parse, rest, next, i - 1);
    }
  }

  /** `i` is the last task the program loop reaches that is routed to `slot`. */
  predicate LastProgramMatch(fs: seq<Finished>, slot: ProgramSlot, i: int) {
    && 0 <= i < FirstFallback(fs) && ProgramSlotOf(fs[i]) == slot
    && forall j | i < j < FirstFallback(fs) :: ProgramSlotOf(fs[j]) != slot
  }

  /** The part of the program outputs a routing slot fills. */
  function Pick(out: ProgramOutputs, slot: ProgramSlot): Json {
    if slot == RawSlot then out.rawData
    else if slot == StructuredSlot then out.structured
    else out.report
  }

  /** One task before the first role-fallback task: the loop goes on from
      the next task, with raw data, structured data and the report
      overwritten exactly when that task is routed to them. */
  lemma ProgramLoopStep(parse: Parser, fs: seq<Finished>, acc: ProgramOutputs) returns (next: ProgramOutputs)
    requires fs != [] && fs[0].output.Some? && ProgramSlotOf(fs[0]) != RoleFallback
    ensures CollectProgram(parse, fs, acc) == CollectProgram(parse, fs[1..], next)
    ensures forall slot | slot == RawSlot || slot == StructuredSlot || slot == ReportSlot ::
              Pick(next, slot) == if ProgramSlotOf(fs[0]) == slot then ParseOrRaw(parse, fs[0].output.value) else Pick(acc, slot)
  {
    var v := ParseOrRaw(parse, fs[0].output.value);
    next := match ProgramSlotOf(fs[0])
      case RawSlot => acc.(rawData := v)
      case StructuredSlot => acc.(structured := v)
      case ReportSlot => acc.(report := v)
      case _ => acc;
  }

  /** Past a first task the role does not catch, the first role-fallback
      task of the rest is one index lower. */
  lemma FirstFallbackTail(fs: seq<Finished>)
    requires fs != [] && ProgramSlotOf(fs[0]) != RoleFallback
    ensures FirstFallback(fs) == 1 + FirstFallback(fs[1..])
  {
  }

  /** The last match among the tasks the loop reaches is, in the rest, the
      last match one index lower, unless it was the first task itself. */
  lemma LastProgramMatchTail(fs: seq<Finished>, slot: ProgramSlot, i: int)
    requires fs != [] && ProgramSlotOf(fs[0]) != RoleFallback
    requires LastProgramMatch(fs, slot, i)
    ensures || LastProgramMatch(fs[1..], slot, i - 1)
            || (i == 0 && forall j | 0 <= j < FirstFallback(fs[1..]) :: ProgramSlotOf(fs[1..][j]) != slot)
  {
    var rest := fs[1..];
    FirstFallbackTail(fs);
    forall j | i - 1 < j < FirstFallback(rest) ensures ProgramSlotOf(rest[j]) != slot {
      assert rest[j] == fs[j + 1];
    }
    if i > 0 {
      assert rest[i - 1] == fs[i];
    }
  }

  /** The later match wins among the tasks the program loop reaches: raw and
      structured data hold the parsed output of the last task routed to them
      before the first one the role catches, and keep their starting value
      when there is none. The report obeys the same rule when no task reaches
      the role fallback (otherwise `RoleFallbackDecides` settles it). */
  lemma {:induction false} ProgramLastMatchWins(parse: Parser, fs: seq<Finished>, acc: ProgramOutputs, slot: ProgramSlot)
    requires slot == RawSlot || slot == StructuredSlot || (slot == ReportSlot && FirstFallback(fs) == |fs|)
    requires forall i | 0 <= i < |fs| && i <= FirstFallback(fs) :: fs[i].output.Some?
    ensures CollectProgram(parse, fs, acc).Success?
    ensures var pick := Pick(CollectProgram(parse, fs, acc).value, slot);
            && ((forall i | 0 <= i < FirstFallback(fs) :: ProgramSlotOf(fs[i]) != slot) ==> pick == Pick(acc, slot))
            && (forall i | LastProgramMatch(fs, slot, i) :: pick == ParseOrRaw(parse, fs[i].output.value))
    decreases |fs|
  {
    if fs != [] && ProgramSlotOf(fs[0]) != RoleFallback {
      var rest := fs[1..];
      FirstFallbackTail(fs);
      assert forall i | 0 < i < |fs| :: fs[i] == rest[i - 1];
      var next := ProgramLoopStep(parse, fs, acc);
      ProgramLastMatchWins(parse, rest, next, slot);
      forall i | LastProgramMatch(fs, slot, i)
        ensures || LastProgramMatch(rest, slot, i - 1)
                || (i == 0 && forall j | 0 <= j < FirstFallback(rest) :: ProgramSlotOf(rest[j]) != slot)
      {
        LastProgramMatchTail(fs, slot, i);
      }
    }
  }

  // ---------------------------------------------------------------------------
  // Where the builder's descriptions are routed
  // ---------------------------------------------------------------------------

  /** A phrase found in one part of a description, once lower-cased, is
      found in the routing key of the whole description. */
  lemma KeyHoldsPart(p: string, d: Template, k: nat, m: nat)
    requires k < |d| && m < |d[k]|
    requires Contains(p, Lower(PartText(d[k][m])))
    requires |p| > 0 && !IsSpace(p[0]) && !IsSpace(p[|p| - 1])
    ensures Contains(p, Lower(Strip(Render(d))))
  {
    assert Contains(PartText(d[k][m]), Render(d));
    ContainsLoweredWithin(p, PartText(d[k][m]), Render(d));
    StripKeepsContains(p, Render(d));
  }

  /** The phrases that carry each routing keyword. */
  lemma StructureAndOutlineKeyword()
    ensures Contains("structure and outline", Lower(PhraseText(StructureAndOutline)))
  {
    assert PhraseText(StructureAndOutline) == "" + "Structure and outline" + " the uploaded essay text:";
    LoweredHead("structure and outline", "", "Structure and outline", " the uploaded essay text:");
  }

  lemma RefineEssayKeyword()
    ensures Contains("refine", Lower(PhraseText(RefineEssay)))
  {
    var t := PhraseText(RefineEssay);
    assert t[..6] == "Refine";
    assert Lower("Refine") == "refine";
    LoweredSlice("refine", t, 0, 6);
  }

  lemma ScrapeFromKeyword()
    ensures Contains("scrape admissions", Lower(PhraseText(ScrapeFrom)))
  {
    assert PhraseText(ScrapeFrom) == "" + "Scrape admissions" + " data from the following universities:";
    LoweredHead("scrape admissions", "", "Scrape admissions", " data from the following universities:");
  }

  lemma AccordingToCriteriaKeyword()
    ensures Contains("structure", Lower(PhraseText(AccordingToCriteria)))
  {
    var a := "according to the specified comparison " + "criteria. Transform this data into a " + "clean, well-";
    assert PhraseText(AccordingToCriteria) == a + "structure" + "d data.";
    LoweredHead("structure", a, "structure", "d data.");
  }

  lemma CompareUsingKeyword()
    ensures Contains("structure", Lower(PhraseText(CompareUsing)))
  {
    var a := "Compare the university programs " + "using the ";
    assert PhraseText(CompareUsing) == a + "structure" + "d admissions data,";
    LoweredHead("structure", a, "structure", "d admissions data,");
  }

  lemma BrainstormKeyword(inp: TaskInputs)
    ensures Contains("structure and outline", Lower(Strip(Render(DescriptionOf(Brainstorm, inp)))))
  {
    var d: Template := DescriptionOf(Brainstorm, inp);
    assert d[0][0] == Fixed(StructureAndOutline);
    StructureAndOutlineKeyword();
    KeyHoldsPart("structure and outline", d, 0, 0);
  }

  lemma RefineKeyword(inp: TaskInputs)
    ensures Contains("refine", Lower(Strip(Render(DescriptionOf(Refine, inp)))))
  {
    var d: Template := DescriptionOf(Refine, inp);
    assert d[0][0] == Fixed(RefineEssay);
    RefineEssayKeyword();
    KeyHoldsPart("refine", d, 0, 0);
  }

  lemma ScrapeKeyword(inp: TaskInputs)
    ensures Contains("scrape admissions", Lower(Strip(Render(DescriptionOf(Scrape, inp)))))
  {
    var d: Template := DescriptionOf(Scrape, inp);
    assert d[0][0] == Fixed(ScrapeFrom);
    ScrapeFromKeyword();
    KeyHoldsPart("scrape admissions", d, 0, 0);
  }

  lemma ProcessKeyword(inp: TaskInputs)
    ensures Contains("structure", Lower(Strip(Render(DescriptionOf(Process, inp)))))
  {
    var d: Template := DescriptionOf(Process, inp);
    assert d[1][0] == Fixed(AccordingToCriteria);
    AccordingToCriteriaKeyword();
    KeyHoldsPart("structure", d, 1, 0);
  }

  lemma CompareKeyword(inp: TaskInputs)
    ensures Contains("structure", Lower(Strip(Render(DescriptionOf(Compare, inp)))))
  {
    var d: Template := DescriptionOf(Compare, inp);
    assert d[0][0] == Fixed(CompareUsing);
    CompareUsingKeyword();
    KeyHoldsPart("structure", d, 0, 0);
  }

  /** The brainstorm output always lands in the outline, and the refinement
      output in the outline or the refined draft, whatever the user wrote. */
  lemma EssayTasksRouted(inp: TaskInputs)
    ensures EssayRoute(Lower(Strip(Render(DescriptionOf(Brainstorm, inp))))) == Outline
    ensures EssayRoute(Lower(Strip(Render(DescriptionOf(Refine, inp))))) != Unrouted
  {
    BrainstormKeyword(inp);
    RefineKeyword(inp);
  }

  /** Every program task mentions "scrape admissions" or "structure": the
      scrape output lands in the raw data, and the processing and comparison
      outputs in the raw or structured data, never in the report. */
  lemma ProgramTasksRouted(inp: TaskInputs, role: string)
    ensures ProgramRoute(Lower(Strip(Render(DescriptionOf(Scrape, inp)))), role) == RawSlot
    ensures ProgramRoute(Lower(Strip(Render(DescriptionOf(Process, inp)))), role) in {RawSlot, StructuredSlot}
    ensures ProgramRoute(Lower(Strip(Render(DescriptionOf(Compare, inp)))), role) in {RawSlot, StructuredSlot}
  {
    ScrapeKeyword(inp);
    ProcessKeyword(inp);
    CompareKeyword(inp);
  }

  // ---------------------------------------------------------------------------
  // The crews' tasks
  // ---------------------------------------------------------------------------

  /** No task of the program crew is routed to the report, whatever agents
      the registry holds and whatever the user asked for. */
  lemma ProgramCrewNeverReports(agents: map<string, Agent>, sessionId: string, universityList: Json, comparisonCriteria: Json, i: nat)
    requires i < |ProgramCrewTasks(agents, sessionId, universityList, comparisonCriteria)|
    ensures var t := ProgramCrewTasks(agents, sessionId, universityList, comparisonCriteria)[i];
            ProgramRoute(RouteKey(t), t.agent.role) in {RawSlot, StructuredSlot}
  {
    var inp := ProgramTaskInputs(sessionId, universityList, comparisonCriteria);
    var ts := ProgramCrewTasks(agents, sessionId, universityList, comparisonCriteria);
    ProgramCrewTaskName(agents, sessionId, universityList, comparisonCriteria, i);
    TaskFields(inp, SelectAgents(agents, ProgramKeys), i);
    ProgramTaskRouted(ts[i], inp);
  }

  /** Every program crew task is the scrape, processing or comparison task. */
  lemma ProgramCrewTaskName(agents: map<string, Agent>, sessionId: string, universityList: Json, comparisonCriteria: Json, i: nat)
    requires i < |ProgramCrewTasks(agents, sessionId, universityList, comparisonCriteria)|
    ensures ProgramCrewTasks(agents, sessionId, universityList, comparisonCriteria)[i].name in {Scrape, Process, Compare}
  {
    var ts := ProgramCrewTasks(agents, sessionId, universityList, comparisonCriteria);
    ProgramCrewNames(agents, sessionId, universityList, comparisonCriteria);
    assert ts[i].name == Names(ts)[i];
  }

  /** A program task built from its own description is routed to the raw or
      structured data, whatever its agent's role. */
  lemma ProgramTaskRouted(t: Task, inp: TaskInputs)
    requires t.name in {Scrape, Process, Compare} && t.description == DescriptionOf(t.name, inp)
    ensures ProgramRoute(RouteKey(t), t.agent.role) in {RawSlot, StructuredSlot}
  {
    ProgramTasksRouted(inp, t.agent.role);
  }

  /** A successful essay crew returns two finished tasks: the first routed
      to the outline, the second to the outline or the refined draft. */
  lemma EssayCrewRouting(config: Configuration, kickoff: Kickoff, sessionId: string, essayText: Json, targetUniversity: Json, styleGuidelines: Json)
    requires EssayWritingCrew(config, kickoff, sessionId, essayText, targetUniversity, styleGuidelines).Success?
    ensures var fs := EssayWritingCrew(config, kickoff, sessionId, essayText, targetUniversity, styleGuidelines).value;
            |fs| == 2 && EssaySlotOf(fs[0]) == Outline && EssaySlotOf(fs[1]) != Unrouted
  {
    var fs := EssayWritingCrew(config, kickoff, sessionId, essayText, targetUniversity, styleGuidelines).value;
    var agents := CreateAgents(config).value;
    var inp := EssayTaskInputs(sessionId, essayText, targetUniversity, styleGuidelines);
    var selected := SelectAgents(agents, EssayKeys);
    var ts := EssayCrewTasks(agents, sessionId, essayText, targetUniversity, styleGuidelines);
    assert TasksOf(fs) == ts;
    assert Names(ts) == [Brainstorm, Refine];
    assert ts[0].name == Names(ts)[0] && ts[1].name == Names(ts)[1];
    TaskFields(inp, selected, 0);
    TaskFields(inp, selected, 1);
    assert fs[0].task == ts[0] && fs[1].task == ts[1];
    EssayTasksRouted(inp);
  }

  /** The outputs of a two-task essay run whose first task goes to the
      outline: both slots filled when the second goes to the refined draft;
      otherwise the second overwrites the outline and the draft stays None. */
  lemma EssayTwoTasks(parse: Parser, fs: seq<Finished>)
    requires |fs| == 2 && fs[0].output.Some? && fs[1].output.Some?
    requires EssaySlotOf(fs[0]) == Outline && EssaySlotOf(fs[1]) != Unrouted
    ensures var first, second := ParseOrRaw(parse, fs[0].output.value), ParseOrRaw(parse, fs[1].output.value);
            CollectEssay(parse, fs, EssayOutputs(JNull, JNull)) ==
              Success(if EssaySlotOf(fs[1]) == Refined then EssayOutputs(first, second) else EssayOutputs(second, JNull))
  {
    var first, second := ParseOrRaw(parse, fs[0].output.value), ParseOrRaw(parse, fs[1].output.value);
    var rest := fs[1..];
    assert rest[0] == fs[1] && rest[1..] == [];
    var acc1 := EssayOutputs(first, JNull);
    var acc2 := if EssaySlotOf(fs[1]) == Refined then EssayOutputs(first, second) else EssayOutputs(second, JNull);
    calc {
      CollectEssay(parse, fs, EssayOutputs(JNull, JNull));
      CollectEssay(parse, rest, acc1);
      CollectEssay(parse, rest[1..], acc2);
      Success(acc2);
    }
  }
}

=== FILE: config.dfy ===
/** Configuration lookup: the per-agent model and temperature settings read
    from the loaded configuration dictionary. */
module Config {
  import opened Results
  import opened Json

  /** The loaded configuration: section name to section value. */
  type Configuration = map<string, Json>

  /** `config.get(section, {}).get(key, default)`. A missing section reads as
      an empty dict; a section that is present but not a dict has no `get`. */
  function GetConfigValue(config: Configuration, section: string, key: string, default: Json): (r: Result<Json, Raised>)
    ensures r.Failure? <==> section in config && !config[section].JObj?
    ensures section !in config ==> r == Success(default)
    ensures section in config && config[section].JObj? && key in config[section].fields ==>
              r == Success(config[section].fields[key])
    ensures section in config && config[section].JObj? && key !in config[section].fields ==>
              r == Success(default)
    ensures r.Failure? ==>
              r.error == AttributeError("'" + TypeName(config[section]) + "' object has no attribute 'get'")
  {
    var s := if section in config then config[section] else JObj(map[]);
    match s
    case JObj(m) => Success(GetOr(m, key, default))
    case _ => Failure(AttributeError("'" + TypeName(s) + "' object has no attribute 'get'"))
  }

  /** A value other than the default can only come from the configuration
      itself, stored under that very section and key. */
  lemma NonDefaultComesFromConfig(config: Configuration, section: string, key: string, default: Json, v: Json)
    requires GetConfigValue(config, section, key, default) == Success(v) && v != default
    ensures section in config && config[section].JObj?
    ensures key in config[section].fields && config[section].fields[key] == v
  {
  }

  /** A lookup that succeeds is independent of the default exactly when the
      key is configured. */
  lemma DefaultIrrelevantIffConfigured(config: Configuration, section: string, key: string, d1: Json, d2: Json)
    requires d1 != d2
    requires section !in config || config[section].JObj?
    ensures GetConfigValue(config, section, key, d1) == GetConfigValue(config, section, key, d2)
            <==> (section in config && key in config[section].fields)
  {
  }

  /** With the default left at None, a missing setting yields None rather
      than an error. */
  lemma MissingSettingIsNone(config: Configuration, section: string, key: string)
    requires section !in config || (config[section].JObj? && key !in config[section].fields)
    ensures GetConfigValue(config, section, key, JNull) == Success(JNull)
  {
  }
}

=== FILE: crew.dfy ===
/** The two crews. Each one builds the whole agent registry, keeps the agents
    of its own flow, builds the task chain for them with the other flow's
    arguments left empty, and runs it. The run itself (LLM calls, tools,
    logging) is a parameter. */
module Crew {
  import opened Results
  import opened Json
  import opened Config
  import opened Agents
  import opened Tasks

  /** A task after the run, with the raw text of its output if it has one. */
  datatype Finished = Finished(task: Task, output: Option<string>)

  /** `crew.kickoff()`: the raw output of each task, by position, or the
      message of the exception the run raised. A task past the end of the
      outputs finished without output. */
  type Kickoff = seq<Task> -> Result<seq<Option<string>>, string>

  const EssayKeys := [EssayBrainstormKey, EssayRefinementKey]
  const ProgramKeys := [UniInfoScraperKey, UniInfoProcessorKey, ProgramComparisonKey]

  /** `{name: agents[name] for name in names if name in agents}`. */
  function SelectAgents(agents: map<string, Agent>, names: seq<string>): (r: map<string, Agent>)
    ensures forall k :: k in r <==> k in names && k in agents
    ensures forall k | k in r :: r[k] == agents[k]
  {
    map k | k in names && k in agents :: agents[k]
  }

  /** The essay crew's builder arguments: no universities, no criteria. */
  function EssayTaskInputs(sessionId: string, essayText: Json, targetUniversity: Json, styleGuidelines: Json): TaskInputs {
    TaskInputs(sessionId, essayText, targetUniversity, styleGuidelines, JArr([]), JArr([]))
  }

  /** The program crew's builder arguments: the three essay texts empty. */
  function ProgramTaskInputs(sessionId: string, universityList: Json, comparisonCriteria: Json): TaskInputs {
    TaskInputs(sessionId, JStr(""), JStr(""), JStr(""), universityList, comparisonCriteria)
  }

  function EssayCrewTasks(agents: map<string, Agent>, sessionId: string, essayText: Json, targetUniversity: Json, styleGuidelines: Json): seq<Task> {
    CreateCollegeExplorationTasks(EssayTaskInputs(sessionId, essayText, targetUniversity, styleGuidelines), SelectAgents(agents, EssayKeys))
  }

  function ProgramCrewTasks(agents: map<string, Agent>, sessionId: string, universityList: Json, comparisonCriteria: Json): seq<Task> {
    CreateCollegeExplorationTasks(ProgramTaskInputs(sessionId, universityList, comparisonCriteria), SelectAgents(agents, ProgramKeys))
  }

  /** Pairs each task with its output by position. */
  function Attach(ts: seq<Task>, outputs: seq<Option<string>>): (r: seq<Finished>)
    ensures |r| == |ts|
    ensures forall i | 0 <= i < |ts| :: r[i].task == ts[i]
    ensures forall i | 0 <= i < |ts| :: r[i].output == if i < |outputs| then outputs[i] else None
  {
    seq(|ts|, i requires 0 <= i < |ts| => Finished(ts[i], if i < |outputs| then outputs[i] else None))
  }

  function TasksOf(fs: seq<Finished>): seq<Task> {
    seq(|fs|, i requires 0 <= i < |fs| => fs[i].task)
  }

  /** Runs the tasks; an exception from inside the run surfaces with its
      message. */
  function RunTasks(ts: seq<Task>, kickoff: Kickoff): (r: Result<seq<Finished>, Raised>)
    ensures r.Failure? <==> kickoff(ts).Failure?
    ensures r.Failure? ==> r.error == CrewError(kickoff(ts).error)
    ensures r.Success? ==> TasksOf(r.value) == ts
  {
    match kickoff(ts)
    case Failure(m) => Failure(CrewError(m))
    case Success(outputs) => Success(Attach(ts, outputs))
  }

  /** Under a registry without program agents only the essay tasks can be
      emitted. */
  lemma EmittedEssayOnly(selected: map<string, Agent>)
    requires UniInfoScraperKey !in selected && UniInfoProcessorKey !in selected && ProgramComparisonKey !in selected
    ensures EmittedIn(selected, Order) ==
            if EssayBrainstormKey in selected then [Brainstorm] + (if EssayRefinementKey in selected then [Refine] else [])
            else []
  {
    EmittedInOrder(selected);
  }

  /** Under a registry without essay agents only the program tasks can be
      emitted. */
  lemma EmittedProgramOnly(selected: map<string, Agent>)
    requires EssayBrainstormKey !in selected && EssayRefinementKey !in selected
    ensures EmittedIn(selected, Order) ==
            if UniInfoScraperKey in selected then
              [Scrape] + (if UniInfoProcessorKey in selected then [Process] + (if ProgramComparisonKey in selected then [Compare] else []) else [])
            else []
  {
    EmittedInOrder(selected);
  }

  /** The essay crew gets exactly the essay agents the registry holds, so
      its chain is brainstorm when that agent is present, followed by refine
      when that agent is present too. */
  lemma EssayCrewNames(agents: map<string, Agent>, sessionId: string, essayText: Json, targetUniversity: Json, styleGuidelines: Json)
    ensures Names(EssayCrewTasks(agents, sessionId, essayText, targetUniversity, styleGuidelines)) ==
            if EssayBrainstormKey in agents then [Brainstorm] + (if EssayRefinementKey in agents then [Refine] else [])
            else []
  {
    var inp := EssayTaskInputs(sessionId, essayText, targetUniversity, styleGuidelines);
    var selected := SelectAgents(agents, EssayKeys);
    BuildNames(inp, selected);
    assert UniInfoScraperKey !in EssayKeys && UniInfoProcessorKey !in EssayKeys && ProgramComparisonKey !in EssayKeys;
    assert EssayBrainstormKey in EssayKeys && EssayRefinementKey in EssayKeys;
    EmittedEssayOnly(selected);
  }

  /** The program crew gets exactly the program agents the registry holds, so
      its chain is scrape, process, compare, cut at the first missing agent. */
  lemma ProgramCrewNames(agents: map<string, Agent>, sessionId: string, universityList: Json, comparisonCriteria: Json)
    ensures Names(ProgramCrewTasks(agents, sessionId, universityList, comparisonCriteria)) ==
            if UniInfoScraperKey in agents then
              [Scrape] + (if UniInfoProcessorKey in agents then [Process] + (if ProgramComparisonKey in agents then [Compare] else []) else [])
            else []
  {
    var inp := ProgramTaskInputs(sessionId, universityList, comparisonCriteria);
    var selected := SelectAgents(agents, ProgramKeys);
    BuildNames(inp, selected);
    assert EssayBrainstormKey !in ProgramKeys && EssayRefinementKey !in ProgramKeys;
    assert UniInfoScraperKey in ProgramKeys && UniInfoProcessorKey in ProgramKeys && ProgramComparisonKey in ProgramKeys;
    EmittedProgramOnly(selected);
  }

  /** The registry holds all five keys. */
  predicate FullRegistry(agents: map<string, Agent>) {
    && EssayBrainstormKey in agents && EssayRefinementKey in agents
    && UniInfoScraperKey in agents && UniInfoProcessorKey in agents && ProgramComparisonKey in agents
  }

  lemma CreatedRegistryIsFull(config: Configuration)
    requires CreateAgents(config).Success?
    ensures FullRegistry(CreateAgents(config).value)
  {
    var agents := CreateAgents(config).value;
    assert forall k | k in AgentKeys :: k in agents;
  }

  /** With the full registry the essay crew runs brainstorm then refine. */
  lemma FullEssayChain(agents: map<string, Agent>, sessionId: string, a: Json, b: Json, c: Json)
    requires FullRegistry(agents)
    ensures Names(EssayCrewTasks(agents, sessionId, a, b, c)) == [Brainstorm, Refine]
  {
    EssayCrewNames(agents, sessionId, a, b, c);
  }

  /** With the full registry the program crew runs scrape, process, compare. */
  lemma FullProgramChain(agents: map<string, Agent>, sessionId: string, a: Json, b: Json)
    requires FullRegistry(agents)
    ensures Names(ProgramCrewTasks(agents, sessionId, a, b)) == [Scrape, Process, Compare]
  {
    ProgramCrewNames(agents, sessionId, a, b);
  }

  /** `create_essay_writing_crew`: fails as the registry does, or as the run
      does; otherwise returns the run's outputs next to the builder's task
      list, which with the full registry is brainstorm then refine. */
  function EssayWritingCrew(config: Configuration, kickoff: Kickoff, sessionId: string,
                            essayText: Json, targetUniversity: Json, styleGuidelines: Json): (r: Result<seq<Finished>, Raised>)
    ensures CreateAgents(config).Failure? ==> r == Failure(CreateAgents(config).error)
    ensures CreateAgents(config).Success? ==>
              var ts := EssayCrewTasks(CreateAgents(config).value, sessionId, essayText, targetUniversity, styleGuidelines);
              && (r.Failure? <==> kickoff(ts).Failure?)
              && (r.Failure? ==> r.error == CrewError(kickoff(ts).error))
              && (r.Success? ==> TasksOf(r.value) == ts)
    ensures r.Success? ==> Names(TasksOf(r.value)) == [Brainstorm, Refine]
  {
    match CreateAgents(config)
    case Failure(e) => Failure(e)
    case Success(agents) =>
      CreatedRegistryIsFull(config);
      FullEssayChain(agents, sessionId, essayText, targetUniversity, styleGuidelines);
      RunTasks(EssayCrewTasks(agents, sessionId, essayText, targetUniversity, styleGuidelines), kickoff)
  }

  /** `create_program_analysis_crew`: as the essay crew, with the chain
      scrape, process, compare under the full registry. */
  function ProgramAnalysisCrew(config: Configuration, kickoff: Kickoff, sessionId: string,
                               universityList: Json, comparisonCriteria: Json): (r: Result<seq<Finished>, Raised>)
    ensures CreateAgents(config).Failure? ==> r == Failure(CreateAgents(config).error)
    ensures CreateAgents(config).Success? ==>
              var ts := ProgramCrewTasks(CreateAgents(config).value, sessionId, universityList, comparisonCriteria);
              && (r.Failure? <==> kickoff(ts).Failure?)
              && (r.Failure? ==> r.error == CrewError(kickoff(ts).error))
              && (r.Success? ==> TasksOf(r.value) == ts)
    ensures r.Success? ==> Names(TasksOf(r.value)) == [Scrape, Process, Compare]
  {
    match CreateAgents(config)
    case Failure(e) => Failure(e)
    case Success(agents) =>
      CreatedRegistryIsFull(config);
      FullProgramChain(agents, sessionId, universityList, comparisonCriteria);
      RunTasks(ProgramCrewTasks(agents, sessionId, universityList, comparisonCriteria), kickoff)
  }
}

=== FILE: generate_run.dfy ===
/** The session state machine behind both flows. A dispatch marks the stored
    session in_progress, runs the flow's crew, files the outputs, and saves
    them, which marks the session completed; any exception on the way marks
    it failed with the exception's text. Every store write is recorded, so a
    run is the sequence of stores it left behind. */
module Dispatch {
  import opened Results
  import opened Json
  import opened Config
  import opened Agents
  import opened Tasks
  import opened Store
  import opened Crew
  import opened Classify

  /** What a dispatch depends on besides the store and the request: the
      loaded configuration, the crew run, JSON parsing, and the time the
      results are saved at. */
  datatype Env = Env(config: Configuration, kickoff: Kickoff, parse: Parser, now: string)

  /** The stores written, in order, and the exception that escaped, if any. */
  datatype Run = Run(writes: seq<Db>, raised: Option<Raised>)

  /** The store as the last write left it. */
  function Latest(db: Db, writes: seq<Db>): Db {
    if writes == [] then db else writes[|writes| - 1]
  }

  // ---------------------------------------------------------------------------
  // Essay flow
  // ---------------------------------------------------------------------------

  function WithEssaySession(db: Db, sessionId: string, s: Session): Db {
    db.(essaySessions := db.essaySessions[sessionId := s])
  }

  /** The essay branch of the `try` block, up to the first exception. It
      writes nothing for a missing session, and otherwise first marks the
      session in progress; it raises nothing exactly when it also saved the
      results. */
  function EssaySteps(db: Db, sessionId: string, data: map<string, Json>, env: Env): (r: Run)
    ensures r.writes == [] <==> sessionId !in db.essaySessions
    ensures sessionId !in db.essaySessions ==> r.raised == Some(KeyError("Essay session " + sessionId + " not found"))
    ensures r.writes != [] ==> r.writes[0] == WithEssaySession(db, sessionId, db.essaySessions[sessionId].(status := InProgress))
    ensures |r.writes| <= 2 && (r.raised.None? <==> |r.writes| == 2)
  {
    match GetEssaySession(db, sessionId)
    case Failure(e) => Run([], Some(e))
    case Success(session) =>
      var started := WithEssaySession(db, sessionId, session.(status := InProgress));
      if "essay_text" !in data then Run([started], Some(KeyError("essay_text")))
      else if "target_university" !in data then Run([started], Some(KeyError("target_university")))
      else if "style_guidelines" !in data then Run([started], Some(KeyError("style_guidelines")))
      else
        match EssayWritingCrew(env.config, env.kickoff, sessionId, data["essay_text"], data["target_university"], data["style_guidelines"])
        case Failure(e) => Run([started], Some(e))
        case Success(fs) =>
          match CollectEssay(env.parse, fs, EssayOutputs(JNull, JNull))
          case Failure(e) => Run([started], Some(e))
          case Success(out) =>
            match SaveEssayResults(started, sessionId, out.outline, out.refined, env.now)
            case Failure(e) => Run([started], Some(e))
            case Success(done) => Run([started, done], None)
  }

  /** The essay branch of the `except` block: re-reads the session and marks
      it failed; a missing session raises again. */
  function MarkEssayFailed(db: Db, sessionId: string, e: Raised): (r: Result<Db, Raised>)
    ensures r.Failure? <==> sessionId !in db.essaySessions
    ensures r.Success? ==>
              && r.value == db.(essaySessions := r.value.essaySessions)
              && r.value.essaySessions.Keys == db.essaySessions.Keys
              && r.value.essaySessions[sessionId] == db.essaySessions[sessionId].(status := Failed, error := Some(ExceptionText(e)))
              && forall k | k in db.essaySessions && k != sessionId :: r.value.essaySessions[k] == db.essaySessions[k]
  {
    match GetEssaySession(db, sessionId)
    case Failure(e2) => Failure(e2)
    case Success(session) => Success(WithEssaySession(db, sessionId, session.(status := Failed, error := Some(ExceptionText(e)))))
  }

  /** The run as the `except` block leaves it: a run that raised gets the
      failed mark appended, unless the session has gone missing. */
  function SettleEssay(db: Db, sessionId: string, steps: Run): (r: Run)
    ensures steps.raised.None? ==> r == steps
    ensures steps.raised.Some? ==>
              && steps.writes <= r.writes && |r.writes| <= |steps.writes| + 1
              && (r.raised.None? <==> sessionId in Latest(db, steps.writes).essaySessions)
              && (r.raised.None? ==> sessionId in Latest(db, r.writes).essaySessions &&
                                     Latest(db, r.writes).essaySessions[sessionId].status == Failed)
  {
    match steps.raised
    case None => steps
    case Some(e) =>
      match MarkEssayFailed(Latest(db, steps.writes), sessionId, e)
      case Failure(e2) => Run(steps.writes, Some(e2))
      case Success(failed) => Run(steps.writes + [failed], None)
  }

  // ---------------------------------------------------------------------------
  // Program-analysis flow
  // ---------------------------------------------------------------------------

  function WithProgramSession(db: Db, sessionId: string, s: Session): Db {
    db.(programSessions := db.programSessions[sessionId := s])
  }

  /** The three saves, each its own write; only the last marks the session
      completed. */
  function SaveStages(started: Db, sessionId: string, out: ProgramOutputs): (r: Run)
    requires sessionId in started.programSessions
    ensures r.raised.None? && |r.writes| == 4 && r.writes[0] == started
    ensures sessionId in r.writes[1].rawData && r.writes[1].rawData[sessionId] == out.rawData
    ensures sessionId in r.writes[2].structuredData && r.writes[2].structuredData[sessionId] == out.structured
    ensures sessionId in r.writes[3].comparisonReports && r.writes[3].comparisonReports[sessionId] == out.report
    ensures r.writes[1].programSessions == started.programSessions
    ensures r.writes[2].programSessions == started.programSessions
    ensures r.writes[3].programSessions ==
              started.programSessions[sessionId := started.programSessions[sessionId].(status := Completed)]
    ensures r.writes[3].rawData == r.writes[1].rawData && r.writes[3].structuredData == r.writes[2].structuredData
    ensures r.writes[3] == started.(programSessions := r.writes[3].programSessions, rawData := r.writes[3].rawData,
                                    structuredData := r.writes[3].structuredData, comparisonReports := r.writes[3].comparisonReports)
  {
    match SaveRawAdmissionsData(started, sessionId, out.rawData)
    case Failure(e) => Run([started], Some(e))
    case Success(withRaw) =>
      match SaveStructuredAdmissionsData(withRaw, sessionId, out.structured)
      case Failure(e) => Run([started, withRaw], Some(e))
      case Success(withStructured) =>
        match SaveProgramComparisonReport(withStructured, sessionId, out.report)
        case Failure(e) => Run([started, withRaw, withStructured], Some(e))
        case Success(done) => Run([started, withRaw, withStructured, done], None)
  }

  /** The program-analysis branch of the `try` block, up to the first
      exception. It writes nothing for a missing session, and otherwise first
      marks the session in progress; it raises nothing exactly when it also
      saved the three stages. */
  function ProgramSteps(db: Db, sessionId: string, data: map<string, Json>, env: Env): (r: Run)
    ensures r.writes == [] <==> sessionId !in db.programSessions
    ensures sessionId !in db.programSessions ==> r.raised == Some(AnalysisSessionMissing(sessionId))
    ensures r.writes != [] ==> r.writes[0] == WithProgramSession(db, sessionId, db.programSessions[sessionId].(status := InProgress))
    ensures |r.writes| <= 4 && (r.raised.None? <==> |r.writes| == 4)
  {
    match GetProgramAnalysisSession(db, sessionId)
    case Failure(e) => Run([], Some(e))
    case Success(session) =>
      var started := WithProgramSession(db, sessionId, session.(status := InProgress));
      if "university_list" !in data then Run([started], Some(KeyError("university_list")))
      else if "comparison_criteria" !in data then Run([started], Some(KeyError("comparison_criteria")))
      else
        match ProgramAnalysisCrew(env.config, env.kickoff, sessionId, data["university_list"], data["comparison_criteria"])
        case Failure(e) => Run([started], Some(e))
        case Success(fs) =>
          match CollectProgram(env.parse, fs, ProgramOutputs(JNull, JNull, JNull))
          case Failure(e) => Run([started], Some(e))
          case Success(out) => SaveStages(started, sessionId, out)
  }

  /** The program branch of the `except` block. */
  function MarkProgramFailed(db: Db, sessionId: string, e: Raised): (r: Result<Db, Raised>)
    ensures r.Failure? <==> sessionId !in db.programSessions
    ensures r.Success? ==>
              && r.value == db.(programSessions := r.value.programSessions)
              && r.value.programSessions.Keys == db.programSessions.Keys
              && r.value.programSessions[sessionId] == db.programSessions[sessionId].(status := Failed, error := Some(ExceptionText(e)))
              && forall k | k in db.programSessions && k != sessionId :: r.value.programSessions[k] == db.programSessions[k]
  {
    match GetProgramAnalysisSession(db, sessionId)
    case Failure(e2) => Failure(e2)
    case Success(session) => Success(WithProgramSession(db, sessionId, session.(status := Failed, error := Some(ExceptionText(e)))))
  }

  function SettleProgram(db: Db, sessionId: string, steps: Run): (r: Run)
    ensures steps.raised.None? ==> r == steps
    ensures steps.raised.Some? ==>
              && steps.writes <= r.writes && |r.writes| <= |steps.writes| + 1
              && (r.raised.None? <==> sessionId in Latest(db, steps.writes).programSessions)
              && (r.raised.None? ==> sessionId in Latest(db, r.writes).programSessions &&
                                     Latest(db, r.writes).programSessions[sessionId].status == Failed)
  {
    match steps.raised
    case None => steps
    case Some(e) =>
      match MarkProgramFailed(Latest(db, steps.writes), sessionId, e)
      case Failure(e2) => Run(steps.writes, Some(e2))
      case Success(failed) => Run(steps.writes + [failed], None)
  }

  // ---------------------------------------------------------------------------
  // The dispatcher
  // ---------------------------------------------------------------------------

  const EssayFlow := JStr("essay")
  const ProgramFlow := JStr("program_analysis")

  /** `generate_college_exploration_background`. */
  function GenerateCollegeExplorationBackground(db: Db, sessionId: string, data: map<string, Json>, env: Env): (r: Run)
    ensures var flow := Get(data, "flow_type");
            flow != EssayFlow && flow != ProgramFlow ==>
              r == Run([], Some(ValueError("Unknown flow_type: " + Show(flow))))
    ensures Get(data, "flow_type") == EssayFlow && sessionId !in db.essaySessions ==>
              r == Run([], Some(KeyError("Essay session " + sessionId + " not found")))
    ensures Get(data, "flow_type") == ProgramFlow && sessionId !in db.programSessions ==>
              r == Run([], Some(AnalysisSessionMissing(sessionId)))
  {
    var flow := Get(data, "flow_type");
    if flow == EssayFlow then SettleEssay(db, sessionId, EssaySteps(db, sessionId, data, env))
    else if flow == ProgramFlow then SettleProgram(db, sessionId, ProgramSteps(db, sessionId, data, env))
    else Run([], Some(ValueError("Unknown flow_type: " + Show(flow))))
  }

  // ---------------------------------------------------------------------------
  // Trajectories
  // ---------------------------------------------------------------------------

  /** An essay branch cut short by an exception has written at most the
      in_progress mark. */
  lemma EssayStepsFailed(db: Db, sessionId: string, data: map<string, Json>, env: Env)
    requires sessionId in db.essaySessions
    requires EssaySteps(db, sessionId, data, env).raised.Some?
    ensures EssaySteps(db, sessionId, data, env).writes ==
              [WithEssaySession(db, sessionId, db.essaySessions[sessionId].(status := InProgress))]
  {
  }

  /** An essay branch that ran to the end wrote the in_progress mark and
      then the saved results, which complete the session. */
  lemma EssayStepsCompleted(db: Db, sessionId: string, data: map<string, Json>, env: Env)
    requires sessionId in db.essaySessions
    requires EssaySteps(db, sessionId, data, env).raised.None?
    ensures var started := WithEssaySession(db, sessionId, db.essaySessions[sessionId].(status := InProgress));
            var w := EssaySteps(db, sessionId, data, env).writes;
            && |w| == 2 && w[0] == started
            && w[1] == started.(essaySessions := w[1].essaySessions, essayResults := w[1].essayResults)
            && w[1].essaySessions == started.essaySessions[sessionId := db.essaySessions[sessionId].(status := Completed)]
            && sessionId in w[1].essayResults
  {
    var started := WithEssaySession(db, sessionId, db.essaySessions[sessionId].(status := InProgress));
    var w := EssaySteps(db, sessionId, data, env).writes;
    assert w[1].essaySessions.Keys == started.essaySessions.Keys;
  }

  /** A dispatch of a stored essay session writes twice and raises nothing:
      first the session marked in_progress, then either the saved results
      with the session completed, or the session failed with the text of
      what the branch raised and nothing else changed. */
  predicate EssayRunFrom(db: Db, sessionId: string, r: Run, raised: Option<Raised>)
    requires sessionId in db.essaySessions
  {
    var started := WithEssaySession(db, sessionId, db.essaySessions[sessionId].(status := InProgress));
    && r.raised.None?
    && |r.writes| == 2
    && r.writes[0] == started
    && (raised.Some? ==>
          r.writes[1] == started.(essaySessions := started.essaySessions[sessionId :=
            db.essaySessions[sessionId].(status := Failed, error := Some(ExceptionText(raised.value)))]))
    && (raised.None? ==>
          && r.writes[1] == started.(essaySessions := r.writes[1].essaySessions, essayResults := r.writes[1].essayResults)
          && r.writes[1].essaySessions == started.essaySessions[sessionId := db.essaySessions[sessionId].(status := Completed)]
          && sessionId in r.writes[1].essayResults)
  }

  lemma EssayTrajectory(db: Db, sessionId: string, data: map<string, Json>, env: Env)
    requires Get(data, "flow_type") == EssayFlow && sessionId in db.essaySessions
    ensures EssayRunFrom(db, sessionId, GenerateCollegeExplorationBackground(db, sessionId, data, env), EssaySteps(db, sessionId, data, env).raised)
  {
    var steps := EssaySteps(db, sessionId, data, env);
    var started := WithEssaySession(db, sessionId, db.essaySessions[sessionId].(status := InProgress));
    assert GenerateCollegeExplorationBackground(db, sessionId, data, env) == SettleEssay(db, sessionId, steps);
    if steps.raised.Some? {
      EssayStepsFailed(db, sessionId, data, env);
      assert Latest(db, steps.writes) == started;
      assert started.essaySessions[sessionId].(status := Failed, error := Some(ExceptionText(steps.raised.value)))
          == db.essaySessions[sessionId].(status := Failed, error := Some(ExceptionText(steps.raised.value)));
    } else {
      EssayStepsCompleted(db, sessionId, data, env);
    }
  }

  /** Where an essay dispatch fails: a missing request field raises a
      KeyError naming it, the crew's error surfaces unchanged, and a task
      without output raises the AttributeError of reading `.raw` on None. */
  lemma EssayFailures(db: Db, sessionId: string, data: map<string, Json>, env: Env)
    requires Get(data, "flow_type") == EssayFlow && sessionId in db.essaySessions
    ensures var steps := EssaySteps(db, sessionId, data, env);
            && ("essay_text" !in data ==> steps.raised == Some(KeyError("essay_text")))
            && ("essay_text" in data && "target_university" !in data ==> steps.raised == Some(KeyError("target_university")))
            && ("essay_text" in data && "target_university" in data && "style_guidelines" !in data ==>
                  steps.raised == Some(KeyError("style_guidelines")))
    ensures "essay_text" in data && "target_university" in data && "style_guidelines" in data ==>
              var crew := EssayWritingCrew(env.config, env.kickoff, sessionId, data["essay_text"], data["target_university"], data["style_guidelines"]);
              var steps := EssaySteps(db, sessionId, data, env);
              && (crew.Failure? ==> steps.raised == Some(crew.error))
              && (crew.Success? ==>
                    (steps.raised.Some? <==> exists i | 0 <= i < |crew.value| :: crew.value[i].output.None?)
                    && (steps.raised.Some? ==> steps.raised == Some(NoRawOutput)))
  {
  }

  /** The results a completed essay run files: the brainstorm output as the
      outline and the refinement output as the refined draft, unless the
      refinement description also mentions "structure and outline", in which
      case that output overwrites the outline and the draft stays None. */
  function FiledEssay(fs: seq<Finished>, parse: Parser, now: string): EssayResult
    requires |fs| == 2 && fs[0].output.Some? && fs[1].output.Some?
  {
    var first, second := ParseOrRaw(parse, fs[0].output.value), ParseOrRaw(parse, fs[1].output.value);
    if EssaySlotOf(fs[1]) == Refined then EssayResult(first, second, now) else EssayResult(second, JNull, now)
  }

  /** A completed essay session holds the filed outputs of the crew's two
      tasks, saved at the dispatch time. */
  lemma EssayResultsSaved(db: Db, sessionId: string, data: map<string, Json>, env: Env)
    requires Get(data, "flow_type") == EssayFlow && sessionId in db.essaySessions
    requires EssaySteps(db, sessionId, data, env).raised.None?
    ensures "essay_text" in data && "target_university" in data && "style_guidelines" in data
    ensures var r := GenerateCollegeExplorationBackground(db, sessionId, data, env);
            var crew := EssayWritingCrew(env.config, env.kickoff, sessionId, data["essay_text"], data["target_university"], data["style_guidelines"]);
            && crew.Success? && |crew.value| == 2 && crew.value[0].output.Some? && crew.value[1].output.Some?
            && |r.writes| == 2 && sessionId in r.writes[1].essayResults
            && r.writes[1].essayResults[sessionId] == FiledEssay(crew.value, env.parse, env.now)
  {
    var crew := EssayWritingCrew(env.config, env.kickoff, sessionId, data["essay_text"], data["target_university"], data["style_guidelines"]);
    EssayCrewRouting(env.config, env.kickoff, sessionId, data["essay_text"], data["target_university"], data["style_guidelines"]);
    var fs := crew.value;
    assert fs[0].output.Some? && fs[1].output.Some?;
    EssayTwoTasks(env.parse, fs);
  }

  /** A dispatch of a stored program-analysis session raises nothing and
      starts by marking the session in_progress. It either fails right after
      that, or writes the raw data and the structured data with the session
      still in_progress, and completes the session only with the report. */
  predicate ProgramRunFrom(db: Db, sessionId: string, r: Run, raised: Option<Raised>)
    requires sessionId in db.programSessions
  {
    var started := WithProgramSession(db, sessionId, db.programSessions[sessionId].(status := InProgress));
    && r.raised.None?
    && (raised.Some? ==>
          r.writes == [started, started.(programSessions := started.programSessions[sessionId :=
            db.programSessions[sessionId].(status := Failed, error := Some(ExceptionText(raised.value)))])])
    && (raised.None? ==>
          && |r.writes| == 4
          && r.writes[0] == started
          && r.writes[1].programSessions == started.programSessions
          && r.writes[2].programSessions == started.programSessions
          && r.writes[3].programSessions == started.programSessions[sessionId := db.programSessions[sessionId].(status := Completed)]
          && r.writes[3] == started.(programSessions := r.writes[3].programSessions, rawData := r.writes[3].rawData,
                                     structuredData := r.writes[3].structuredData, comparisonReports := r.writes[3].comparisonReports)
          && sessionId in r.writes[3].rawData && sessionId in r.writes[3].structuredData
          && sessionId in r.writes[3].comparisonReports)
  }

  lemma ProgramTrajectory(db: Db, sessionId: string, data: map<string, Json>, env: Env)
    requires Get(data, "flow_type") == ProgramFlow && sessionId in db.programSessions
    ensures ProgramRunFrom(db, sessionId, GenerateCollegeExplorationBackground(db, sessionId, data, env), ProgramSteps(db, sessionId, data, env).raised)
  {
    var steps := ProgramSteps(db, sessionId, data, env);
    var started := WithProgramSession(db, sessionId, db.programSessions[sessionId].(status := InProgress));
    assert GenerateCollegeExplorationBackground(db, sessionId, data, env) == SettleProgram(db, sessionId, steps);
    if steps.raised.Some? {
      ProgramStepsFailed(db, sessionId, data, env);
      assert Latest(db, steps.writes) == started;
      assert started.programSessions[sessionId].(status := Failed, error := Some(ExceptionText(steps.raised.value)))
          == db.programSessions[sessionId].(status := Failed, error := Some(ExceptionText(steps.raised.value)));
    } else {
      ProgramStepsCompleted(db, sessionId, data, env);
    }
  }

  /** A program branch cut short has written only the in_progress mark. */
  lemma ProgramStepsFailed(db: Db, sessionId: string, data: map<string, Json>, env: Env)
    requires sessionId in db.programSessions
    requires ProgramSteps(db, sessionId, data, env).raised.Some?
    ensures ProgramSteps(db, sessionId, data, env).writes ==
              [WithProgramSession(db, sessionId, db.programSessions[sessionId].(status := InProgress))]
  {
  }

  /** A program branch that ran to the end had every request field, a
      successful crew, and outputs for all its tasks, and saved what the
      loop filed. */
  lemma ProgramStepsCompleted(db: Db, sessionId: string, data: map<string, Json>, env: Env)
    requires sessionId in db.programSessions
    requires ProgramSteps(db, sessionId, data, env).raised.None?
    ensures "university_list" in data && "comparison_criteria" in data
    ensures var crew := ProgramAnalysisCrew(env.config, env.kickoff, sessionId, data["university_list"], data["comparison_criteria"]);
            && crew.Success?
            && CollectProgram(env.parse, crew.value, ProgramOutputs(JNull, JNull, JNull)).Success?
            && ProgramSteps(db, sessionId, data, env) ==
                 SaveStages(WithProgramSession(db, sessionId, db.programSessions[sessionId].(status := InProgress)), sessionId,
                            CollectProgram(env.parse, crew.value, ProgramOutputs(JNull, JNull, JNull)).value)
  {
  }

  /** A completed program analysis always stores None as its comparison
      report: every task the crew runs mentions "scrape admissions" or
      "structure", so no output is ever routed to the report. */
  lemma ProgramReportIsNone(db: Db, sessionId: string, data: map<string, Json>, env: Env)
    requires Get(data, "flow_type") == ProgramFlow && sessionId in db.programSessions
    requires ProgramSteps(db, sessionId, data, env).raised.None?
    ensures var r := GenerateCollegeExplorationBackground(db, sessionId, data, env);
            |r.writes| == 4 && sessionId in r.writes[3].comparisonReports && r.writes[3].comparisonReports[sessionId] == JNull
  {
    ProgramStepsCompleted(db, sessionId, data, env);
    var ul, cc := data["university_list"], data["comparison_criteria"];
    var fs := ProgramAnalysisCrew(env.config, env.kickoff, sessionId, ul, cc).value;
    var agents := CreateAgents(env.config).value;
    var ts := ProgramCrewTasks(agents, sessionId, ul, cc);
    assert TasksOf(fs) == ts;
    forall i | 0 <= i < |fs|
      ensures ProgramSlotOf(fs[i]) != ReportSlot && ProgramSlotOf(fs[i]) != RoleFallback
    {
      assert fs[i].task == ts[i];
      ProgramCrewNeverReports(agents, sessionId, ul, cc, i);
    }
    ReportUntouched(env.parse, fs, ProgramOutputs(JNull, JNull, JNull));
  }

  /** The None report a completed program analysis stores makes delete_user
      raise for every user from then on. */
  lemma CompletedAnalysisBlocksDeleteUser(db: Db, sessionId: string, data: map<string, Json>, env: Env, userId: string)
    requires Get(data, "flow_type") == ProgramFlow && sessionId in db.programSessions
    requires ProgramSteps(db, sessionId, data, env).raised.None?
    ensures DeleteUser(Latest(db, GenerateCollegeExplorationBackground(db, sessionId, data, env).writes), userId).Failure?
  {
    ProgramReportIsNone(db, sessionId, data, env);
    var w := GenerateCollegeExplorationBackground(db, sessionId, data, env).writes;
    NonDictRecordBlocksDelete(w[3], sessionId, userId);
  }

  /** With the cascade skipping non-dict records, deleting a user after a
      completed analysis succeeds: the user is gone, and the None report,
      which names no user, stays. */
  lemma CompletedAnalysisCorrectedDelete(db: Db, sessionId: string, data: map<string, Json>, env: Env, userId: string)
    requires Get(data, "flow_type") == ProgramFlow && sessionId in db.programSessions
    requires ProgramSteps(db, sessionId, data, env).raised.None?
    ensures var last := Latest(db, GenerateCollegeExplorationBackground(db, sessionId, data, env).writes);
            var after := DeleteUserSkippingValues(last, userId);
            && userId !in after.users
            && sessionId in after.comparisonReports && after.comparisonReports[sessionId] == JNull
  {
    ProgramReportIsNone(db, sessionId, data, env);
    var w := GenerateCollegeExplorationBackground(db, sessionId, data, env).writes;
    assert !OwnedRecord(w[3].comparisonReports[sessionId], userId);
  }
}

=== FILE: json.dfy ===
/** JSON-like values as Python holds them after json.load: the payloads, records
    and parsed agent outputs of the session layer. */
module Json {

  datatype Json =
    | JNull
    | JBool(b: bool)
    | JInt(i: int)
    | JStr(s: string)
    | JArr(items: seq<Json>)
    | JObj(fields: map<string, Json>)

  /** Python truthiness, as used by `all([...])` and `not x`. */
  predicate Truthy(v: Json) {
    match v
    case JNull => false
    case JBool(b) => b
    case JInt(i) => i != 0
    case JStr(s) => s != ""
    case JArr(xs) => xs != []
    case JObj(m) => m != map[]
  }

  /** `d.get(key)` on a dict: a missing key reads as None. */
  function Get(m: map<string, Json>, key: string): Json {
    if key in m then m[key] else JNull
  }

  /** `d.get(key, default)`. */
  function GetOr(m: map<string, Json>, key: string, default: Json): Json {
    if key in m then m[key] else default
  }

  /** The Python type name of a value, as printed in AttributeError messages. */
  function TypeName(v: Json): string {
    match v
    case JNull => "NoneType"
    case JBool(_) => "bool"
    case JInt(_) => "int"
    case JStr(_) => "str"
    case JArr(_) => "list"
    case JObj(_) => "dict"
  }

  function DigitChar(d: nat): char
    requires d < 10
  {
    "0123456789"[d]
  }

  function NatText(n: nat): (r: string)
    ensures |r| >= 1
  {
    if n < 10 then [DigitChar(n)] else NatText(n / 10) + [DigitChar(n % 10)]
  }

  /** Python's str() of an int. */
  function IntText(i: int): string {
    if i < 0 then "-" + NatText(-i) else NatText(i)
  }

  function HexDigit(d: nat): char
    requires d < 16
  {
    "0123456789abcdef"[d]
  }

  /** How repr() writes one character of a str: the quote, the backslash and
      the three usual control characters by name, the other ASCII control
      characters as `\xNN`. */
  function EscapeChar(c: char, quote: char): string {
    if c == '\\' then "\\\\"
    else if c == quote then ['\\', quote]
    else if c == '\n' then "\\n"
    else if c == '\r' then "\\r"
    else if c == '\t' then "\\t"
    else if c < ' ' || c == '\U{7F}' then ['\\', 'x', HexDigit(c as int / 16), HexDigit(c as int % 16)]
    else [c]
  }

  function Escape(s: string, quote: char): string {
    if s == [] then "" else EscapeChar(s[0], quote) + Escape(s[1..], quote)
  }

  /** Python's repr() of a str: single quotes unless the text holds a single
      quote and no double quote. */
  function StrRepr(s: string): string {
    var quote := if '\'' in s && '"' !in s then '"' else '\'';
    [quote] + Escape(s, quote) + [quote]
  }

  /** Python's repr() of a value; a dict nested in a value is printed without
      its entries (a map keeps no insertion order). */
  function Repr(v: Json): string
    decreases v
  {
    match v
    case JNull => "None"
    case JBool(b) => if b then "True" else "False"
    case JInt(i) => IntText(i)
    case JStr(s) => StrRepr(s)
    case JArr(xs) => "[" + ReprList(xs) + "]"
    case JObj(m) => if m == map[] then "{}" else "{...}"
  }

  /** The items of a list joined by ", ". */
  function ReprList(xs: seq<Json>): string
    decreases xs
  {
    if xs == [] then ""
    else if |xs| == 1 then Repr(xs[0])
    else Repr(xs[0]) + ", " + ReprList(xs[1..])
  }

  /** Python's str(): a str prints as itself, everything else as its repr. */
  function Show(v: Json): string {
    match v
    case JStr(s) => s
    case _ => Repr(v)
  }
}

=== FILE: report_paths.dfy ===
/** Where each task writes its output: one directory per session under
    src/data/report, one file per task. */
module ReportPaths {

  /** posixpath.join of two parts. */
  function PathJoin(a: string, b: string): string {
    if |b| > 0 && b[0] == '/' then b
    else if a == "" || a[|a| - 1] == '/' then a + b
    else a + "/" + b
  }

  const Placeholder := "{session_id}"

  /** The per-session report directory, as a template. */
  const ReportDir := PathJoin(PathJoin(PathJoin("src", "data"), "report"), Placeholder)

  datatype Report = EssayOutline | RefinedEssay | RawAdmissions | StructuredAdmissions | ComparisonReport

  function FileName(r: Report): string {
    match r
    case EssayOutline => "essay_outlines.md"
    case RefinedEssay => "refined_essays.md"
    case RawAdmissions => "raw_admissions_data.json"
    case StructuredAdmissions => "structured_admissions_data.json"
    case ComparisonReport => "program_comparison_report.md"
  }

  /** The five output-path templates. */
  function Template(r: Report): string {
    PathJoin(ReportDir, FileName(r))
  }

  /** `template.format(session_id=sessionId)`: every `{session_id}` is
      replaced by the id. */
  function FormatSessionId(template: string, sessionId: string): (s: string)
    ensures NoBrace(template) ==> s == template
    decreases |template|
  {
    if |template| >= |Placeholder| && template[..|Placeholder|] == Placeholder then
      assert template[..|Placeholder|][0] == template[0];
      sessionId + FormatSessionId(template[|Placeholder|..], sessionId)
    else if template == [] then ""
    else
      assert template == [template[0]] + template[1..];
      [template[0]] + FormatSessionId(template[1..], sessionId)
  }

  /** The output file of a task of the given session: the session's report
      directory and the report's file name. */
  function OutputPath(r: Report, sessionId: string): (path: string)
    ensures path == ReportRoot + sessionId + "/" + FileName(r)
  {
    OutputPathShape(r, sessionId);
    FormatSessionId(Template(r), sessionId)
  }

  const ReportRoot := "src/data/report/"

  lemma ReportDirValue()
    ensures ReportDir == ReportRoot + Placeholder
  {
    assert PathJoin("src", "data") == "src/data";
    assert PathJoin("src/data", "report") == "src/data/report";
  }

  /** Every template is the report directory joined with the file name. */
  lemma TemplateShape(r: Report)
    ensures Template(r) == ReportRoot + Placeholder + "/" + FileName(r)
  {
    ReportDirValue();
    var d := ReportRoot + Placeholder;
    assert d[|d| - 1] == '}';
  }

  /** A text with no opening brace, hence no placeholder. */
  predicate NoBrace(s: string) {
    '{' !in s
  }

  /** Formatting copies a first character that opens no placeholder. */
  lemma FormatPlainHead(t: string, sessionId: string)
    requires t != [] && t[0] != '{'
    ensures FormatSessionId(t, sessionId) == [t[0]] + FormatSessionId(t[1..], sessionId)
  {
    if |t| >= |Placeholder| {
      assert t[..|Placeholder|][0] == t[0];
    }
  }

  /** Formatting passes over a prefix without placeholders. */
  lemma {:induction false} FormatAfterPrefix(p: string, s: string, sessionId: string)
    requires NoBrace(p)
    ensures FormatSessionId(p + s, sessionId) == p + FormatSessionId(s, sessionId)
    decreases |p|
  {
    if p != [] {
      var t := p + s;
      assert t[0] == p[0];
      assert t[1..] == p[1..] + s;
      FormatPlainHead(t, sessionId);
      assert p == [p[0]] + p[1..];
      FormatAfterPrefix(p[1..], s, sessionId);
    } else {
      assert p + s == s;
    }
  }

  /** A file name that neither holds a placeholder nor leaves its directory. */
  predicate PlainName(s: string) {
    forall i | 0 <= i < |s| :: s[i] != '{' && s[i] != '/'
  }

  lemma FileNamePlain(r: Report)
    ensures PlainName(FileName(r))
  {
    match r
    case EssayOutline => assert PlainName("essay_outlines.md");
    case RefinedEssay => assert PlainName("refined_essays.md");
    case RawAdmissions => assert PlainName("raw_admissions_data.json");
    case StructuredAdmissions => assert PlainName("structured_admissions_data.json");
    case ComparisonReport => assert PlainName("program_comparison_report.md");
  }

  /** Formatting a leading placeholder replaces it and moves past it. */
  lemma FormatLeadingPlaceholder(rest: string, sessionId: string)
    ensures FormatSessionId(Placeholder + rest, sessionId) == sessionId + FormatSessionId(rest, sessionId)
  {
    var t := Placeholder + rest;
    assert t[..|Placeholder|] == Placeholder;
    assert t[|Placeholder|..] == rest;
  }

  /** A slash followed by a plain name holds no brace. */
  lemma SlashNameNoBrace(n: string)
    requires PlainName(n)
    ensures NoBrace("/" + n)
  {
    var rest := "/" + n;
    forall i | 0 <= i < |rest| ensures rest[i] != '{' {
      if i > 0 { assert rest[i] == n[i - 1]; }
    }
  }

  /** Formatting a directory template holding a plain file name. */
  lemma FormatInDir(root: string, n: string, sessionId: string)
    requires NoBrace(root) && PlainName(n)
    ensures FormatSessionId(root + Placeholder + "/" + n, sessionId) == root + sessionId + "/" + n
  {
    var rest := "/" + n;
    SlashNameNoBrace(n);
    assert root + Placeholder + "/" + n == root + (Placeholder + rest);
    FormatAfterPrefix(root, Placeholder + rest, sessionId);
    FormatLeadingPlaceholder(rest, sessionId);
    assert root + (sessionId + rest) == root + sessionId + "/" + n;
  }

  lemma ReportRootNoBrace()
    ensures NoBrace(ReportRoot)
  {
  }

  /** Formatting a template yields the file inside that session's directory. */
  lemma OutputPathShape(r: Report, sessionId: string)
    ensures FormatSessionId(Template(r), sessionId) == ReportRoot + sessionId + "/" + FileName(r)
  {
    TemplateShape(r);
    FileNamePlain(r);
    ReportRootNoBrace();
    FormatInDir(ReportRoot, FileName(r), sessionId);
  }

  /** The five file names are pairwise distinct. */
  lemma FileNamesDistinct(r1: Report, r2: Report)
    requires r1 != r2
    ensures FileName(r1) != FileName(r2)
  {
  }

  /** A directory and a plain name are recovered from their join. */
  lemma SplitAtLastSlash(s1: string, n1: string, s2: string, n2: string)
    requires PlainName(n1) && PlainName(n2)
    requires s1 + "/" + n1 == s2 + "/" + n2
    ensures s1 == s2 && n1 == n2
  {
    var x1, x2 := s1 + "/" + n1, s2 + "/" + n2;
    assert x1[|s1|] == '/' && x2[|s2|] == '/';
    forall k | |s1| < k < |x1| ensures x1[k] != '/' { assert x1[k] == n1[k - |s1| - 1]; }
    forall k | |s2| < k < |x2| ensures x2[k] != '/' { assert x2[k] == n2[k - |s2| - 1]; }
    assert |s1| == |s2|;
    assert s1 == x1[..|s1|] == x2[..|s2|] == s2;
    assert n1 == x1[|s1| + 1..] == x2[|s2| + 1..] == n2;
  }

  /** A path under the report root names its session and its file. */
  lemma RootedSplit(s1: string, n1: string, s2: string, n2: string)
    requires PlainName(n1) && PlainName(n2)
    requires ReportRoot + s1 + "/" + n1 == ReportRoot + s2 + "/" + n2
    ensures s1 == s2 && n1 == n2
  {
    var x1, x2 := s1 + "/" + n1, s2 + "/" + n2;
    assert ReportRoot + s1 + "/" + n1 == ReportRoot + x1;
    assert ReportRoot + s2 + "/" + n2 == ReportRoot + x2;
    assert x1 == (ReportRoot + x1)[|ReportRoot|..];
    assert x2 == (ReportRoot + x2)[|ReportRoot|..];
    SplitAtLastSlash(s1, n1, s2, n2);
  }

  /** The output path names its session and its file. */
  lemma OutputPathParts(r1: Report, s1: string, r2: Report, s2: string)
    requires OutputPath(r1, s1) == OutputPath(r2, s2)
    ensures s1 == s2 && FileName(r1) == FileName(r2)
  {
    OutputPathShape(r1, s1);
    OutputPathShape(r2, s2);
    FileNamePlain(r1);
    FileNamePlain(r2);
    RootedSplit(s1, FileName(r1), s2, FileName(r2));
  }

  /** Distinct (task, session) pairs never share an output file. */
  lemma OutputPathInjective(r1: Report, s1: string, r2: Report, s2: string)
    requires OutputPath(r1, s1) == OutputPath(r2, s2)
    ensures r1 == r2 && s1 == s2
  {
    OutputPathParts(r1, s1, r2, s2);
    if r1 != r2 { FileNamesDistinct(r1, r2); }
  }
}

=== FILE: results.dfy ===
/** Optional values, results, and the Python exceptions the session layer raises. */
module Results {

  import opened Json

  datatype Option<+T> = None | Some(value: T) {
    function GetOr(default: T): T {
      match this
      case Some(v) => v
      case None => default
    }
  }

  datatype Result<+R, +E> = Success(value: R) | Failure(error: E)

  /** The exceptions that escape the modelled functions, with their argument text. */
  datatype Raised =
    | KeyError(key: string)
    | ValueError(message: string)
    | AttributeError(message: string)
    | TypeError(message: string)
    /** An exception raised inside a crew run (an LLM, tool or framework
        error), known only by its message. */
    | CrewError(message: string)

  /** Python's str() of an exception: a KeyError prints the repr of its key. */
  function ExceptionText(e: Raised): string {
    match e
    case KeyError(k) => StrRepr(k)
    case ValueError(m) => m
    case AttributeError(m) => m
    case TypeError(m) => m
    case CrewError(m) => m
  }
}

=== FILE: sentiment.dfy ===
/** The Reddit post-processing of the sentiment helper: the first review becomes
    a search query, the search reply becomes post records, an LLM ranking picks
    the posts kept, and the kept posts go into the summary prompt. The LLM, the
    HTTP search and Python's `ast.literal_eval` are parameters. */
module Sentiment {
  import opened Results
  import opened Json
  import opened Text

  /** Titles are cut to this many characters (`[:200]`). */
  const TitleLimit := 200
  /** At most this many posts are kept (`[:5]`). */
  const PostLimit := 5

  /** The three prompts, known by the values interpolated into them. */
  datatype Prompt =
    | QueryPrompt(review: string)
    | RankingPrompt(review: string, titleLines: string)
    | SentimentPrompt(review: string, redditList: string)

  /** The GET request sent to the Reddit search endpoint. */
  datatype SearchRequest = SearchRequest(url: string, q: string, limit: int, userAgent: string)

  /** What the search call gives back: an exception, or a response whose body
      decoded as JSON. */
  datatype SearchReply =
    | SearchRaised(message: string)
    | SearchResponse(status: int, body: Json)

  /** One `{"title": ..., "url": ...}` record. */
  datatype Post = Post(title: Json, url: string)

  /** The helper either returns `{"reddit_posts", "summary"}`, raises an
      HTTPException, or lets another exception escape. */
  datatype Outcome =
    | Summarized(redditPosts: seq<Post>, summary: string)
    | HttpError(status: int, detail: string)
    | Uncaught(error: Raised)

  function Min(a: int, b: int): int {
    if a <= b then a else b
  }

  function RedditSearch(query: string): SearchRequest {
    SearchRequest("https://www.reddit.com/search.json", query, 25, "AICE-App/1.0")
  }

  // ---------------------------------------------------------------------------
  // Reading the search reply
  // ---------------------------------------------------------------------------

  /** The AttributeError of calling `.get` on a value that is not a dict. */
  function NoGet(v: Json): Raised {
    AttributeError("'" + TypeName(v) + "' object has no attribute 'get'")
  }

  /** `v.get(key, default)`: only a dict has `get`. */
  function DictGet(v: Json, key: string, default: Json): (r: Result<Json, Raised>)
    ensures r.Success? <==> v.JObj?
    ensures r.Success? && key in v.fields ==> r.value == v.fields[key]
    ensures r.Success? && key !in v.fields ==> r.value == default
    ensures r.Failure? ==> r.error == NoGet(v)
  {
    match v
    case JObj(m) => Success(GetOr(m, key, default))
    case _ => Failure(NoGet(v))
  }

  /** `v[:n]`: a string or list keeps its first `n` elements; a dict rejects
      the slice as a key; other values are not subscriptable. */
  function Prefix(v: Json, n: nat): (r: Result<Json, Raised>)
    ensures r.Success? <==> v.JStr? || v.JArr?
    ensures r.Success? && v.JStr? ==>
              r.value.JStr? && r.value.s <= v.s && |r.value.s| == Min(n, |v.s|)
    ensures r.Success? && v.JArr? ==>
              r.value.JArr? && r.value.items <= v.items && |r.value.items| == Min(n, |v.items|)
    ensures v.JObj? ==> r == Failure(TypeError("unhashable type: 'slice'"))
  {
    match v
    case JStr(s) => Success(JStr(s[..Min(n, |s|)]))
    case JArr(xs) => Success(JArr(xs[..Min(n, |xs|)]))
    case JObj(_) => Failure(TypeError("unhashable type: 'slice'"))
    case _ => Failure(TypeError("'" + TypeName(v) + "' object is not subscriptable"))
  }

  /** `for item in children`: a list yields its items. Iterating a non-empty
      string or dict yields strings, and the first of them fails at
      `item.get`; an empty one yields nothing. Other values are not iterable. */
  function Children(v: Json): (r: Result<seq<Json>, Raised>)
    ensures v.JArr? ==> r == Success(v.items)
    ensures r.Success? <==> v.JArr? || v == JStr("") || v == JObj(map[])
    ensures (v.JStr? || v.JObj?) && r.Failure? ==> r.error == NoGet(JStr(""))
  {
    match v
    case JArr(xs) => Success(xs)
    case JStr(s) => if s == "" then Success([]) else Failure(NoGet(JStr("")))
    case JObj(m) => if m == map[] then Success([]) else Failure(NoGet(JStr("")))
    case _ => Failure(TypeError("'" + TypeName(v) + "' object is not iterable"))
  }

  /** `item.get("data", {})` of a search result. */
  function DataOf(item: Json): Json
    requires item.JObj?
  {
    GetOr(item.fields, "data", JObj(map[]))
  }

  /** The title field before the cut, `.get("title", "")`. */
  function TitleOf(data: Json): Json
    requires data.JObj?
  {
    GetOr(data.fields, "title", JStr(""))
  }

  /** The post URL: the permalink, printed with `str()`, after the site. */
  function UrlOf(data: Json): string
    requires data.JObj?
  {
    "https://reddit.com" + Show(GetOr(data.fields, "permalink", JStr("")))
  }

  /** One raw post record, built from one search result. */
  function PostOf(item: Json): (r: Result<Post, Raised>)
    ensures !item.JObj? ==> r == Failure(NoGet(item))
    ensures r.Success? <==>
              item.JObj? && DataOf(item).JObj?
              && (TitleOf(DataOf(item)).JStr? || TitleOf(DataOf(item)).JArr?)
    ensures r.Success? ==> r.value.url == UrlOf(DataOf(item))
    ensures r.Success? && TitleOf(DataOf(item)).JStr? ==>
              r.value.title.JStr? && r.value.title.s <= TitleOf(DataOf(item)).s
              && |r.value.title.s| == Min(TitleLimit, |TitleOf(DataOf(item)).s|)
  {
    match DictGet(item, "data", JObj(map[]))
    case Failure(e) => Failure(e)
    case Success(data) =>
      match DictGet(data, "title", JStr(""))
      case Failure(e) => Failure(e)
      case Success(title) =>
        match Prefix(title, TitleLimit)
        case Failure(e) => Failure(e)
        case Success(t) => Success(Post(t, UrlOf(data)))
  }

  /** The list comprehension over the results: one record per result, or the
      exception of the first result that cannot be read. */
  function PostsOf(items: seq<Json>): (r: Result<seq<Post>, Raised>)
    ensures r.Success? <==> forall i | 0 <= i < |items| :: PostOf(items[i]).Success?
    ensures r.Success? ==>
              |r.value| == |items|
              && forall i | 0 <= i < |items| :: PostOf(items[i]) == Success(r.value[i])
    ensures r.Failure? ==> exists i | 0 <= i < |items| :: FirstFailure(items, i, r.error)
  {
    if items == [] then Success([])
    else
      match PostOf(items[0])
      case Failure(e) =>
        assert FirstFailure(items, 0, e);
        Failure(e)
      case Success(p) =>
        match PostsOf(items[1..])
        case Failure(e) =>
          var k :| 0 <= k < |items[1..]| && FirstFailure(items[1..], k, e);
          assert FirstFailure(items, k + 1, e);
          Failure(e)
        case Success(ps) => Success([p] + ps)
  }

  /** Result `i` raised `e`, and every result before it was read. */
  predicate FirstFailure(items: seq<Json>, i: nat, e: Raised)
    requires i < |items|
  {
    PostOf(items[i]) == Failure(e) && forall j | 0 <= j < i :: PostOf(items[j]).Success?
  }

  /** `raw_posts`, from the decoded search body. */
  function RawPosts(body: Json): (r: Result<seq<Post>, Raised>)
    ensures !body.JObj? ==> r == Failure(NoGet(body))
    ensures r.Success? ==> body.JObj? && DataOf(body).JObj?
  {
    match DictGet(body, "data", JObj(map[]))
    case Failure(e) => Failure(e)
    case Success(data) =>
      match DictGet(data, "children", JArr([]))
      case Failure(e) => Failure(e)
      case Success(children) =>
        match Children(children)
        case Failure(e) => Failure(e)
        case Success(items) => PostsOf(items)
  }

  /** A listing whose results are all readable gives one record per result,
      in order, each with its cut title and its URL. */
  lemma ListingPosts(body: Json)
    requires body.JObj? && DataOf(body).JObj?
    requires GetOr(DataOf(body).fields, "children", JArr([])).JArr?
    ensures var xs := GetOr(DataOf(body).fields, "children", JArr([])).items;
            (RawPosts(body).Success? <==> forall i | 0 <= i < |xs| :: PostOf(xs[i]).Success?)
            && (RawPosts(body).Success? ==>
                  |RawPosts(body).value| == |xs|
                  && forall i | 0 <= i < |xs| ::
                       RawPosts(body).value[i].url == UrlOf(DataOf(xs[i])))
  {
    var xs := GetOr(DataOf(body).fields, "children", JArr([])).items;
    assert RawPosts(body) == PostsOf(xs);
    var r := PostsOf(xs);
    if r.Success? {
      forall i | 0 <= i < |xs|
        ensures r.value[i].url == UrlOf(DataOf(xs[i]))
      {
        assert PostOf(xs[i]) == Success(r.value[i]);
      }
    }
  }

  /** Every raw title that is a string is at most 200 characters long and
      starts the title Reddit sent. */
  lemma RawTitlesCut(items: seq<Json>)
    requires PostsOf(items).Success?
    ensures forall i | 0 <= i < |items| && PostsOf(items).value[i].title.JStr? ::
              |PostsOf(items).value[i].title.s| <= TitleLimit
              && TitleOf(DataOf(items[i])).JStr?
              && PostsOf(items).value[i].title.s <= TitleOf(DataOf(items[i])).s
  {
    var ps := PostsOf(items).value;
    forall i | 0 <= i < |items| && ps[i].title.JStr?
      ensures |ps[i].title.s| <= TitleLimit
      ensures TitleOf(DataOf(items[i])).JStr? && ps[i].title.s <= TitleOf(DataOf(items[i])).s
    {
      assert PostOf(items[i]) == Success(ps[i]);
      assert TitleOf(DataOf(items[i])).JStr?;
    }
  }

  // ---------------------------------------------------------------------------
  // The LLM ranking and the selection
  // ---------------------------------------------------------------------------

  /** The strings of a list whose items are all strings. */
  function StringsOf(xs: seq<Json>): (r: Option<seq<string>>)
    ensures r.Some? <==> forall i | 0 <= i < |xs| :: xs[i].JStr?
    ensures r.Some? ==> |r.value| == |xs| && forall i | 0 <= i < |xs| :: xs[i] == JStr(r.value[i])
  {
    if xs == [] then Some([])
    else if !xs[0].JStr? then None
    else
      match StringsOf(xs[1..])
      case None => None
      case Some(ss) => Some([xs[0].s] + ss)
  }

  /** `top_titles`: the evaluated LLM reply, accepted only as a list of
      strings; `None` is the 500 path (a failed evaluation or a wrong shape). */
  function TopTitles(evaluated: Option<Json>): (r: Option<seq<string>>)
    ensures r.Some? <==>
              evaluated.Some? && evaluated.value.JArr?
              && forall i | 0 <= i < |evaluated.value.items| :: evaluated.value.items[i].JStr?
    ensures r.Some? ==>
              |r.value| == |evaluated.value.items|
              && forall i | 0 <= i < |r.value| :: evaluated.value.items[i] == JStr(r.value[i])
  {
    match evaluated
    case Some(JArr(xs)) => StringsOf(xs)
    case _ => None
  }

  /** `p["title"] in top_titles`: only a string title can equal a string. */
  predicate Chosen(p: Post, top: seq<string>) {
    p.title.JStr? && p.title.s in top
  }

  /** `a` is `b` with some elements left out, order kept. */
  predicate Sublist<T(==)>(a: seq<T>, b: seq<T>)
    decreases |b|
  {
    if b == [] then a == []
    else (a != [] && a[0] == b[0] && Sublist(a[1..], b[1..])) || Sublist(a, b[1..])
  }

  lemma {:induction false} EmptySublist<T>(b: seq<T>)
    ensures Sublist([], b)
    decreases |b|
  {
    if b != [] {
      EmptySublist(b[1..]);
    }
  }

  /** A prefix of a sublist is a sublist. */
  lemma {:induction false} SublistPrefix<T>(a: seq<T>, b: seq<T>, n: nat)
    requires Sublist(a, b) && n <= |a|
    ensures Sublist(a[..n], b)
    decreases |b|
  {
    if n == 0 {
      assert a[..n] == [];
      EmptySublist(b);
    } else if b == [] {
    } else if a != [] && a[0] == b[0] && Sublist(a[1..], b[1..]) {
      SublistPrefix(a[1..], b[1..], n - 1);
      assert a[..n][1..] == a[1..][..n - 1];
    } else {
      SublistPrefix(a, b[1..], n);
    }
  }

  /** The comprehension `[p for p in raw_posts if p["title"] in top_titles]`. */
  function Matching(raw: seq<Post>, top: seq<string>): (r: seq<Post>)
    ensures forall p :: p in r <==> p in raw && Chosen(p, top)
    ensures forall p :: multiset(r)[p] == if Chosen(p, top) then multiset(raw)[p] else 0
    ensures Sublist(r, raw)
  {
    if raw == [] then []
    else
      assert raw == [raw[0]] + raw[1..];
      if Chosen(raw[0], top) then
        var rest := Matching(raw[1..], top);
        assert ([raw[0]] + rest)[1..] == rest;
        [raw[0]] + rest
      else
        Matching(raw[1..], top)
  }

  /** `posts`: the matching records, cut to the first five. */
  function SelectPosts(raw: seq<Post>, top: seq<string>): (r: seq<Post>)
    ensures |r| == Min(PostLimit, |Matching(raw, top)|)
    ensures r <= Matching(raw, top)
    ensures Sublist(r, raw)
    ensures forall p | p in r :: p in raw && Chosen(p, top)
    ensures |Matching(raw, top)| <= PostLimit ==>
              forall p | p in raw && Chosen(p, top) :: p in r
  {
    var m := Matching(raw, top);
    var n := Min(PostLimit, |m|);
    SublistPrefix(m, raw, n);
    assert forall p | p in m[..n] :: p in m;
    m[..n]
  }

  // ---------------------------------------------------------------------------
  // The prompt texts that carry the posts
  // ---------------------------------------------------------------------------

  /** `f"- {p['title']}"`. */
  function TitleLine(p: Post): string {
    "- " + Show(p.title)
  }

  /** `f"- {p['title']} ({p['url']})"`. */
  function PostLine(p: Post): string {
    "- " + Show(p.title) + " (" + p.url + ")"
  }

  /** The titles listed in the ranking prompt, one per line. */
  function TitleLines(raw: seq<Post>): string {
    Join("\n", seq(|raw|, i requires 0 <= i < |raw| => TitleLine(raw[i])))
  }

  /** `reddit_list`: the kept posts, one per line with their URL. */
  function RedditList(posts: seq<Post>): string {
    Join("\n", seq(|posts|, i requires 0 <= i < |posts| => PostLine(posts[i])))
  }

  /** The ranking prompt lists every raw post's title. */
  lemma TitleLinesListAll(raw: seq<Post>, k: nat)
    requires k < |raw|
    ensures Contains("- " + Show(raw[k].title), TitleLines(raw))
  {
    JoinContains("\n", seq(|raw|, i requires 0 <= i < |raw| => TitleLine(raw[i])), k);
  }

  /** The summary prompt's list shows every kept post with its URL. */
  lemma RedditListShowsAll(posts: seq<Post>, k: nat)
    requires k < |posts|
    ensures Contains("- " + Show(posts[k].title) + " (" + posts[k].url + ")", RedditList(posts))
  {
    JoinContains("\n", seq(|posts|, i requires 0 <= i < |posts| => PostLine(posts[i])), k);
  }

  // ---------------------------------------------------------------------------
  // sentiment_reddit_summary
  // ---------------------------------------------------------------------------

  type Llm = Prompt -> string
  type Search = SearchRequest -> SearchReply
  type LiteralEval = string -> Option<Json>

  /** The ranking the LLM returns for the raw posts, after evaluation. */
  function Ranking(review: string, raw: seq<Post>, llm: Llm, literalEval: LiteralEval): Option<seq<string>> {
    TopTitles(literalEval(Strip(llm(RankingPrompt(review, TitleLines(raw))))))
  }

  /** Everything after the first review is chosen. */
  function SummarizeReview(review: string, llm: Llm, search: Search, literalEval: LiteralEval): (r: Outcome)
    ensures var reply := search(RedditSearch(Strip(llm(QueryPrompt(review)))));
            && (reply.SearchRaised? ==> r == HttpError(502, "Reddit search error: " + reply.message))
            && (reply.SearchResponse? && reply.status != 200 ==> r == HttpError(502, "Reddit search failed"))
            && (reply.SearchResponse? && reply.status == 200 && RawPosts(reply.body).Failure? ==>
                  r == Uncaught(RawPosts(reply.body).error))
            && (r == HttpError(500, "Failed to parse LLM response for selected titles") <==>
                  reply.SearchResponse? && reply.status == 200 && RawPosts(reply.body).Success?
                  && Ranking(review, RawPosts(reply.body).value, llm, literalEval).None?)
            && (r.Summarized? <==>
                  reply.SearchResponse? && reply.status == 200 && RawPosts(reply.body).Success?
                  && Ranking(review, RawPosts(reply.body).value, llm, literalEval).Some?)
    ensures r.Summarized? ==>
              var raw := RawPosts(search(RedditSearch(Strip(llm(QueryPrompt(review))))).body).value;
              var top := Ranking(review, raw, llm, literalEval).value;
              && Sublist(r.redditPosts, raw)
              && r.redditPosts <= Matching(raw, top)
              && |r.redditPosts| == Min(PostLimit, |Matching(raw, top)|)
              && |r.redditPosts| <= PostLimit
              && (forall p | p in r.redditPosts :: Chosen(p, top))
              && r.summary == Strip(llm(SentimentPrompt(review, RedditList(r.redditPosts))))
  {
    var query := Strip(llm(QueryPrompt(review)));
    match search(RedditSearch(query))
    case SearchRaised(message) => HttpError(502, "Reddit search error: " + message)
    case SearchResponse(status, body) =>
      if status != 200 then HttpError(502, "Reddit search failed")
      else
        match RawPosts(body)
        case Failure(e) => Uncaught(e)
        case Success(raw) =>
          match Ranking(review, raw, llm, literalEval)
          case None => HttpError(500, "Failed to parse LLM response for selected titles")
          case Some(top) =>
            var posts := SelectPosts(raw, top);
            Summarized(posts, Strip(llm(SentimentPrompt(review, RedditList(posts)))))
  }

  /** `sentiment_reddit_summary(reviews)`: an empty list is refused before any
      call; otherwise only the first review is used. */
  function SentimentRedditSummary(reviews: seq<string>, llm: Llm, search: Search, literalEval: LiteralEval): (r: Outcome)
    ensures reviews == [] ==> r == HttpError(400, "Must supply at least one review")
    ensures reviews != [] ==> r == SummarizeReview(reviews[0], llm, search, literalEval)
  {
    if reviews == [] then HttpError(400, "Must supply at least one review")
    else SummarizeReview(reviews[0], llm, search, literalEval)
  }
}

=== FILE: store.dfy ===
/** The JSON-file session store: seven named collections mapping ids to
    records, with the CRUD operations of the backend's db package. Each
    operation reads the whole store and, unless it raises, writes one new
    store back; a raised exception leaves the stored file as it was. */
module Store {
  import opened Results
  import opened Json

  datatype Status = Pending | InProgress | Completed | Failed

  /** The text stored in a session's "status" field. */
  function StatusText(s: Status): string {
    match s
    case Pending => "pending"
    case InProgress => "in_progress"
    case Completed => "completed"
    case Failed => "failed"
  }

  /** The flow-specific inputs captured when a session is created. */
  datatype Inputs =
    | EssayInputs(essayText: Json, targetUniversity: Json)
    | ProgramInputs(universityList: Json, comparisonCriteria: Json)

  /** A session record: user_id, the inputs, created_at, status, and the
      error text the dispatcher adds when the flow fails. */
  datatype Session = Session(userId: Json, inputs: Inputs, createdAt: string, status: Status, error: Option<string>)

  /** An essay_results record: outline, refined_draft, completed_at. It has no
      user_id field. */
  datatype EssayResult = EssayResult(outline: Json, refinedDraft: Json, completedAt: string)

  type UserRecord = map<string, Json>

  datatype Db = Db(
    users: map<string, UserRecord>,
    essaySessions: map<string, Session>,
    essayResults: map<string, EssayResult>,
    programSessions: map<string, Session>,
    rawData: map<string, Json>,
    structuredData: map<string, Json>,
    comparisonReports: map<string, Json>)

  /** The layout written when no store file exists yet. */
  function InitialDb(): (db: Db)
    ensures db.users == map[] && db.essaySessions == map[] && db.essayResults == map[]
    ensures db.programSessions == map[] && db.rawData == map[]
    ensures db.structuredData == map[] && db.comparisonReports == map[]
  {
    Db(map[], map[], map[], map[], map[], map[], map[])
  }

  /** Every getter raises on the initial store. */
  lemma InitialDbHoldsNothing(uid: string, sid: string)
    ensures GetUser(InitialDb(), uid).Failure?
    ensures GetEssaySession(InitialDb(), sid).Failure?
    ensures GetEssayResults(InitialDb(), sid).Failure?
    ensures GetProgramAnalysisSession(InitialDb(), sid).Failure?
    ensures GetRawAdmissionsData(InitialDb(), sid).Failure?
    ensures GetStructuredAdmissionsData(InitialDb(), sid).Failure?
    ensures GetProgramComparisonReport(InitialDb(), sid).Failure?
  {
  }

  // ---------------------------------------------------------------------------
  // Users
  // ---------------------------------------------------------------------------

  /** Registers a user under a fresh id. */
  function CreateUser(db: Db, userId: string, userData: UserRecord): (r: Db)
    requires userId !in db.users
    ensures r == db.(users := r.users)
    ensures r.users.Keys == db.users.Keys + {userId}
    ensures r.users[userId] == userData
    ensures forall u :: u in db.users ==> r.users[u] == db.users[u]
  {
    var users := db.users[userId := userData];
    assert users.Keys == db.users.Keys + {userId};
    db.(users := users)
  }

  function GetUser(db: Db, userId: string): (r: Result<UserRecord, Raised>)
    ensures r.Failure? <==> userId !in db.users
    ensures r.Success? ==> r.value == db.users[userId]
    ensures r.Failure? ==> r.error == KeyError("User " + userId + " not found")
  {
    if userId !in db.users then Failure(KeyError("User " + userId + " not found"))
    else Success(db.users[userId])
  }

  /** Shallow-merges `updates` into an existing user record. */
  function UpdateUser(db: Db, userId: string, updates: UserRecord): (r: Result<Db, Raised>)
    ensures r.Failure? <==> userId !in db.users
    ensures r.Failure? ==> r.error == KeyError("User " + userId + " not found")
    ensures r.Success? ==> r.value == db.(users := r.value.users)
    ensures r.Success? ==> r.value.users.Keys == db.users.Keys
    ensures r.Success? ==> forall u :: u in db.users && u != userId ==> r.value.users[u] == db.users[u]
    ensures r.Success? ==> r.value.users[userId].Keys == db.users[userId].Keys + updates.Keys
    ensures r.Success? ==> forall k :: k in updates ==> r.value.users[userId][k] == updates[k]
    ensures r.Success? ==> forall k :: k in db.users[userId] && k !in updates ==> r.value.users[userId][k] == db.users[userId][k]
  {
    if userId !in db.users then Failure(KeyError("User " + userId + " not found"))
    else Success(db.(users := db.users[userId := db.users[userId] + updates]))
  }

  /** `record.get("user_id") == user_id` for a result record stored as JSON;
      only a dict answers `.get`. */
  predicate JsonOwnedBy(v: Json, userId: string)
    requires v.JObj?
  {
    "user_id" in v.fields && v.fields["user_id"] == JStr(userId)
  }

  predicate SessionOwnedBy(s: Session, userId: string) {
    s.userId == JStr(userId)
  }

  /** Some record of the collection is not a dict, so `.get` raises on it. */
  predicate HoldsNonDict(m: map<string, Json>) {
    exists k | k in m :: !m[k].JObj?
  }

  /** `after` holds exactly the sessions of `before` that the user does not
      own, unchanged. */
  ghost predicate SessionsPruned(before: map<string, Session>, after: map<string, Session>, userId: string) {
    && (forall k :: k in after <==> k in before && !SessionOwnedBy(before[k], userId))
    && (forall k :: k in after ==> k in before && after[k] == before[k])
  }

  /** `after` holds exactly the records of `before` whose user_id is not the
      user, unchanged. */
  ghost predicate JsonPruned(before: map<string, Json>, after: map<string, Json>, userId: string)
    requires !HoldsNonDict(before)
  {
    && (forall k :: k in after <==> k in before && !JsonOwnedBy(before[k], userId))
    && (forall k :: k in after ==> k in before && after[k] == before[k])
  }

  function KeepSessionsNotOwned(m: map<string, Session>, userId: string): (r: map<string, Session>)
    ensures SessionsPruned(m, r, userId)
  {
    map k | k in m && !SessionOwnedBy(m[k], userId) :: m[k]
  }

  function KeepJsonNotOwned(m: map<string, Json>, userId: string): (r: map<string, Json>)
    requires !HoldsNonDict(m)
    ensures JsonPruned(m, r, userId)
  {
    map k | k in m && !JsonOwnedBy(m[k], userId) :: m[k]
  }

  /** Removes a user and, in each listed collection, the records whose
      user_id is that user. Essay results carry no user_id and are kept. A
      non-dict record in a JSON-valued collection makes `.get` raise before
      anything is written. */
  function DeleteUser(db: Db, userId: string): (r: Result<Db, Raised>)
    ensures r.Failure? <==> HoldsNonDict(db.rawData) || HoldsNonDict(db.structuredData) || HoldsNonDict(db.comparisonReports)
    ensures r.Success? ==> r.value.users.Keys == db.users.Keys - {userId}
    ensures r.Success? ==> forall u :: u in r.value.users ==> r.value.users[u] == db.users[u]
    ensures r.Success? ==> r.value.essayResults == db.essayResults
    ensures r.Success? ==> SessionsPruned(db.essaySessions, r.value.essaySessions, userId)
    ensures r.Success? ==> SessionsPruned(db.programSessions, r.value.programSessions, userId)
    ensures r.Success? ==> !HoldsNonDict(db.rawData) && JsonPruned(db.rawData, r.value.rawData, userId)
    ensures r.Success? ==> !HoldsNonDict(db.structuredData) && JsonPruned(db.structuredData, r.value.structuredData, userId)
    ensures r.Success? ==> !HoldsNonDict(db.comparisonReports) && JsonPruned(db.comparisonReports, r.value.comparisonReports, userId)
  {
    if HoldsNonDict(db.rawData) || HoldsNonDict(db.structuredData) || HoldsNonDict(db.comparisonReports) then
      Failure(AttributeError("object has no attribute 'get'"))
    else
      Success(Db(
        db.users - {userId},
        KeepSessionsNotOwned(db.essaySessions, userId),
        db.essayResults,
        KeepSessionsNotOwned(db.programSessions, userId),
        KeepJsonNotOwned(db.rawData, userId),
        KeepJsonNotOwned(db.structuredData, userId),
        KeepJsonNotOwned(db.comparisonReports, userId)))
  }

  /** A stored None, string or list among the data records makes delete_user
      raise, whoever the user is. */
  lemma NonDictRecordBlocksDelete(db: Db, sessionId: string, userId: string)
    requires sessionId in db.comparisonReports && !db.comparisonReports[sessionId].JObj?
    ensures DeleteUser(db, userId).Failure?
  {
    assert HoldsNonDict(db.comparisonReports);
  }

  /** A record the cascade should remove: a dict whose user_id is the user.
      A record that is not a dict belongs to nobody. */
  predicate OwnedRecord(v: Json, userId: string) {
    v.JObj? && JsonOwnedBy(v, userId)
  }

  /** `after` holds exactly the records of `before` that the user does not
      own, unchanged. */
  ghost predicate RecordsPruned(before: map<string, Json>, after: map<string, Json>, userId: string) {
    && (forall k :: k in after <==> k in before && !OwnedRecord(before[k], userId))
    && (forall k :: k in after ==> k in before && after[k] == before[k])
  }

  function KeepRecordsNotOwned(m: map<string, Json>, userId: string): (r: map<string, Json>)
    ensures RecordsPruned(m, r, userId)
  {
    map k | k in m && !OwnedRecord(m[k], userId) :: m[k]
  }

  /** delete_user with the cascade skipping records that are not dicts: it
      never raises, and removes the user with everything that names them. */
  function DeleteUserSkippingValues(db: Db, userId: string): (r: Db)
    ensures r.users.Keys == db.users.Keys - {userId}
    ensures forall u :: u in r.users ==> r.users[u] == db.users[u]
    ensures r.essayResults == db.essayResults
    ensures SessionsPruned(db.essaySessions, r.essaySessions, userId)
    ensures SessionsPruned(db.programSessions, r.programSessions, userId)
    ensures RecordsPruned(db.rawData, r.rawData, userId)
    ensures RecordsPruned(db.structuredData, r.structuredData, userId)
    ensures RecordsPruned(db.comparisonReports, r.comparisonReports, userId)
  {
    Db(db.users - {userId},
       KeepSessionsNotOwned(db.essaySessions, userId),
       db.essayResults,
       KeepSessionsNotOwned(db.programSessions, userId),
       KeepRecordsNotOwned(db.rawData, userId),
       KeepRecordsNotOwned(db.structuredData, userId),
       KeepRecordsNotOwned(db.comparisonReports, userId))
  }

  /** On a collection of dicts, pruning by owner is the same with or without
      the dict check. */
  lemma {:induction false} PrunedAgree(m: map<string, Json>, userId: string)
    requires !HoldsNonDict(m)
    ensures KeepJsonNotOwned(m, userId) == KeepRecordsNotOwned(m, userId)
  {
    var a, b := KeepJsonNotOwned(m, userId), KeepRecordsNotOwned(m, userId);
    forall k | k in m
      ensures (k in a <==> k in b)
    {
      assert m[k].JObj?;
    }
    assert a.Keys == b.Keys;
  }

  /** Wherever delete_user does not raise, the corrected cascade deletes
      exactly the same records. */
  lemma CorrectedDeleteAgrees(db: Db, userId: string)
    requires DeleteUser(db, userId).Success?
    ensures DeleteUser(db, userId).value == DeleteUserSkippingValues(db, userId)
  {
    PrunedAgree(db.rawData, userId);
    PrunedAgree(db.structuredData, userId);
    PrunedAgree(db.comparisonReports, userId);
  }

  // ---------------------------------------------------------------------------
  // Essay-writing sessions
  // ---------------------------------------------------------------------------

  /** Starts a pending essay session under a fresh id. */
  function CreateEssaySession(db: Db, sessionId: string, userId: Json, essayText: Json, targetUniversity: Json, createdAt: string): (r: Db)
    requires sessionId !in db.essaySessions
    ensures r == db.(essaySessions := r.essaySessions)
    ensures r.essaySessions.Keys == db.essaySessions.Keys + {sessionId}
    ensures |r.essaySessions| == |db.essaySessions| + 1
    ensures forall k :: k in db.essaySessions ==> r.essaySessions[k] == db.essaySessions[k]
    ensures r.essaySessions[sessionId].status == Pending
    ensures r.essaySessions[sessionId].error.None?
    ensures r.essaySessions[sessionId].userId == userId
    ensures r.essaySessions[sessionId].inputs == EssayInputs(essayText, targetUniversity)
  {
    var sessions := db.essaySessions[sessionId := Session(userId, EssayInputs(essayText, targetUniversity), createdAt, Pending, None)];
    assert sessions.Keys == db.essaySessions.Keys + {sessionId};
    db.(essaySessions := sessions)
  }

  function GetEssaySession(db: Db, sessionId: string): (r: Result<Session, Raised>)
    ensures r.Failure? <==> sessionId !in db.essaySessions
    ensures r.Success? ==> r.value == db.essaySessions[sessionId]
    ensures r.Failure? ==> r.error == KeyError("Essay session " + sessionId + " not found")
  {
    if sessionId !in db.essaySessions then Failure(KeyError("Essay session " + sessionId + " not found"))
    else Success(db.essaySessions[sessionId])
  }

  /** Stores the outline and refined draft and marks the session completed,
      in one write. */
  function SaveEssayResults(db: Db, sessionId: string, outline: Json, refinedDraft: Json, completedAt: string): (r: Result<Db, Raised>)
    ensures r.Failure? <==> sessionId !in db.essaySessions
    ensures r.Failure? ==> r.error == KeyError("Essay session " + sessionId + " not found")
    ensures r.Success? ==> r.value == db.(essaySessions := r.value.essaySessions, essayResults := r.value.essayResults)
    ensures r.Success? ==> r.value.essayResults.Keys == db.essayResults.Keys + {sessionId}
    ensures r.Success? ==> forall k :: k in db.essayResults && k != sessionId ==> r.value.essayResults[k] == db.essayResults[k]
    ensures r.Success? ==> r.value.essayResults[sessionId] == EssayResult(outline, refinedDraft, completedAt)
    ensures r.Success? ==> r.value.essaySessions.Keys == db.essaySessions.Keys
    ensures r.Success? ==> forall k :: k in db.essaySessions && k != sessionId ==> r.value.essaySessions[k] == db.essaySessions[k]
    ensures r.Success? ==> r.value.essaySessions[sessionId] == db.essaySessions[sessionId].(status := Completed)
  {
    if sessionId !in db.essaySessions then Failure(KeyError("Essay session " + sessionId + " not found"))
    else
      var session := db.essaySessions[sessionId];
      Success(db.(
        essayResults := db.essayResults[sessionId := EssayResult(outline, refinedDraft, completedAt)],
        essaySessions := db.essaySessions[sessionId := session.(status := Completed)]))
  }

  function GetEssayResults(db: Db, sessionId: string): (r: Result<EssayResult, Raised>)
    ensures r.Failure? <==> sessionId !in db.essayResults
    ensures r.Success? ==> r.value == db.essayResults[sessionId]
    ensures r.Failure? ==> r.error == KeyError("No results for essay session " + sessionId)
  {
    if sessionId !in db.essayResults then Failure(KeyError("No results for essay session " + sessionId))
    else Success(db.essayResults[sessionId])
  }

  /** Deletes an essay session and its results; unknown ids are ignored. */
  function DeleteEssaySession(db: Db, sessionId: string): (r: Db)
    ensures r == db.(essaySessions := r.essaySessions, essayResults := r.essayResults)
    ensures r.essaySessions.Keys == db.essaySessions.Keys - {sessionId}
    ensures r.essayResults.Keys == db.essayResults.Keys - {sessionId}
    ensures forall k :: k in r.essaySessions ==> r.essaySessions[k] == db.essaySessions[k]
    ensures forall k :: k in r.essayResults ==> r.essayResults[k] == db.essayResults[k]
    ensures sessionId !in db.essaySessions && sessionId !in db.essayResults ==> r == db
  {
    db.(essaySessions := db.essaySessions - {sessionId}, essayResults := db.essayResults - {sessionId})
  }

  // ---------------------------------------------------------------------------
  // Program-analysis sessions
  // ---------------------------------------------------------------------------

  /** Starts a pending program-analysis session under a fresh id. */
  function CreateProgramAnalysisSession(db: Db, sessionId: string, userId: Json, universityList: Json, criteria: Json, createdAt: string): (r: Db)
    requires sessionId !in db.programSessions
    ensures r == db.(programSessions := r.programSessions)
    ensures r.programSessions.Keys == db.programSessions.Keys + {sessionId}
    ensures |r.programSessions| == |db.programSessions| + 1
    ensures forall k :: k in db.programSessions ==> r.programSessions[k] == db.programSessions[k]
    ensures r.programSessions[sessionId].status == Pending
    ensures r.programSessions[sessionId].error.None?
    ensures r.programSessions[sessionId].userId == userId
    ensures r.programSessions[sessionId].inputs == ProgramInputs(universityList, criteria)
  {
    var sessions := db.programSessions[sessionId := Session(userId, ProgramInputs(universityList, criteria), createdAt, Pending, None)];
    assert sessions.Keys == db.programSessions.Keys + {sessionId};
    db.(programSessions := sessions)
  }

  function AnalysisSessionMissing(sessionId: string): Raised {
    KeyError("Analysis session " + sessionId + " not found")
  }

  function GetProgramAnalysisSession(db: Db, sessionId: string): (r: Result<Session, Raised>)
    ensures r.Failure? <==> sessionId !in db.programSessions
    ensures r.Success? ==> r.value == db.programSessions[sessionId]
    ensures r.Failure? ==> r.error == AnalysisSessionMissing(sessionId)
  {
    if sessionId !in db.programSessions then Failure(AnalysisSessionMissing(sessionId))
    else Success(db.programSessions[sessionId])
  }

  /** Stores scraped admissions data; the session status is not touched. */
  function SaveRawAdmissionsData(db: Db, sessionId: string, rawData: Json): (r: Result<Db, Raised>)
    ensures r.Failure? <==> sessionId !in db.programSessions
    ensures r.Failure? ==> r.error == AnalysisSessionMissing(sessionId)
    ensures r.Success? ==> r.value == db.(rawData := r.value.rawData)
    ensures r.Success? ==> r.value.programSessions == db.programSessions
    ensures r.Success? ==> r.value.rawData.Keys == db.rawData.Keys + {sessionId}
    ensures r.Success? ==> r.value.rawData[sessionId] == rawData
    ensures r.Success? ==> forall k :: k in db.rawData && k != sessionId ==> r.value.rawData[k] == db.rawData[k]
  {
    if sessionId !in db.programSessions then Failure(AnalysisSessionMissing(sessionId))
    else Success(db.(rawData := db.rawData[sessionId := rawData]))
  }

  function GetRawAdmissionsData(db: Db, sessionId: string): (r: Result<Json, Raised>)
    ensures r.Failure? <==> sessionId !in db.rawData
    ensures r.Success? ==> r.value == db.rawData[sessionId]
    ensures r.Failure? ==> r.error == KeyError("No raw data for session " + sessionId)
  {
    if sessionId !in db.rawData then Failure(KeyError("No raw data for session " + sessionId))
    else Success(db.rawData[sessionId])
  }

  /** Stores processed admissions data; the session status is not touched. */
  function SaveStructuredAdmissionsData(db: Db, sessionId: string, structured: Json): (r: Result<Db, Raised>)
    ensures r.Failure? <==> sessionId !in db.programSessions
    ensures r.Failure? ==> r.error == AnalysisSessionMissing(sessionId)
    ensures r.Success? ==> r.value == db.(structuredData := r.value.structuredData)
    ensures r.Success? ==> r.value.programSessions == db.programSessions
    ensures r.Success? ==> r.value.structuredData.Keys == db.structuredData.Keys + {sessionId}
    ensures r.Success? ==> r.value.structuredData[sessionId] == structured
    ensures r.Success? ==> forall k :: k in db.structuredData && k != sessionId ==> r.value.structuredData[k] == db.structuredData[k]
  {
    if sessionId !in db.programSessions then Failure(AnalysisSessionMissing(sessionId))
    else Success(db.(structuredData := db.structuredData[sessionId := structured]))
  }

  function GetStructuredAdmissionsData(db: Db, sessionId: string): (r: Result<Json, Raised>)
    ensures r.Failure? <==> sessionId !in db.structuredData
    ensures r.Success? ==> r.value == db.structuredData[sessionId]
    ensures r.Failure? ==> r.error == KeyError("No structured data for session " + sessionId)
  {
    if sessionId !in db.structuredData then Failure(KeyError("No structured data for session " + sessionId))
    else Success(db.structuredData[sessionId])
  }

  /** Stores the comparison report and marks the session completed. */
  function SaveProgramComparisonReport(db: Db, sessionId: string, report: Json): (r: Result<Db, Raised>)
    ensures r.Failure? <==> sessionId !in db.programSessions
    ensures r.Failure? ==> r.error == AnalysisSessionMissing(sessionId)
    ensures r.Success? ==> r.value == db.(comparisonReports := r.value.comparisonReports, programSessions := r.value.programSessions)
    ensures r.Success? ==> r.value.comparisonReports.Keys == db.comparisonReports.Keys + {sessionId}
    ensures r.Success? ==> r.value.comparisonReports[sessionId] == report
    ensures r.Success? ==> forall k :: k in db.comparisonReports && k != sessionId ==> r.value.comparisonReports[k] == db.comparisonReports[k]
    ensures r.Success? ==> r.value.programSessions.Keys == db.programSessions.Keys
    ensures r.Success? ==> forall k :: k in db.programSessions && k != sessionId ==> r.value.programSessions[k] == db.programSessions[k]
    ensures r.Success? ==> r.value.programSessions[sessionId] == db.programSessions[sessionId].(status := Completed)
  {
    if sessionId !in db.programSessions then Failure(AnalysisSessionMissing(sessionId))
    else
      var session := db.programSessions[sessionId];
      Success(db.(
        comparisonReports := db.comparisonReports[sessionId := report],
        programSessions := db.programSessions[sessionId := session.(status := Completed)]))
  }

  function GetProgramComparisonReport(db: Db, sessionId: string): (r: Result<Json, Raised>)
    ensures r.Failure? <==> sessionId !in db.comparisonReports
    ensures r.Success? ==> r.value == db.comparisonReports[sessionId]
    ensures r.Failure? ==> r.error == KeyError("No comparison report for session " + sessionId)
  {
    if sessionId !in db.comparisonReports then Failure(KeyError("No comparison report for session " + sessionId))
    else Success(db.comparisonReports[sessionId])
  }

  /** Deletes a program-analysis session and its three result records;
      unknown ids are ignored. */
  function DeleteProgramAnalysisSession(db: Db, sessionId: string): (r: Db)
    ensures r.users == db.users && r.essaySessions == db.essaySessions && r.essayResults == db.essayResults
    ensures r.programSessions.Keys == db.programSessions.Keys - {sessionId}
    ensures r.rawData.Keys == db.rawData.Keys - {sessionId}
    ensures r.structuredData.Keys == db.structuredData.Keys - {sessionId}
    ensures r.comparisonReports.Keys == db.comparisonReports.Keys - {sessionId}
    ensures forall k :: k in r.programSessions ==> r.programSessions[k] == db.programSessions[k]
    ensures forall k :: k in r.rawData ==> r.rawData[k] == db.rawData[k]
    ensures forall k :: k in r.structuredData ==> r.structuredData[k] == db.structuredData[k]
    ensures forall k :: k in r.comparisonReports ==> r.comparisonReports[k] == db.comparisonReports[k]
  {
    db.(programSessions := db.programSessions - {sessionId},
        rawData := db.rawData - {sessionId},
        structuredData := db.structuredData - {sessionId},
        comparisonReports := db.comparisonReports - {sessionId})
  }

  // ---------------------------------------------------------------------------
  // Properties relating several operations
  // ---------------------------------------------------------------------------

  /** What save_* writes, get_* returns. */
  lemma SaveThenGet(db: Db, sessionId: string, outline: Json, refined: Json, v: Json, at: string)
    ensures SaveEssayResults(db, sessionId, outline, refined, at).Success? ==>
      GetEssayResults(SaveEssayResults(db, sessionId, outline, refined, at).value, sessionId) == Success(EssayResult(outline, refined, at))
    ensures SaveRawAdmissionsData(db, sessionId, v).Success? ==>
      GetRawAdmissionsData(SaveRawAdmissionsData(db, sessionId, v).value, sessionId) == Success(v)
    ensures SaveStructuredAdmissionsData(db, sessionId, v).Success? ==>
      GetStructuredAdmissionsData(SaveStructuredAdmissionsData(db, sessionId, v).value, sessionId) == Success(v)
    ensures SaveProgramComparisonReport(db, sessionId, v).Success? ==>
      GetProgramComparisonReport(SaveProgramComparisonReport(db, sessionId, v).value, sessionId) == Success(v)
  {
  }

  /** A created session reads back pending with the given inputs, and the
      creation leaves every other session readable as before. */
  lemma CreateThenGet(db: Db, sessionId: string, other: string, userId: Json, a: Json, b: Json, at: string)
    requires sessionId !in db.essaySessions && sessionId !in db.programSessions
    requires other != sessionId
    ensures GetEssaySession(CreateEssaySession(db, sessionId, userId, a, b, at), sessionId)
      == Success(Session(userId, EssayInputs(a, b), at, Pending, None))
    ensures GetEssaySession(CreateEssaySession(db, sessionId, userId, a, b, at), other) == GetEssaySession(db, other)
    ensures GetProgramAnalysisSession(CreateProgramAnalysisSession(db, sessionId, userId, a, b, at), sessionId)
      == Success(Session(userId, ProgramInputs(a, b), at, Pending, None))
    ensures GetProgramAnalysisSession(CreateProgramAnalysisSession(db, sessionId, userId, a, b, at), other)
      == GetProgramAnalysisSession(db, other)
  {
  }

  /** Deleting a user leaves their essay results behind: the result record
      has no user_id, so the cascade never matches it. */
  lemma DeleteUserOrphansEssayResults(db: Db, userId: string, sessionId: string, text: Json, university: Json,
                                      outline: Json, refined: Json, createdAt: string, completedAt: string)
    requires sessionId !in db.essaySessions
    requires !HoldsNonDict(db.rawData) && !HoldsNonDict(db.structuredData) && !HoldsNonDict(db.comparisonReports)
    ensures var created := CreateEssaySession(db, sessionId, JStr(userId), text, university, createdAt);
            var saved := SaveEssayResults(created, sessionId, outline, refined, completedAt).value;
            var deleted := DeleteUser(saved, userId);
            && deleted.Success?
            && GetEssaySession(deleted.value, sessionId).Failure?
            && GetEssayResults(deleted.value, sessionId) == Success(EssayResult(outline, refined, completedAt))
  {
  }
}

=== FILE: tasks.dfy ===
/** The task-chain builder: up to five tasks, each gated on its agent being
    present and its upstream task having been emitted. */
module Tasks {
  import opened Results
  import opened Json
  import opened Text
  import opened Agents
  import opened ReportPaths

  datatype TaskName = Brainstorm | Refine | Scrape | Process | Compare

  /** The order in which the builder considers the tasks. */
  const Order: seq<TaskName> := [Brainstorm, Refine, Scrape, Process, Compare]

  function Position(t: TaskName): nat {
    match t
    case Brainstorm => 0
    case Refine => 1
    case Scrape => 2
    case Process => 3
    case Compare => 4
  }

  /** The registry key whose presence gates the task. */
  function AgentKey(t: TaskName): string {
    match t
    case Brainstorm => EssayBrainstormKey
    case Refine => EssayRefinementKey
    case Scrape => UniInfoScraperKey
    case Process => UniInfoProcessorKey
    case Compare => ProgramComparisonKey
  }

  /** The task whose output a task reads, if any. */
  function Upstream(t: TaskName): Option<TaskName> {
    match t
    case Brainstorm => None
    case Refine => Some(Brainstorm)
    case Scrape => None
    case Process => Some(Scrape)
    case Compare => Some(Process)
  }

  function ReportOf(t: TaskName): Report {
    match t
    case Brainstorm => EssayOutline
    case Refine => RefinedEssay
    case Scrape => RawAdmissions
    case Process => StructuredAdmissions
    case Compare => ComparisonReport
  }

  /** A task as the crew receives it; `context` names the tasks whose output
      it is given. */
  datatype Task = Task(name: TaskName, description: Template, agent: Agent, outputFile: string, context: seq<TaskName>)

  /** The builder's arguments. The text arguments are interpolated with
      Python's str(), so they are kept as the values the caller passed. */
  datatype TaskInputs = TaskInputs(
    sessionId: string,
    essayText: Json,
    targetUniversity: Json,
    styleGuidelines: Json,
    universityList: Json,
    comparisonCriteria: Json)

  /** The indentation of the description blocks in the builder's source. */
  const Indent := "            "

  // ---------------------------------------------------------------------------
  // Descriptions
  // ---------------------------------------------------------------------------

  /** The fixed wording of the descriptions, one constructor per phrase. */
  datatype Phrase =
    | StructureAndOutline | Instructions | IdentifyParts | OrganizeOutline | Expectations
    | RefineEssay | Important | EssayTextLabel | OutlineLabel | OutlinePlaceholder
    | ApplyLabel | GrammarStep | ToneStep | AlignmentStep | Period
    | ScrapeFrom | CollectCriteria
    | ProcessRaw | AccordingToCriteria
    | CompareUsing | FocusingOn | CriteriaLabel

  function PhraseText(p: Phrase): string {
    match p
    case StructureAndOutline => "Structure and outline" + " the uploaded essay text:"
    case Instructions => "Instructions:"
    case IdentifyParts => "1. Identify introduction, key body points, and conclusion."
    case OrganizeOutline => "2. Organize into a clear outline aligned with "
    case Expectations => " expectations."
    case RefineEssay => "Refine the uploaded essay text" + " using the outline from the previous task and style guidelines:"
    case Important => "**IMPORTANT** \U{2013} Please put each outline section into its own paragraph, in order, separated by a blank line."
    case EssayTextLabel => "Essay Text:"
    case OutlineLabel => "Outline:"
    case OutlinePlaceholder => "{{steps.essay_brainstorm.outline}}"
    case ApplyLabel => "Apply:"
    case GrammarStep => "1. Grammar, spelling, and punctuation correction."
    case ToneStep => "2. Tone and clarity enhancement."
    case AlignmentStep => "3. Alignment with university-specific expectations using "
    case Period => "."
    case ScrapeFrom => "Scrape admissions" + " data from the following universities:"
    case CollectCriteria => "Collect detailed information based on the following criteria:"
    // The first processing line keeps the trailing space it has in the source.
    case ProcessRaw => "Process the raw admissions data obtained from the previous task and extract all relevant information "
    case AccordingToCriteria => "according to the specified comparison " + "criteria. Transform this data into a " + "clean, well-" + "structure" + "d data."
    case CompareUsing => "Compare the university programs " + "using the " + "structure" + "d admissions data,"
    case FocusingOn => "focusing on the following criteria:"
    case CriteriaLabel => "- Comparison Criteria: "
  }

  /** A piece of an f-string line: fixed wording, or an interpolated value. */
  datatype Part = Fixed(phrase: Phrase) | Value(value: Json)

  /** One line of a description; the empty line is blank. */
  type Line = seq<Part>

  /** A description as written in the builder: its lines, each a sequence of
      fixed phrases and interpolated values. */
  type Template = seq<Line>

  function PartText(p: Part): string {
    match p
    case Fixed(ph) => PhraseText(ph)
    case Value(v) => Show(v)
  }

  function PartsText(ps: seq<Part>): string {
    Concat(seq(|ps|, i requires 0 <= i < |ps| => PartText(ps[i])))
  }

  /** A blank line is empty; any other line carries the block's indentation. */
  function LineText(l: Line): string {
    if l == [] then "" else Indent + PartsText(l)
  }

  /** The Python string of a description: a triple-quoted block of its lines.
      Every fixed phrase and every interpolated value appears in it. */
  function Render(d: Template): (r: string)
    ensures forall k, m | 0 <= k < |d| && 0 <= m < |d[k]| :: Contains(PartText(d[k][m]), r)
  {
    var ls := seq(|d|, i requires 0 <= i < |d| => LineText(d[i]));
    assert forall k, m | 0 <= k < |d| && 0 <= m < |d[k]| :: Contains(PartText(d[k][m]), Block(Indent, ls)) by {
      forall k, m | 0 <= k < |d| && 0 <= m < |d[k]| ensures Contains(PartText(d[k][m]), Block(Indent, ls)) {
        var ps := d[k];
        ConcatContains(seq(|ps|, i requires 0 <= i < |ps| => PartText(ps[i])), m);
        ContainsInMiddle(PartText(d[k][m]), Indent, PartsText(d[k]), "");
        assert Indent + PartsText(d[k]) + "" == ls[k];
        BlockContains(PartText(d[k][m]), Indent, ls, k);
      }
    }
    Block(Indent, ls)
  }

  function BrainstormTemplate(essayText: Json, targetUniversity: Json): Template {
    [ [Fixed(StructureAndOutline)],
      [],
      [Value(essayText)],
      [],
      [Fixed(Instructions)],
      [Fixed(IdentifyParts)],
      [Fixed(OrganizeOutline), Value(targetUniversity), Fixed(Expectations)] ]
  }

  function RefineTemplate(essayText: Json, styleGuidelines: Json): Template {
    [ [Fixed(RefineEssay)],
      [],
      [Fixed(Important)],
      [],
      [Fixed(EssayTextLabel)],
      [Value(essayText)],
      [],
      [Fixed(OutlineLabel)],
      [Fixed(OutlinePlaceholder)],
      [],
      [Fixed(ApplyLabel)],
      [Fixed(GrammarStep)],
      [Fixed(ToneStep)],
      [Fixed(AlignmentStep), Value(styleGuidelines), Fixed(Period)] ]
  }

  function ScrapeTemplate(universityList: Json, comparisonCriteria: Json): Template {
    [ [Fixed(ScrapeFrom)],
      [Value(universityList)],
      [],
      [Fixed(CollectCriteria)],
      [Value(comparisonCriteria)] ]
  }

  /** The processing task's description interpolates nothing. */
  const ProcessTemplate: Template := [ [Fixed(ProcessRaw)], [Fixed(AccordingToCriteria)] ]

  function CompareTemplate(comparisonCriteria: Json): Template {
    [ [Fixed(CompareUsing)],
      [Fixed(FocusingOn)],
      [Fixed(CriteriaLabel), Value(comparisonCriteria)] ]
  }

  /** The request values a task's description interpolates. */
  function ArgumentsOf(t: TaskName, inp: TaskInputs): set<Json> {
    match t
    case Brainstorm => {inp.essayText, inp.targetUniversity}
    case Refine => {inp.essayText, inp.styleGuidelines}
    case Scrape => {inp.universityList, inp.comparisonCriteria}
    case Process => {}
    case Compare => {inp.comparisonCriteria}
  }

  /** A task's description: its template, interpolating exactly that task's
      request values. */
  function DescriptionOf(t: TaskName, inp: TaskInputs): (d: Template)
    ensures ValuesOf(d) == ArgumentsOf(t, inp)
  {
    match t
    case Brainstorm =>
      BrainstormArguments(inp.essayText, inp.targetUniversity);
      BrainstormTemplate(inp.essayText, inp.targetUniversity)
    case Refine =>
      RefineArguments(inp.essayText, inp.styleGuidelines);
      RefineTemplate(inp.essayText, inp.styleGuidelines)
    case Scrape =>
      ScrapeArguments(inp.universityList, inp.comparisonCriteria);
      ScrapeTemplate(inp.universityList, inp.comparisonCriteria)
    case Process =>
      ProcessInterpolatesNothing();
      ProcessTemplate
    case Compare =>
      CompareArguments(inp.comparisonCriteria);
      CompareTemplate(inp.comparisonCriteria)
  }

  // ---------------------------------------------------------------------------
  // The builder
  // ---------------------------------------------------------------------------

  function ContextOf(t: TaskName): seq<TaskName> {
    match Upstream(t)
    case None => []
    case Some(u) => [u]
  }

  /** One task, bound to the agent of its key and to its session's output file. */
  function MakeTask(t: TaskName, inp: TaskInputs, agents: map<string, Agent>): (r: Task)
    requires AgentKey(t) in agents
    ensures r.name == t && r.agent == agents[AgentKey(t)]
  {
    Task(t, DescriptionOf(t, inp), agents[AgentKey(t)], OutputPath(ReportOf(t), inp.sessionId), ContextOf(t))
  }

  /** The essay-writing tasks: brainstorm when its key is present, refine when
      its key is present and brainstorm was appended. */
  function EssayTasks(inp: TaskInputs, agents: map<string, Agent>): (r: seq<Task>)
    ensures |r| <= 2
  {
    var t1 := if AgentKey(Brainstorm) in agents then [MakeTask(Brainstorm, inp, agents)] else [];
    var t2 := if AgentKey(Refine) in agents && t1 != [] then [MakeTask(Refine, inp, agents)] else [];
    t1 + t2
  }

  /** The program-analysis tasks: scrape, then process after scrape, then
      compare after process, each only when its key is present. */
  function ProgramTasks(inp: TaskInputs, agents: map<string, Agent>): (r: seq<Task>)
    ensures |r| <= 3
  {
    var t3 := if AgentKey(Scrape) in agents then [MakeTask(Scrape, inp, agents)] else [];
    var t4 := if AgentKey(Process) in agents && t3 != [] then [MakeTask(Process, inp, agents)] else [];
    var t5 := if AgentKey(Compare) in agents && t4 != [] then [MakeTask(Compare, inp, agents)] else [];
    t3 + t4 + t5
  }

  /** `create_college_exploration_tasks`: the essay tasks followed by the
      program-analysis tasks. */
  function CreateCollegeExplorationTasks(inp: TaskInputs, agents: map<string, Agent>): (r: seq<Task>)
    ensures |r| <= 5
  {
    EssayTasks(inp, agents) + ProgramTasks(inp, agents)
  }

  function Names(ts: seq<Task>): seq<TaskName> {
    seq(|ts|, i requires 0 <= i < |ts| => ts[i].name)
  }

  // ---------------------------------------------------------------------------
  // The gating rule as a reference definition
  // ---------------------------------------------------------------------------

  /** A task is emitted when its key is present and its upstream task, if it
      has one, is emitted. */
  predicate Emitted(agents: map<string, Agent>, t: TaskName)
    decreases Position(t)
  {
    AgentKey(t) in agents && (Upstream(t).None? || Emitted(agents, Upstream(t).value))
  }

  /** The emitted tasks among `ts`, in the order of `ts`. */
  function EmittedIn(agents: map<string, Agent>, ts: seq<TaskName>): (r: seq<TaskName>)
    ensures forall t | t in r :: t in ts && Emitted(agents, t)
    ensures forall t | t in ts && Emitted(agents, t) :: t in r
  {
    if ts == [] then []
    else (if Emitted(agents, ts[0]) then [ts[0]] else []) + EmittedIn(agents, ts[1..])
  }

  /** The tasks of the given names, in that order. */
  function MakeAll(names: seq<TaskName>, inp: TaskInputs, agents: map<string, Agent>): (r: seq<Task>)
    requires forall t | t in names :: AgentKey(t) in agents
    ensures |r| == |names|
  {
    if names == [] then [] else [MakeTask(names[0], inp, agents)] + MakeAll(names[1..], inp, agents)
  }

  lemma {:induction false} MakeAllAt(names: seq<TaskName>, inp: TaskInputs, agents: map<string, Agent>, i: nat)
    requires forall t | t in names :: AgentKey(t) in agents
    requires i < |names|
    ensures MakeAll(names, inp, agents)[i] == MakeTask(names[i], inp, agents)
    decreases i
  {
    if i > 0 {
      assert forall t | t in names[1..] :: t in names;
      MakeAllAt(names[1..], inp, agents, i - 1);
    }
  }

  lemma MakeAllAppend(a: seq<TaskName>, b: seq<TaskName>, inp: TaskInputs, agents: map<string, Agent>)
    requires forall t | t in a + b :: AgentKey(t) in agents
    ensures MakeAll(a + b, inp, agents) == MakeAll(a, inp, agents) + MakeAll(b, inp, agents)
  {
    assert forall t | t in a :: t in a + b;
    assert forall t | t in b :: t in a + b;
    var l, r := MakeAll(a + b, inp, agents), MakeAll(a, inp, agents) + MakeAll(b, inp, agents);
    forall i | 0 <= i < |l| ensures l[i] == r[i] {
      MakeAllAt(a + b, inp, agents, i);
      if i < |a| {
        MakeAllAt(a, inp, agents, i);
        assert (a + b)[i] == a[i];
      } else {
        MakeAllAt(b, inp, agents, i - |a|);
        assert (a + b)[i] == b[i - |a|];
      }
    }
  }

  /** The one-task list of `t` when it is emitted, else the empty list. */
  function IfEmitted(agents: map<string, Agent>, t: TaskName): seq<TaskName> {
    if Emitted(agents, t) then [t] else []
  }

  lemma EmittedInStep(agents: map<string, Agent>, t: TaskName, ts: seq<TaskName>)
    ensures EmittedIn(agents, [t] + ts) == IfEmitted(agents, t) + EmittedIn(agents, ts)
  {
    assert ([t] + ts)[1..] == ts;
  }

  lemma EmittedInOrder(agents: map<string, Agent>)
    ensures EmittedIn(agents, Order) ==
            IfEmitted(agents, Brainstorm) + (IfEmitted(agents, Refine) + (IfEmitted(agents, Scrape)
            + (IfEmitted(agents, Process) + IfEmitted(agents, Compare))))
  {
    EmittedInStep(agents, Compare, []);
    EmittedInStep(agents, Process, [Compare]);
    EmittedInStep(agents, Scrape, [Process, Compare]);
    EmittedInStep(agents, Refine, [Scrape, Process, Compare]);
    EmittedInStep(agents, Brainstorm, [Refine, Scrape, Process, Compare]);
    assert [Compare] == [Compare] + [];
    assert [Process, Compare] == [Process] + [Compare];
    assert [Scrape, Process, Compare] == [Scrape] + [Process, Compare];
    assert [Refine, Scrape, Process, Compare] == [Refine] + [Scrape, Process, Compare];
    assert Order == [Brainstorm] + [Refine, Scrape, Process, Compare];
  }

  lemma MakeAllIfEmitted(t: TaskName, inp: TaskInputs, agents: map<string, Agent>)
    ensures MakeAll(IfEmitted(agents, t), inp, agents) ==
            if Emitted(agents, t) then [MakeTask(t, inp, agents)] else []
  {
  }

  lemma EssayTasksEmitted(inp: TaskInputs, agents: map<string, Agent>)
    ensures EssayTasks(inp, agents) ==
            MakeAll(IfEmitted(agents, Brainstorm) + IfEmitted(agents, Refine), inp, agents)
  {
    MakeAllIfEmitted(Brainstorm, inp, agents);
    MakeAllIfEmitted(Refine, inp, agents);
    MakeAllAppend(IfEmitted(agents, Brainstorm), IfEmitted(agents, Refine), inp, agents);
  }

  lemma ProgramTasksEmitted(inp: TaskInputs, agents: map<string, Agent>)
    ensures ProgramTasks(inp, agents) ==
            MakeAll(IfEmitted(agents, Scrape) + (IfEmitted(agents, Process) + IfEmitted(agents, Compare)), inp, agents)
  {
    var e3, e4, e5 := IfEmitted(agents, Scrape), IfEmitted(agents, Process), IfEmitted(agents, Compare);
    MakeAllIfEmitted(Scrape, inp, agents);
    MakeAllIfEmitted(Process, inp, agents);
    MakeAllIfEmitted(Compare, inp, agents);
    MakeAllAppend(e4, e5, inp, agents);
    MakeAllAppend(e3, e4 + e5, inp, agents);
  }

  /** Building the two halves and joining them is building the whole. */
  lemma MakeAllJoin(e1: seq<TaskName>, e2: seq<TaskName>, e3: seq<TaskName>, e4: seq<TaskName>, e5: seq<TaskName>,
                    inp: TaskInputs, agents: map<string, Agent>)
    requires forall t | t in e1 + (e2 + (e3 + (e4 + e5))) :: AgentKey(t) in agents
    ensures forall t | t in e1 + e2 :: AgentKey(t) in agents
    ensures forall t | t in e3 + (e4 + e5) :: AgentKey(t) in agents
    ensures MakeAll(e1 + e2, inp, agents) + MakeAll(e3 + (e4 + e5), inp, agents) ==
            MakeAll(e1 + (e2 + (e3 + (e4 + e5))), inp, agents)
  {
    assert e1 + (e2 + (e3 + (e4 + e5))) == (e1 + e2) + (e3 + (e4 + e5));
    MakeAllAppend(e1 + e2, e3 + (e4 + e5), inp, agents);
  }

  /** The builder emits exactly the emitted tasks, in the canonical order. */
  lemma BuildIsEmittedInOrder(inp: TaskInputs, agents: map<string, Agent>)
    ensures CreateCollegeExplorationTasks(inp, agents) == MakeAll(EmittedIn(agents, Order), inp, agents)
  {
    var e1, e2, e3 := IfEmitted(agents, Brainstorm), IfEmitted(agents, Refine), IfEmitted(agents, Scrape);
    var e4, e5 := IfEmitted(agents, Process), IfEmitted(agents, Compare);
    EssayTasksEmitted(inp, agents);
    ProgramTasksEmitted(inp, agents);
    EmittedInOrder(agents);
    MakeAllJoin(e1, e2, e3, e4, e5, inp, agents);
  }

  lemma NamesOfMakeAll(names: seq<TaskName>, inp: TaskInputs, agents: map<string, Agent>)
    requires forall t | t in names :: AgentKey(t) in agents
    ensures Names(MakeAll(names, inp, agents)) == names
  {
    forall i | 0 <= i < |names| ensures Names(MakeAll(names, inp, agents))[i] == names[i] {
      MakeAllAt(names, inp, agents, i);
    }
  }

  /** Positions strictly increase along the sequence. */
  predicate InOrder(ts: seq<TaskName>) {
    forall i, j | 0 <= i < j < |ts| :: Position(ts[i]) < Position(ts[j])
  }

  lemma InOrderTail(ts: seq<TaskName>)
    requires ts != [] && InOrder(ts)
    ensures InOrder(ts[1..])
  {
    var rest := ts[1..];
    forall i, j | 0 <= i < j < |rest| ensures Position(rest[i]) < Position(rest[j]) {
      assert rest[i] == ts[i + 1] && rest[j] == ts[j + 1];
    }
  }

  /** The head of an ordered sequence comes before everything in its tail. */
  lemma HeadBeforeTail(ts: seq<TaskName>, tail: seq<TaskName>)
    requires ts != [] && InOrder(ts)
    requires forall t | t in tail :: t in ts[1..]
    ensures forall t | t in tail :: Position(ts[0]) < Position(t)
  {
    forall t | t in tail ensures Position(ts[0]) < Position(t) {
      var k :| 0 <= k < |ts[1..]| && ts[1..][k] == t;
      assert ts[1..][k] == ts[k + 1];
    }
  }

  lemma InOrderCons(t: TaskName, tail: seq<TaskName>)
    requires InOrder(tail)
    requires forall u | u in tail :: Position(t) < Position(u)
    ensures InOrder([t] + tail)
  {
    var r := [t] + tail;
    forall i, j | 0 <= i < j < |r| ensures Position(r[i]) < Position(r[j]) {
      assert r[j] == tail[j - 1];
      if i > 0 { assert r[i] == tail[i - 1]; } else { assert r[j] in tail; }
    }
  }

  /** Keeping the emitted tasks keeps the order. */
  lemma {:induction false} EmittedInKeepsOrder(agents: map<string, Agent>, ts: seq<TaskName>)
    requires InOrder(ts)
    ensures InOrder(EmittedIn(agents, ts))
  {
    if ts != [] {
      var rest := ts[1..];
      InOrderTail(ts);
      EmittedInKeepsOrder(agents, rest);
      var tail := EmittedIn(agents, rest);
      HeadBeforeTail(ts, tail);
      if Emitted(agents, ts[0]) {
        InOrderCons(ts[0], tail);
        assert EmittedIn(agents, ts) == [ts[0]] + tail;
      } else {
        assert EmittedIn(agents, ts) == tail;
      }
    }
  }

  /** The emitted tasks, by name, in the order the builder returns them. */
  lemma BuildNames(inp: TaskInputs, agents: map<string, Agent>)
    ensures Names(CreateCollegeExplorationTasks(inp, agents)) == EmittedIn(agents, Order)
    ensures InOrder(Names(CreateCollegeExplorationTasks(inp, agents)))
  {
    BuildIsEmittedInOrder(inp, agents);
    NamesOfMakeAll(EmittedIn(agents, Order), inp, agents);
    EmittedInKeepsOrder(agents, Order);
  }

  /** The reference gating rule, read off the emitted names. */
  lemma EmittedGating(agents: map<string, Agent>)
    ensures var names := EmittedIn(agents, Order);
      && (Brainstorm in names <==> EssayBrainstormKey in agents)
      && (Refine in names <==> EssayRefinementKey in agents && Brainstorm in names)
      && (Scrape in names <==> UniInfoScraperKey in agents)
      && (Process in names <==> UniInfoProcessorKey in agents && Scrape in names)
      && (Compare in names <==> ProgramComparisonKey in agents && Process in names)
  {
    assert Brainstorm in Order && Refine in Order && Scrape in Order && Process in Order && Compare in Order;
  }

  /** Each task is emitted exactly when its key is present and its upstream
      task, if any, was emitted. */
  lemma GatingRules(inp: TaskInputs, agents: map<string, Agent>)
    ensures var names := Names(CreateCollegeExplorationTasks(inp, agents));
      && (Brainstorm in names <==> EssayBrainstormKey in agents)
      && (Refine in names <==> EssayRefinementKey in agents && Brainstorm in names)
      && (Scrape in names <==> UniInfoScraperKey in agents)
      && (Process in names <==> UniInfoProcessorKey in agents && Scrape in names)
      && (Compare in names <==> ProgramComparisonKey in agents && Process in names)
  {
    BuildNames(inp, agents);
    EmittedGating(agents);
  }

  /** Every task is bound to the agent of the key that gated it, reads the
      task it depends on, and writes to its own file in the session's
      report directory. */
  lemma TaskFields(inp: TaskInputs, agents: map<string, Agent>, i: nat)
    requires i < |CreateCollegeExplorationTasks(inp, agents)|
    ensures var t := CreateCollegeExplorationTasks(inp, agents)[i];
      && AgentKey(t.name) in agents && t.agent == agents[AgentKey(t.name)]
      && t.description == DescriptionOf(t.name, inp)
      && t.context == ContextOf(t.name)
      && t.outputFile == ReportRoot + inp.sessionId + "/" + FileName(ReportOf(t.name))
  {
    var names := EmittedIn(agents, Order);
    BuildIsEmittedInOrder(inp, agents);
    MakeAllAt(names, inp, agents, i);
    OutputPathShape(ReportOf(names[i]), inp.sessionId);
  }

  /** A task's upstream task has a smaller position, and is emitted when the
      task is. */
  lemma UpstreamBefore(agents: map<string, Agent>, t: TaskName, u: TaskName)
    requires Upstream(t) == Some(u)
    ensures Position(u) < Position(t)
    ensures Emitted(agents, t) ==> Emitted(agents, u)
  {
  }

  lemma EarlierInOrder(ts: seq<TaskName>, i: nat, j: nat)
    requires InOrder(ts) && i < |ts| && j < |ts| && Position(ts[j]) < Position(ts[i])
    ensures j < i
  {
  }

  /** In an ordered sequence holding exactly the emitted tasks, an emitted
      task's upstream task occurs, and earlier. */
  lemma UpstreamIn(agents: map<string, Agent>, names: seq<TaskName>, i: nat, u: TaskName) returns (j: nat)
    requires InOrder(names) && forall t :: t in names <==> Emitted(agents, t)
    requires i < |names| && Upstream(names[i]) == Some(u)
    ensures j < i && names[j] == u
  {
    assert names[i] in names;
    UpstreamBefore(agents, names[i], u);
    assert u in names;
    j :| 0 <= j < |names| && names[j] == u;
    EarlierInOrder(names, i, j);
  }

  /** Every task is considered, so the emitted names are the emitted tasks. */
  lemma EmittedInOrderIsEmitted(agents: map<string, Agent>)
    ensures forall t :: t in EmittedIn(agents, Order) <==> Emitted(agents, t)
  {
    forall t ensures t in Order {
      match t
      case Brainstorm => assert Order[0] == t;
      case Refine => assert Order[1] == t;
      case Scrape => assert Order[2] == t;
      case Process => assert Order[3] == t;
      case Compare => assert Order[4] == t;
    }
  }

  /** An emitted task's upstream task is emitted, and earlier. */
  lemma UpstreamEarlier(agents: map<string, Agent>, i: nat, u: TaskName) returns (j: nat)
    requires i < |EmittedIn(agents, Order)| && Upstream(EmittedIn(agents, Order)[i]) == Some(u)
    ensures j < i && EmittedIn(agents, Order)[j] == u
  {
    EmittedInKeepsOrder(agents, Order);
    EmittedInOrderIsEmitted(agents);
    j := UpstreamIn(agents, EmittedIn(agents, Order), i, u);
  }

  /** A task's context is the task it depends on, and that task comes earlier
      in the list. */
  lemma ContextPrecedes(inp: TaskInputs, agents: map<string, Agent>, i: nat, u: TaskName) returns (j: nat)
    requires i < |CreateCollegeExplorationTasks(inp, agents)|
    requires u in CreateCollegeExplorationTasks(inp, agents)[i].context
    ensures j < i && CreateCollegeExplorationTasks(inp, agents)[j].name == u
  {
    var ts := CreateCollegeExplorationTasks(inp, agents);
    TaskFields(inp, agents, i);
    BuildNames(inp, agents);
    assert ts[i].name == Names(ts)[i];
    j := UpstreamEarlier(agents, i, u);
    assert ts[j].name == Names(ts)[j];
  }

  // ---------------------------------------------------------------------------
  // What the descriptions carry
  // ---------------------------------------------------------------------------

  /** The interpolated values of a template. */
  function ValuesOf(d: Template): set<Json> {
    set k, m | 0 <= k < |d| && 0 <= m < |d[k]| && d[k][m].Value? :: d[k][m].value
  }

  /** Which arguments each description interpolates. */
  lemma BrainstormArguments(essayText: Json, targetUniversity: Json)
    ensures ValuesOf(BrainstormTemplate(essayText, targetUniversity)) == {essayText, targetUniversity}
  {
    var d: Template := BrainstormTemplate(essayText, targetUniversity);
    forall k, m | 0 <= k < |d| && 0 <= m < |d[k]| && d[k][m].Value? ensures d[k][m].value in {essayText, targetUniversity} {
      assert k == 0 || k == 1 || k == 2 || k == 3 || k == 4 || k == 5 || k == 6;
    }
    assert d[2][0].value == essayText;
    assert d[6][1].value == targetUniversity;
  }

  lemma RefineArguments(essayText: Json, styleGuidelines: Json)
    ensures ValuesOf(RefineTemplate(essayText, styleGuidelines)) == {essayText, styleGuidelines}
  {
    var d: Template := RefineTemplate(essayText, styleGuidelines);
    forall k, m | 0 <= k < |d| && 0 <= m < |d[k]| && d[k][m].Value? ensures d[k][m].value in {essayText, styleGuidelines} {
      assert k == 0 || k == 1 || k == 2 || k == 3 || k == 4 || k == 5 || k == 6 || k == 7 || k == 8 || k == 9 || k == 10 || k == 11 || k == 12 || k == 13;
    }
    assert d[5][0].value == essayText;
    assert d[13][1].value == styleGuidelines;
  }

  lemma ScrapeArguments(universityList: Json, comparisonCriteria: Json)
    ensures ValuesOf(ScrapeTemplate(universityList, comparisonCriteria)) == {universityList, comparisonCriteria}
  {
    var d: Template := ScrapeTemplate(universityList, comparisonCriteria);
    forall k, m | 0 <= k < |d| && 0 <= m < |d[k]| && d[k][m].Value? ensures d[k][m].value in {universityList, comparisonCriteria} {
      assert k == 0 || k == 1 || k == 2 || k == 3 || k == 4;
    }
    assert d[1][0].value == universityList;
    assert d[4][0].value == comparisonCriteria;
  }

  /** The processing task's description interpolates no argument. */
  lemma ProcessInterpolatesNothing()
    ensures ValuesOf(ProcessTemplate) == {}
  {
  }

  lemma CompareArguments(comparisonCriteria: Json)
    ensures ValuesOf(CompareTemplate(comparisonCriteria)) == {comparisonCriteria}
  {
    var d: Template := CompareTemplate(comparisonCriteria);
    forall k, m | 0 <= k < |d| && 0 <= m < |d[k]| && d[k][m].Value? ensures d[k][m].value in {comparisonCriteria} {
      assert k == 0 || k == 1 || k == 2;
    }
    assert d[2][1].value == comparisonCriteria;
  }

  // The user's text reaches the agents: each description holds the str() of
  // the arguments it interpolates.

  lemma BrainstormEmbedsArguments(inp: TaskInputs)
    ensures Contains(Show(inp.essayText), Render(DescriptionOf(Brainstorm, inp)))
    ensures Contains(Show(inp.targetUniversity), Render(DescriptionOf(Brainstorm, inp)))
  {
    var d: Template := DescriptionOf(Brainstorm, inp);
    assert Contains(PartText(d[2][0]), Render(d));
    assert PartText(d[2][0]) == Show(inp.essayText);
    assert Contains(PartText(d[6][1]), Render(d));
    assert PartText(d[6][1]) == Show(inp.targetUniversity);
  }

  lemma RefineEmbedsArguments(inp: TaskInputs)
    ensures Contains(Show(inp.essayText), Render(DescriptionOf(Refine, inp)))
    ensures Contains(Show(inp.styleGuidelines), Render(DescriptionOf(Refine, inp)))
  {
    var d: Template := DescriptionOf(Refine, inp);
    assert Contains(PartText(d[5][0]), Render(d));
    assert PartText(d[5][0]) == Show(inp.essayText);
    assert Contains(PartText(d[13][1]), Render(d));
    assert PartText(d[13][1]) == Show(inp.styleGuidelines);
  }

  lemma ScrapeEmbedsArguments(inp: TaskInputs)
    ensures Contains(Show(inp.universityList), Render(DescriptionOf(Scrape, inp)))
    ensures Contains(Show(inp.comparisonCriteria), Render(DescriptionOf(Scrape, inp)))
  {
    var d: Template := DescriptionOf(Scrape, inp);
    assert Contains(PartText(d[1][0]), Render(d));
    assert PartText(d[1][0]) == Show(inp.universityList);
    assert Contains(PartText(d[4][0]), Render(d));
    assert PartText(d[4][0]) == Show(inp.comparisonCriteria);
  }

  lemma CompareEmbedsArguments(inp: TaskInputs)
    ensures Contains(Show(inp.comparisonCriteria), Render(DescriptionOf(Compare, inp)))
  {
    var d: Template := DescriptionOf(Compare, inp);
    assert Contains(PartText(d[2][1]), Render(d));
    assert PartText(d[2][1]) == Show(inp.comparisonCriteria);
  }

  /** The refinement description carries the outline placeholder literally:
      the builder never substitutes the brainstorm output into it. */
  lemma RefineKeepsPlaceholder(inp: TaskInputs)
    ensures Contains("{{steps.essay_brainstorm.outline}}", Render(DescriptionOf(Refine, inp)))
  {
    var d: Template := DescriptionOf(Refine, inp);
    assert Contains(PartText(d[8][0]), Render(d));
    assert PartText(d[8][0]) == "{{steps.essay_brainstorm.outline}}";
  }
}

=== FILE: text.dfy ===
/** The string operations the session layer relies on: Python's `in` on
    strings, `lower()`, `strip()`, and the triple-quoted text blocks that task
    descriptions and prompts are written in. */
module Text {

  // ---------------------------------------------------------------------------
  // Substring search (`p in s`)
  // ---------------------------------------------------------------------------

  predicate OccursAt(p: string, s: string, i: int) {
    0 <= i && i + |p| <= |s| && s[i..i + |p|] == p
  }

  /** Python's `p in s` for strings. */
  predicate Contains(p: string, s: string) {
    exists i | 0 <= i <= |s| - |p| :: OccursAt(p, s, i)
  }

  lemma ContainsInMiddle(p: string, a: string, b: string, c: string)
    requires Contains(p, b)
    ensures Contains(p, a + b + c)
  {
    var i: int :| 0 <= i <= |b| - |p| && OccursAt(p, b, i);
    var s := a + b + c;
    assert s[|a| + i..|a| + i + |p|] == b[i..i + |p|];
    assert OccursAt(p, s, |a| + i);
  }

  lemma ContainsItself(p: string, a: string, c: string)
    ensures Contains(p, a + p + c)
  {
    assert OccursAt(p, p, 0);
    ContainsInMiddle(p, a, p, c);
  }

  // ---------------------------------------------------------------------------
  // Case folding (`lower()`), on the ASCII letters
  // ---------------------------------------------------------------------------

  predicate IsUpper(c: char) {
    'A' <= c <= 'Z'
  }

  function LowerChar(c: char): char {
    if IsUpper(c) then (c as int + 32) as char else c
  }

  /** Python's `s.lower()` on the ASCII letters: every upper-case letter
      becomes its lower-case partner, and nothing else moves. */
  function Lower(s: string): string {
    seq(|s|, i requires 0 <= i < |s| => LowerChar(s[i]))
  }

  /** The lowered text has the same length, no upper-case letter, and the
      original's character wherever that was not an upper-case letter;
      lowering it again changes nothing. */
  lemma LowerFolds(s: string)
    ensures |Lower(s)| == |s|
    ensures forall i | 0 <= i < |s| :: !IsUpper(Lower(s)[i]) && (IsUpper(s[i]) || Lower(s)[i] == s[i])
    ensures forall i | 0 <= i < |s| :: IsUpper(s[i]) ==> Lower(s)[i] as int == s[i] as int + 32
    ensures Lower(Lower(s)) == Lower(s)
  {
  }

  lemma LowerAppend(a: string, b: string)
    ensures Lower(a + b) == Lower(a) + Lower(b)
  {
  }

  /** A phrase found in the lower-cased middle of a text is found in the
      lower-cased whole. */
  lemma ContainsLowered(p: string, a: string, b: string, c: string)
    requires Contains(p, Lower(b))
    ensures Contains(p, Lower(a + b + c))
  {
    LowerAppend(a + b, c);
    LowerAppend(a, b);
    ContainsInMiddle(p, Lower(a), Lower(b), Lower(c));
  }

  /** A phrase found in the lower-cased form of a piece is found in the
      lower-cased form of any text holding that piece. */
  lemma ContainsLoweredWithin(p: string, x: string, s: string)
    requires Contains(x, s) && Contains(p, Lower(x))
    ensures Contains(p, Lower(s))
  {
    var i: int :| 0 <= i <= |s| - |x| && OccursAt(x, s, i);
    assert s == s[..i] + x + s[i + |x|..];
    ContainsLowered(p, s[..i], x, s[i + |x|..]);
  }

  /** A text whose head lower-cases to the phrase holds the phrase once
      lower-cased. */
  lemma LoweredHead(p: string, a: string, head: string, c: string)
    requires Lower(head) == p
    ensures Contains(p, Lower(a + head + c))
  {
    assert OccursAt(p, p, 0);
    ContainsLowered(p, a, head, c);
  }

  /** A text whose slice at `i` lower-cases to the phrase holds the phrase
      once lower-cased. */
  lemma LoweredSlice(p: string, s: string, i: nat, n: nat)
    requires i + n <= |s| && Lower(s[i..i + n]) == p
    ensures Contains(p, Lower(s))
  {
    assert s == s[..i] + s[i..i + n] + s[i + n..];
    LoweredHead(p, s[..i], s[i..i + n], s[i + n..]);
  }

  // ---------------------------------------------------------------------------
  // Whitespace stripping (`strip()`)
  // ---------------------------------------------------------------------------

  /** Python's str.isspace() for one character. */
  predicate IsSpace(c: char) {
    || '\t' <= c <= '\r'
    || '\U{1C}' <= c <= ' '
    || c == '\U{85}' || c == '\U{A0}' || c == '\U{1680}'
    || '\U{2000}' <= c <= '\U{200A}'
    || c == '\U{2028}' || c == '\U{2029}' || c == '\U{202F}' || c == '\U{205F}' || c == '\U{3000}'
  }

  function TrimStart(s: string): string {
    if s != [] && IsSpace(s[0]) then TrimStart(s[1..]) else s
  }

  function TrimEnd(s: string): string {
    if s != [] && IsSpace(s[|s| - 1]) then TrimEnd(s[..|s| - 1]) else s
  }

  /** Python's `s.strip()`. */
  function Strip(s: string): string {
    TrimEnd(TrimStart(s))
  }

  lemma {:induction false} TrimStartWindow(s: string) returns (a: nat)
    ensures a <= |s| && TrimStart(s) == s[a..]
    ensures forall j :: 0 <= j < a ==> IsSpace(s[j])
    ensures a < |s| ==> !IsSpace(s[a])
    decreases |s|
  {
    if s != [] && IsSpace(s[0]) {
      var a' := TrimStartWindow(s[1..]);
      a := a' + 1;
      assert s[1..][a'..] == s[a..];
      forall j | 0 <= j < a ensures IsSpace(s[j]) {
        if j > 0 { assert s[j] == s[1..][j - 1]; }
      }
    } else {
      a := 0;
    }
  }

  lemma {:induction false} TrimEndWindow(s: string) returns (b: nat)
    ensures b <= |s| && TrimEnd(s) == s[..b]
    ensures forall j :: b <= j < |s| ==> IsSpace(s[j])
    ensures b > 0 ==> !IsSpace(s[b - 1])
    decreases |s|
  {
    if s != [] && IsSpace(s[|s| - 1]) {
      var s' := s[..|s| - 1];
      b := TrimEndWindow(s');
      assert s'[..b] == s[..b];
      forall j | b <= j < |s| ensures IsSpace(s[j]) {
        if j < |s| - 1 { assert s[j] == s'[j]; }
      }
    } else {
      b := |s|;
    }
  }

  /** strip() keeps a window of the text and drops only whitespace around it;
      the window neither starts nor ends with whitespace. */
  lemma StripWindow(s: string) returns (a: nat, b: nat)
    ensures a <= b <= |s| && Strip(s) == s[a..b]
    ensures forall j :: 0 <= j < a ==> IsSpace(s[j])
    ensures forall j :: b <= j < |s| ==> IsSpace(s[j])
    ensures a < b ==> !IsSpace(s[a]) && !IsSpace(s[b - 1])
  {
    a := TrimStartWindow(s);
    var t := s[a..];
    var b' := TrimEndWindow(t);
    b := a + b';
    assert t[..b'] == s[a..b];
    forall j | b <= j < |s| ensures IsSpace(s[j]) {
      assert s[j] == t[j - a];
    }
  }

  /** Searching a window that only leaves out whitespace finds what searching
      the whole text finds, for a phrase with no whitespace at either end. */
  lemma WindowKeepsContains(p: string, t: string, a: nat, b: nat)
    requires |p| > 0 && !IsSpace(p[0]) && !IsSpace(p[|p| - 1])
    requires a <= b <= |t|
    requires forall j :: 0 <= j < a ==> IsSpace(t[j])
    requires forall j :: b <= j < |t| ==> IsSpace(t[j])
    ensures Contains(p, t[a..b]) <==> Contains(p, t)
  {
    var w := t[a..b];
    if Contains(p, w) {
      var i: int :| 0 <= i <= |w| - |p| && OccursAt(p, w, i);
      assert forall k :: 0 <= k < |p| ==> t[a + i + k] == w[i + k] == p[k];
      assert t[a + i..a + i + |p|] == p;
      assert OccursAt(p, t, a + i);
    }
    if Contains(p, t) {
      var i: int :| 0 <= i <= |t| - |p| && OccursAt(p, t, i);
      assert forall k :: 0 <= k < |p| ==> t[i + k] == p[k];
      assert t[i] == p[0];
      assert t[i + |p| - 1] == p[|p| - 1];
      assert a <= i;
      assert i + |p| <= b;
      forall k | 0 <= k < |p| ensures w[i - a..i - a + |p|][k] == p[k] {
        assert w[i - a + k] == t[i + k];
      }
      assert w[i - a..i - a + |p|] == p;
      assert OccursAt(p, w, i - a);
    }
  }

  /** Routing looks at `s.strip().lower()`: stripping never hides or reveals a
      phrase that has no whitespace at either end. */
  lemma StripKeepsContains(p: string, s: string)
    requires |p| > 0 && !IsSpace(p[0]) && !IsSpace(p[|p| - 1])
    ensures Contains(p, Lower(Strip(s))) <==> Contains(p, Lower(s))
  {
    var a, b := StripWindow(s);
    var t := Lower(s);
    assert Lower(Strip(s)) == t[a..b];
    forall j | 0 <= j < a ensures IsSpace(t[j]) {
      assert t[j] == LowerChar(s[j]);
    }
    forall j | b <= j < |t| ensures IsSpace(t[j]) {
      assert t[j] == LowerChar(s[j]);
    }
    WindowKeepsContains(p, t, a, b);
  }

  // ---------------------------------------------------------------------------
  // Lines and triple-quoted blocks
  // ---------------------------------------------------------------------------

  /** Each line followed by a newline. */
  function Lines(ls: seq<string>): string {
    if ls == [] then "" else ls[0] + "\n" + Lines(ls[1..])
  }

  /** A Python triple-quoted literal that opens with a line break, holds the
      given lines, and closes on a line carrying only `indent`. */
  function Block(indent: string, ls: seq<string>): string {
    "\n" + Lines(ls) + indent
  }

  /** The pieces written one after another. */
  function Concat(ss: seq<string>): string {
    if ss == [] then "" else ss[0] + Concat(ss[1..])
  }

  lemma {:induction false} ConcatContains(ss: seq<string>, m: nat)
    requires m < |ss|
    ensures Contains(ss[m], Concat(ss))
    decreases m
  {
    if m == 0 {
      ContainsItself(ss[0], "", Concat(ss[1..]));
      assert "" + ss[0] + Concat(ss[1..]) == Concat(ss);
    } else {
      ConcatContains(ss[1..], m - 1);
      ContainsInMiddle(ss[m], ss[0], Concat(ss[1..]), "");
      assert ss[0] + Concat(ss[1..]) + "" == Concat(ss);
    }
  }

  /** `sep.join(parts)`. */
  function Join(sep: string, parts: seq<string>): string {
    if parts == [] then ""
    else if |parts| == 1 then parts[0]
    else parts[0] + sep + Join(sep, parts[1..])
  }

  /** Every part appears in the joined text. */
  lemma {:induction false} JoinContains(sep: string, parts: seq<string>, k: nat)
    requires k < |parts|
    ensures Contains(parts[k], Join(sep, parts))
    decreases k
  {
    if |parts| == 1 {
      ContainsItself(parts[0], "", "");
      assert "" + parts[0] + "" == Join(sep, parts);
    } else if k == 0 {
      ContainsItself(parts[0], "", sep + Join(sep, parts[1..]));
      assert "" + parts[0] + (sep + Join(sep, parts[1..])) == Join(sep, parts);
    } else {
      JoinContains(sep, parts[1..], k - 1);
      ContainsInMiddle(parts[k], parts[0] + sep, Join(sep, parts[1..]), "");
      assert parts[0] + sep + Join(sep, parts[1..]) + "" == Join(sep, parts);
    }
  }

  lemma {:induction false} LinesContain(p: string, ls: seq<string>, k: nat)
    requires k < |ls| && Contains(p, ls[k])
    ensures Contains(p, Lines(ls))
    decreases k
  {
    if k == 0 {
      ContainsInMiddle(p, "", ls[0], "\n" + Lines(ls[1..]));
      assert "" + ls[0] + ("\n" + Lines(ls[1..])) == Lines(ls);
    } else {
      LinesContain(p, ls[1..], k - 1);
      ContainsInMiddle(p, ls[0] + "\n", Lines(ls[1..]), "");
      assert ls[0] + "\n" + Lines(ls[1..]) + "" == Lines(ls);
    }
  }

  lemma {:induction false} LinesContainLowered(p: string, ls: seq<string>, k: nat)
    requires k < |ls| && Contains(p, Lower(ls[k]))
    ensures Contains(p, Lower(Lines(ls)))
    decreases k
  {
    if k == 0 {
      ContainsLowered(p, "", ls[0], "\n" + Lines(ls[1..]));
      assert "" + ls[0] + ("\n" + Lines(ls[1..])) == Lines(ls);
    } else {
      LinesContainLowered(p, ls[1..], k - 1);
      ContainsLowered(p, ls[0] + "\n", Lines(ls[1..]), "");
      assert ls[0] + "\n" + Lines(ls[1..]) + "" == Lines(ls);
    }
  }

  /** A block holds every one of its lines. */
  lemma BlockContains(p: string, indent: string, ls: seq<string>, k: nat)
    requires k < |ls| && Contains(p, ls[k])
    ensures Contains(p, Block(indent, ls))
  {
    LinesContain(p, ls, k);
    ContainsInMiddle(p, "\n", Lines(ls), indent);
  }

  /** Routing a block by a lower-case phrase: the phrase found in one
      lower-cased line is found in the lower-cased, stripped block. */
  lemma BlockContainsLowered(p: string, indent: string, ls: seq<string>, k: nat)
    requires k < |ls| && Contains(p, Lower(ls[k]))
    requires |p| > 0 && !IsSpace(p[0]) && !IsSpace(p[|p| - 1])
    ensures Contains(p, Lower(Strip(Block(indent, ls))))
  {
    LinesContainLowered(p, ls, k);
    ContainsLowered(p, "\n", Lines(ls), indent);
    StripKeepsContains(p, Block(indent, ls));
  }
}
